=== FILE: README.md ===
# ConcurrentWitness2Test, modelled in Dafny

ConcurrentWitness2Test checks a violation witness for a concurrent C
program by turning the witness into a test. It reads the witness, a GraphML
automaton, and extracts the single path from its entry node. Each edge on
the path gives source coordinates and a thread id. Wherever the thread
changes, it inserts a `yield(i, t)` call before the first statement at or
after that line, and a matching `release(i, t)` after it, into the parsed
program. The runtime stub makes these calls a rendezvous that forces the
witnessed interleaving. The program is then tidied for the compiler,
compiled and run up to 100 times. The verdict (ALWAYS, NEVER, SOMETIMES or
TIMEOUT) says whether the run reached `reach_error`.

The model covers:

- the source-position arithmetic (`SourceText`);
- the witness path extraction (`WitnessGraph`);
- the statement tree with paths into it (`Ast`);
- the statement search (`Search`);
- the yield/release instrumentation (`Instrument`);
- the three tidy-ups of the translation unit (`Tweaks`);
- the trial loop and the verdict (`Trials`);
- the text clean-up helpers (`Cleanup`);
- the driver that composes them (`Validator`).

Python exceptions become values of `Failures.Failure`:

- a `KnownErrorVerdict` becomes the constructor with its message;
- any other exception becomes `Crashed(kind)`, which the driver reports as "Incompatible witness";
- a loop of the source that never ends becomes `Diverges`.

The parser, the graph library, the compiler and the executions are outside
the model. Their results are inputs: the statement tree, the witness graph,
the compiler's exit code, and one `Run` per possible trial.

## Model

| member | source | states |
|---|---|---|
| SourceText.ReadLineSpec | witness2ast.py:26 | one `readline()` consumes up to and including the next newline, or to the end of the file when there is none |
| SourceText.AdvanceSpec | witness2ast.py:23-27 | after k `readline()` calls the position is just past the k-th newline, or the end of the file when there are fewer than k newlines |
| SourceText.OffsetOfLineSpec | witness2ast.py:23-27 | `get_offset_of_line(n)` is 0 for n ≤ 1; otherwise it is the offset just past the (n-1)-th newline, i.e. the summed length of lines 1..n-1; past the last line it is the file length |
| SourceText.LineOfOffsetLoop | witness2ast.py:32-37 | the `while f.tell() <= offset` loop ends on the line holding the offset, with the column measured from that line's start |
| SourceText.LineOfOffset | witness2ast.py:30-37 | for 0 ≤ o < \|file\| the result is the 1-based line whose range holds o and the column o − start(line); a negative offset gives (0, o); offsets at or past the end are excluded because the loop never ends |
| SourceText.LineOfOffsetRoundTrip | witness2ast.py:23-37 | the start offset of every non-empty line maps back to (line, 0) |
| SourceText.Derive | witness2ast.py:41-48 | the start line is kept, and so is every other hint that is present and non-zero (Python truthiness); with a truthy start line, a missing or zero end line becomes the start line and a missing start offset becomes the offset of the start line's first character; with a truthy (derived) end line, a missing end offset becomes the offset of the following line's first character |
| SourceText.GetCoords | witness2ast.py:40-57 | None exactly when no truthy end offset can be derived; failures are only a missing hint, a negative seek, or divergence (a start offset at or past the end of the file); with a truthy end offset: a missing hint exactly when the start offset is absent, or lies in the file with no end line; a negative seek exactly when the start offset is negative; divergence exactly when it is at or past the end of the file; a record exactly when the start offset lies in the file and the end line is present; a record has the line and column of the start offset, length end − start + 1, and content read from the start offset with end − start − 1 characters |
| SourceText.GetCoordsLineOnly | witness2ast.py:40-57 | with only a start line n: the end line is n, the column is 0, the start line comes back as n, and the content is line n without its last character |
| SourceText.GetCoordsOffsets | witness2ast.py:50-56 | with explicit offsets the length is end − start + 1 while the content holds end − start − 1 characters |
| SourceText.GetCoordsNoHints | witness2ast.py:41-57 | absent or zero hints give no coordinates |
| Search.FirstMatch | witness2ast.py:75-82 | the result is a candidate whose line is at or after the target and no earlier candidate qualifies; no result means no candidate qualifies |
| Search.SearchNodeIsFirstMatch | witness2ast.py:68-83 | the visitor returns the first block item, in its visiting order, whose line is at or after the target |
| Search.SearchBlockIsFirstMatch | witness2ast.py:72-83 | `visit_Compound` returns the first qualifying candidate of the block's items and of what `generic_visit` reaches below them |
| Search.SearchItemsIsFirstMatch | witness2ast.py:75-83 | the item loop returns the first qualifying candidate from item k on |
| Search.SearchChildrenIsFirstMatch | witness2ast.py:83 | `generic_visit` returns the first qualifying candidate among the children, in pycparser's order |
| Search.SearchKidsIsFirstMatch | witness2ast.py:83 | the children from index j on are searched in order |
| Search.NodeCandidatesAt | witness2ast.py:79-80 | every candidate's parent is the block found at its path in the tree, and the candidate is that block's item |
| Search.FindInBody | witness2ast.py:72-91 | a hit names a block of the body and a qualifying item of it (or the empty block itself); every item examined before it does not qualify; no hit exactly when no examined item qualifies |
| Search.FindFirstStatement | witness2ast.py:60-91 | function bodies are searched in order; the hit is in the first body that has one; no hit means no body has a qualifying item |
| Search.FindFrom | witness2ast.py:85-91 | the search from the fn-th top-level item keeps the earlier bodies' misses and finds the first later hit |
| Search.AsWrittenOverwritesNestedMatch | witness2ast.py:72-83 | on a loop whose body holds the first qualifying item, followed by a qualifying sibling, the code as written reports the sibling while the corrected search reports the nested item |
| Search.AsWrittenFindsIffCorrected | witness2ast.py:68-91 | the as-written search finds something exactly when the corrected search does |
| Search.VisitAsWrittenSticky | witness2ast.py:68-70 | once `found` is set, `visit` changes nothing |
| Search.VisitAsWrittenLocates | witness2ast.py:68-83 | every hit of the visitor as written names a block of the tree and a qualifying item of it (or the empty block itself) |
| Search.FindFromAsWritten | witness2ast.py:85-91 | once a body reported a hit it is kept; a new hit lies in the first body from the fn-th top-level item on that has a qualifying item and names one of its items |
| Search.FromAsWrittenMisses | witness2ast.py:85-91 | from the fn-th top-level item on, the search as written misses exactly when no later body has a qualifying item |
| Search.FindFirstStatementAsWritten | witness2ast.py:60-91 | `find_first_statement_on_line` as the program runs it: a hit names a qualifying item (or empty block) of the first function body that has one |
| Search.AsWrittenMisses | witness2ast.py:60-91 | the search as written misses exactly when no function body has a qualifying item, which is exactly when the corrected search misses; when both find, it is in the same function |
| WitnessGraph.EdgesFrom | witness2ast.py:111-112 | the out-edges of a node are exactly the edges whose source is that node |
| WitnessGraph.InDegreeOf | witness2ast.py:102 | the in-degree is 0 exactly when no edge ends at the node |
| WitnessGraph.MarkedIds | witness2ast.py:100 | the listed ids are exactly those of nodes carrying the `entry` key |
| WitnessGraph.SourceIds | witness2ast.py:102 | the listed ids are exactly the nodes with in-degree 0 and some out-edge |
| WitnessGraph.EntryIdsSet | witness2ast.py:100-102 | the candidate list has no repeats and holds exactly the marked nodes if there are any, otherwise the fallback nodes |
| WitnessGraph.ResolveEntry | witness2ast.py:100-109 | "No entry node" exactly when there is no candidate; "Multiple entry nodes" exactly when there are several; otherwise the one candidate |
| WitnessGraph.Metadata | witness2ast.py:124 | the metadata keeps exactly the attributes among assumption, control, threadId and createThread, with their values |
| WitnessGraph.Chain | witness2ast.py:111-115 | an edge is followed only from an unvisited node whose only out-edge it is |
| WitnessGraph.ChainLinked | witness2ast.py:111-126 | every followed edge is the only out-edge of its source; the first starts at the entry and each starts where the previous one ended |
| WitnessGraph.ChainEnd | witness2ast.py:111-114 | a terminal end has no out-edge and a branching end has several; at a node not visited before, the chain ends as terminal exactly when the node has no out-edge, as branching exactly when it has several, and on a cycle exactly when it has one |
| WitnessGraph.ChainCycle | witness2ast.py:111-126 | a chain ending on a cycle stops at a node it has already left |
| WitnessGraph.LinkedSources | witness2ast.py:111-115 | the source of every followed edge has exactly one out-edge |
| WitnessGraph.WalkIsEmitOfChain | witness2ast.py:111-128 | the loop equals following the chain and then resolving every edge's coordinates in order |
| WitnessGraph.EmitSuccess | witness2ast.py:115-128 | a successful walk ended at a node without out-edges and has one transition per edge, in order; in a simple graph each is built from that edge's coordinates and metadata, in a multigraph (parallel edges) each is (None, {}) because `get_edge_data` then returns the key-indexed dictionary and every attribute lookup misses |
| WitnessGraph.EmitBranching | witness2ast.py:113-114 | "Has branching" is raised exactly when the chain stops at a branching node and all edges before it had resolvable coordinates, as the walk reads them; no partial path is returned |
| WitnessGraph.EmitNeverRefuses | witness2ast.py:111-128 | the walk never produces the failures of the header checks or of the entry resolution |
| WitnessGraph.EmitResolved | witness2ast.py:111-128 | when every edge's coordinates resolve, the walk succeeds exactly at a terminal end, raises "Has branching" at a branching end and runs forever on a cycle |
| WitnessGraph.ExtractMetadata | witness2ast.py:94-128 | for any graph with distinct node ids and edges between its nodes (parallel edges allowed): a missing witness-type crashes; a type other than `violation_witness` is "Correctness witness"; a result means the entry resolved, the chain ended at a terminal node, and there is one transition per edge, built from the edge's coordinates and metadata in a simple graph and (None, {}) in a multigraph |
| WitnessGraph.ExtractMetadataOutcomes | witness2ast.py:100-128 | on a violation witness, "No entry node" exactly when there is no entry candidate and "Multiple entry nodes" exactly when there are several; with every chain edge's coordinates resolvable, a path exactly at a terminal end, "Has branching" at a branching end, divergence on a cycle |
| Instrument.Guard | witness2ast.py:154-160 | a loop's body becomes the block [release, body]; each existing branch of an `if` becomes [release, branch] and a missing else branch stays missing; the statement keeps its kind and its line, and the new blocks have no line |
| Instrument.Place | witness2ast.py:152-162 | a block as target fails; otherwise the yield takes the target's place and the target follows, guarded or followed by the release; all other items keep their order |
| Instrument.CallsGuard | witness2ast.py:154-160 | guarding adds the release once, or twice for an `if` with both branches |
| Instrument.PlaceCalls | witness2ast.py:144-162 | the block gains the yield once and the release once or twice, and no other call |
| Instrument.GuardErase | witness2ast.py:154-160 | erasing the markers from a guarded statement gives the statement back |
| Instrument.PlaceErase | witness2ast.py:152-162 | erasing the markers from the placed items gives the block's items back |
| Instrument.PlaceNoStray | witness2ast.py:152-162 | markers appear only as block items after placement |
| Instrument.InsertAt | witness2ast.py:152-162 | an empty block as target fails with an AttributeError; on success the parent block holds the placed items and every sub-tree outside it is unchanged |
| Instrument.InsertAtCalls | witness2ast.py:144-162 | one insertion adds one yield call and one or two release calls, with the pair's counter and thread |
| Instrument.InsertAtErase | witness2ast.py:152-162 | one insertion is undone by erasure |
| Instrument.InsertPair | witness2ast.py:142-162 | the target is the hit of the search as written; no statement found raises; the only failures are no target, an empty block and a block target; a found item that is not a block always receives the pair; on success only the body holding the target changes |
| Instrument.InsertPairCalls | witness2ast.py:144-162 | a pair adds its yield once and its release once or twice to the whole program |
| Instrument.InsertPairErase | witness2ast.py:152-162 | a pair is undone by erasure and keeps markers inside blocks |
| Instrument.Switches | witness2ast.py:137-141 | at most one switch per transition; the first switch differs from the starting thread and consecutive switches differ, because the current thread moves only at a switch; a first transition with coordinates and another thread gives the first switch, at its start line and to its thread |
| Instrument.SwitchesNone | witness2ast.py:137-141 | there is no switch exactly when no transition has coordinates and a thread other than the starting one |
| Instrument.SwitchesAppend | witness2ast.py:139-141 | the loop over a + b gives the switches of a, then those of b from the thread the loop over a left |
| Instrument.SwitchesStep | witness2ast.py:139-141 | one iteration: transition m adds one switch, to its start line and thread, exactly when it has coordinates and a thread other than the current one, which it then becomes; otherwise nothing changes |
| Instrument.SwitchActed | witness2ast.py:139-142 | every transition that acts on the thread current when the loop reaches it yields a switch, numbered by the switches before it, with its line and thread |
| Instrument.SwitchOrigin | witness2ast.py:139-142 | every switch comes from some transition that acts on the thread current when the loop reaches it |
| Instrument.Tags | witness2ast.py:138-151 | the k-th pair carries counter i + k and the thread of the k-th switch |
| Instrument.LoopIsApplySwitches | witness2ast.py:137-162 | the loop over the transitions inserts exactly the pairs of the thread switches, in order |
| Instrument.PairYields | witness2ast.py:144-153 | a pair adds exactly its own tag to the yield calls |
| Instrument.PairReleases | witness2ast.py:147-162 | after a pair, a release tag is present exactly when it was before or it is the pair's tag |
| Instrument.PairOthers | witness2ast.py:152-162 | calls other than yield and release are unchanged by a pair |
| Instrument.ApplySwitchesYields | witness2ast.py:138-153 | the yield calls gain exactly the tags of the switches |
| Instrument.ApplySwitchesReleases | witness2ast.py:139-162 | a release tag is present exactly when it was before or is the tag of a switch |
| Instrument.ApplySwitchesOthers | witness2ast.py:139-162 | all other calls are unchanged |
| Instrument.ApplySwitchesErase | witness2ast.py:139-162 | erasing the instrumented program gives the program back |
| Instrument.ApplySwitchesNeverEmpty | witness2ast.py:137-162 | only the empty path gives the `metadata[0]` crash |
| Instrument.Instrument | witness2ast.py:136-139 | an empty transition list raises exactly then |
| Instrument.InstrumentErases | witness2ast.py:131-162 | for a parsed program, a successful instrumentation erases back to it: only yield and release calls were added |
| Instrument.InstrumentSpec | witness2ast.py:131-162 | its yield calls are the program's own plus one per switch, numbered from 0 with the thread switched to; a release tag is present exactly when it was before or is one of those tags |
| Instrument.ApplyWitness | witness2ast.py:131-162 | the failures of path extraction pass through unchanged and an empty path crashes; on success, erasing the markers from a parsed program gives it back, the yield calls are the program's own plus one tag (k, thread) per thread switch of the extracted path, numbered from 0, and the release tags are the program's own plus exactly those tags |
| Instrument.MultigraphInsertsNothing | witness2ast.py:116-141 | on a witness with parallel edges every transition is empty, so a successful run inserts nothing |
| Instrument.TwoThreadScenario | witness2ast.py:137-162 | two transitions, thread 0 then thread 1 at line 10: one pair (0, 1) goes before the line-10 statement, with the release right after a flat statement or at the head of its body or branches |
| Instrument.InstrumentSingleSwitch | witness2ast.py:137-162 | a path with one thread switch is instrumented by a single insertion, of pair 0 |
| Instrument.NestedMatchFound | witness2ast.py:75-91 | on the input of the finding below, the search as written for line 3 names the sibling after the loop |
| Instrument.NestedMatchScenario | witness2ast.py:137-162 | on that input, a switch to thread 1 at line 3 puts the pair around the sibling, not into the loop body, and fails when the sibling is a block |
| Tweaks.FixInline | tweaks.py:37-46 | every non-static inline definition gets the specifiers `extern inline`; every other item is unchanged |
| Tweaks.FixInlineIdempotent | tweaks.py:37-46 | applying `fix_inline` twice is applying it once |
| Tweaks.StripBody | tweaks.py:59 | the stripped declaration is still a struct declaration with the same tag |
| Tweaks.StripRepeated | tweaks.py:51-61 | the loop keeps the list's length |
| Tweaks.StripRepeatedSpec | tweaks.py:51-61 | from any point of the loop, a struct declaration loses its members exactly when an earlier one has its tag |
| Tweaks.FixStructDefSpec | tweaks.py:50-61 | the length and order are kept; a struct declaration loses its member list exactly when an earlier struct declaration has the same tag (anonymous ones share one tag); every other item is unchanged |
| Tweaks.FixStructDefIdempotent | tweaks.py:50-61 | applying `fix_struct_def` twice is applying it once |
| Tweaks.ReachErrorLoop | tweaks.py:19-33 | the loop that removes while it iterates keeps the list's length |
| Tweaks.Sweep | tweaks.py:20-33 | the reference sweep returns as many items as it was given, split into kept items and extern declarations |
| Tweaks.LoopIdle | tweaks.py:20-21 | with no definition from the iterator's position on, nothing changes |
| Tweaks.LoopIsSweep | tweaks.py:19-33 | the mutating loop equals the sweep: kept items in order, then the appended extern declarations |
| Tweaks.LoopRemoves | tweaks.py:32-33 | at a definition the loop removes it, appends its extern declaration and skips the item that slides into its place |
| Tweaks.ReachErrorSpec | tweaks.py:19-33 | `reach_error` keeps the length and is the sweep's kept items followed by one extern declaration per removed definition |
| Tweaks.ReachErrorAbsent | tweaks.py:20-21 | without a `reach_error` definition the list is unchanged |
| Tweaks.ReachErrorSkipsNext | tweaks.py:20-33 | of two definitions in a row, the second is not examined and stays |
| Tweaks.ReachErrorSingle | tweaks.py:19-33 | a single definition is removed and its extern declaration, with the same name and type, appended; the others keep their order |
| Trials.Lines | main.py:82 | the pieces of `split("\n")` contain no newline, and there is at least one |
| Trials.JoinLines | main.py:82 | joining the pieces with newlines gives the output back |
| Trials.SomeLineHasIff | main.py:81-84 | some line contains the marker exactly when the whole output does, since the marker has no newline |
| Trials.Classify | main.py:80-85 | a run counts as reached exactly when it exits with 74 or its output contains "Reached error!"; a timeout records nothing |
| Trials.Tally | main.py:91-92 | the dictionary has key -1 exactly when some outcome was reached and key 0 exactly when some was not; it has no other key |
| Trials.FoldStopped | main.py:93-96 | after the early exit, later executions change nothing |
| Trials.RunTrials | main.py:75-96 | the loop's dictionary counts exactly the outcomes of the reference fold over the executions |
| Trials.VerdictOfKinds | main.py:105-119 | both kinds give SOMETIMES, only not-reached gives NEVER, only reached gives ALWAYS, none gives TIMEOUT |
| Trials.VerdictSameKinds | main.py:105-119 | two outcome lists with the same kinds give the same verdict |
| Trials.VerdictExample | main.py:105-119 | {reached, reached, not-reached} gives SOMETIMES |
| Trials.RecordedBound | main.py:76 | no more outcomes are recorded than executions run (at most 100) |
| Trials.NormalRecordsAll | main.py:76-96 | normal mode never stops early and records every execution that did not time out |
| Trials.StrictShape | main.py:93-94 | in strict mode every recorded outcome but the last is reached, and the loop stops exactly when the last is not reached |
| Trials.PermissiveShape | main.py:95-96 | in permissive mode every recorded outcome but the last is not reached, and the loop stops exactly when the last is reached |
| Trials.NothingRecordedIff | main.py:76-98 | nothing is recorded exactly when every execution timed out |
| Trials.TimeoutVerdictIff | main.py:97-119 | the verdict is TIMEOUT exactly when every execution timed out |
| Trials.TimeoutsIgnored | main.py:97-98 | dropping the timed-out executions changes neither the outcomes nor the early exit |
| Cleanup.Spaces | main.py:135-138 | `' ' * n` is n spaces, and empty for a negative n |
| Cleanup.FirstClose | main.py:129-136 | the first ')' at which the parenthesis depth drops to zero or below; none before it |
| Cleanup.SpacesLoopSpec | main.py:127-138 | the character loop, from any point before the first closing ')', agrees with the depth-counting reference |
| Cleanup.ReplaceWithSpacesSpec | main.py:127-138 | the result is spaces for the prefix through the balancing ')', or up to an unmatched one, or the whole match, shortened by the offset; the rest of the match is unchanged |
| Cleanup.ReplaceWithSpacesLength | main.py:127-138 | the result has length \|s\| − offset when the offset is within the blanked prefix |
| Cleanup.BlankedPositive | main.py:132-136 | nothing is blanked exactly when the match is empty or starts with ')' |
| Cleanup.ZeroPaddedSpec | main.py:143-144 | `'0' + replace_with_spaces_str(s, 1)` keeps the length of a match that does not start with ')' and keeps its tail after the blanked prefix |
| Cleanup.ReplaceExamples | main.py:127-144 | worked cases: a balanced group, an unmatched ')', a comment, a zero-padded group |
| Cleanup.ReplaceAllPointwise | main.py:159-160 | a literal substitution by a string of equal length keeps the length, and every changed character was a pattern character and became a replacement character |
| Cleanup.ReplaceAllAbsent | main.py:159-160 | without an occurrence of the pattern the text is unchanged |
| Cleanup.OffsetOfLineSame | main.py:159-160 | texts with the same newline positions have the same line offsets |
| Cleanup.LiteralsKeepLines | main.py:159-160 | the two literal rewrites keep the length and the newline positions, so every line starts at the same offset as before |
| Validator.FailureReport | main.py:44-52 | each known error prints its own message ("Correctness witness", "No entry node", "Multiple entry nodes", "Has branching"); any other exception prints "Incompatible witness"; exactly divergence never reports |
| Validator.Validate | main.py:31-119 | the witness is applied with the search as written; a rejected witness reports before compiling; a failed compilation reports "Compilation error" before any trial; otherwise the verdict is that of the recorded outcomes |

## Left out

- svcomp.c is not part of this model. Its `yield`/`release` are a mutex and condition-variable rendezvous whose point is concurrency, and its nondeterministic-value functions are stubs.
- Reading files, temporary files, the `gcc` call, `subprocess.run`, `os.remove`, printing and `sys.exit`. The compiler's exit code and each execution's result are inputs to `Validator.Validate`.
- The execution timeout: `subprocess.run` gets no timeout, so in practice the timeout branch is never taken. It is kept as the `TimedOut` run.
- Command-line parsing.
- pycparser parsing and C generation. They are replaced by the statement tree of `Ast`, so the "Parsing failed" and "Unknown error" exits are not modelled.
- networkx `read_graphml`. It is replaced by `WitnessGraph.Witness`. Its guarantees (distinct node ids, edges between existing nodes) are the `WellFormed` precondition. Parallel edges are allowed: the reader then builds a multigraph, two edges out of one node are a branching, and `get_edge_data` returns a dictionary indexed by edge key, which the model treats as holding none of the eight attribute names the walk looks up (edge ids named like those attributes are not modelled).
- Newline positions under the blanking: a blanked match that spans a newline (the `__attribute__`, `asm` and `__extension__` patterns allow one before '(') turns it into a space and moves later lines up; only the two literal substitutions are proved to keep newlines.
- The regular-expression passes of `hacks` and their fixpoint loop (main.py:146-161), because their regex semantics cannot be modelled faithfully. Only the blanking helpers and the two literal substitutions are modelled; `Cleanup.ReplaceAll` models a literal pattern's `re.sub`.
- The table of function definitions that `apply_witness` builds (witness2ast.py:132-135). It is never read.
- Statement coordinates are line numbers only. Expressions inside statements are not modelled, because the search and the instrumentation only look at statements.
- Files are strings with one character per byte, and a line ends at '\n'.
- The four position hints are integers, as the witness format declares them.
- Nondeterministic-value pinning and sink-edge filtering. Neither exists in the modelled code.
- pycparser node identity: `block_items.index` finds the target by identity. The model addresses the target by its position.
- Witness paths on a cycle, and a start offset at or past the end of the file, make the source loop forever. The model reports `Diverges` instead of requiring acyclicity.

The model follows the code on these points:

- Only the `entry` node attribute selects the entry. The fallback is the nodes with in-degree 0 minus those with out-degree 0.
- Edges into sink nodes are not filtered.
- No assumption value is pinned. The key is only copied into the metadata.
- A block found as the search target fails with an AttributeError (no `stmt` field). It does not get the release at its head.

## Findings

| source | as written | input that shows it | evidently intended | confidence | as-written member | corrected member |
|---|---|---|---|---|---|---|
| witness2ast.py:75-83 | `visit_Compound` keeps looping over the items after a nested visit set `found`. The next sibling whose line is at or after the target then overwrites the nested hit. | target line 3; body `{ while (...) /*line 1*/ { s /*line 5*/ } t /*line 9*/ }`: the code reports `t`, not `s` | return the first statement in pre-order at or after the target line, i.e. stop the item loop once `found` is set | not executed | Search.AsWrittenOverwritesNestedMatch | Search.FindInBody |

The instrumentation uses the search as written, as `apply_witness` does (witness2ast.py:142), so its contracts describe the program as it runs; `Instrument.NestedMatchScenario` shows the finding's effect on the inserted pair. `Search.FindInBody` and `Search.FindFirstStatement` are the intended search, with its first-match property proved.

=== FILE: ast.dfy ===
/**
 The part of the C syntax tree the instrumentation touches: statements with
 an optional source line, addressed by paths, and the top-level
 declarations the clean-up passes rewrite.
 */
module Ast {
  import opened Wrappers
  import opened Values

  /**
   Statements. `Compound` is a block; `If` has an optional else branch;
   the three loops own one body; `FuncCall` is a call used as a statement;
   `Other` is every remaining statement (declaration, assignment, return,
   switch, label, ...) together with the sub-statements it owns.
   */
  datatype Stmt =
    | Compound(items: seq<Stmt>, line: Option<int>)
    | If(thenBranch: Stmt, elseBranch: Option<Stmt>, line: Option<int>)
    | While(body: Stmt, line: Option<int>)
    | DoWhile(body: Stmt, line: Option<int>)
    | For(body: Stmt, line: Option<int>)
    | FuncCall(name: string, args: seq<Value>, line: Option<int>)
    | Other(children: seq<Stmt>, line: Option<int>)
  {
    predicate IsLoop() {
      While? || DoWhile? || For?
    }
  }

  /** One step down the tree. */
  datatype Step = Item(k: nat) | Body | Then | Else | Child(k: nat)

  type Path = seq<Step>

  /** The sub-statement reached by following `p`, if every step exists. */
  function At(s: Stmt, p: Path): Option<Stmt>
    decreases |p|
  {
    if p == [] then Some(s)
    else match (s, p[0])
      case (Compound(items, _), Item(k)) => if k < |items| then At(items[k], p[1..]) else None
      case (While(b, _), Body) => At(b, p[1..])
      case (DoWhile(b, _), Body) => At(b, p[1..])
      case (For(b, _), Body) => At(b, p[1..])
      case (If(t, _, _), Then) => At(t, p[1..])
      case (If(_, Some(e), _), Else) => At(e, p[1..])
      case (Other(cs, _), Child(k)) => if k < |cs| then At(cs[k], p[1..]) else None
      case _ => None
  }

  /** `s` with the sub-statement at `p` replaced by `n`. */
  function Update(s: Stmt, p: Path, n: Stmt): Stmt
    requires At(s, p).Some?
    decreases |p|
  {
    if p == [] then n
    else match (s, p[0])
      case (Compound(items, l), Item(k)) => Compound(items[k := Update(items[k], p[1..], n)], l)
      case (While(b, l), Body) => While(Update(b, p[1..], n), l)
      case (DoWhile(b, l), Body) => DoWhile(Update(b, p[1..], n), l)
      case (For(b, l), Body) => For(Update(b, p[1..], n), l)
      case (If(t, e, l), Then) => If(Update(t, p[1..], n), e, l)
      case (If(t, Some(e), l), Else) => If(t, Some(Update(e, p[1..], n)), l)
      case (Other(cs, l), Child(k)) => Other(cs[k := Update(cs[k], p[1..], n)], l)
  }

  /** Updating at `p` puts `n` at `p`. */
  lemma {:induction false} AtUpdate(s: Stmt, p: Path, n: Stmt)
    requires At(s, p).Some?
    ensures At(Update(s, p, n), p) == Some(n)
    decreases |p|
  {
    if p != [] {
      match (s, p[0])
      case (Compound(items, _), Item(k)) => AtUpdate(items[k], p[1..], n);
      case (While(b, _), Body) => AtUpdate(b, p[1..], n);
      case (DoWhile(b, _), Body) => AtUpdate(b, p[1..], n);
      case (For(b, _), Body) => AtUpdate(b, p[1..], n);
      case (If(t, _, _), Then) => AtUpdate(t, p[1..], n);
      case (If(_, Some(e), _), Else) => AtUpdate(e, p[1..], n);
      case (Other(cs, _), Child(k)) => AtUpdate(cs[k], p[1..], n);
    }
  }

  /** Following `p` and then `q` is following `p + q`. */
  lemma {:induction false} AtAppend(s: Stmt, p: Path, q: Path)
    requires At(s, p).Some?
    ensures At(s, p + q) == At(At(s, p).value, q)
    decreases |p|
  {
    if p == [] {
      assert p + q == q;
    } else {
      assert (p + q)[0] == p[0] && (p + q)[1..] == p[1..] + q;
      match (s, p[0])
      case (Compound(items, _), Item(k)) => AtAppend(items[k], p[1..], q);
      case (While(b, _), Body) => AtAppend(b, p[1..], q);
      case (DoWhile(b, _), Body) => AtAppend(b, p[1..], q);
      case (For(b, _), Body) => AtAppend(b, p[1..], q);
      case (If(t, _, _), Then) => AtAppend(t, p[1..], q);
      case (If(_, Some(e), _), Else) => AtAppend(e, p[1..], q);
      case (Other(cs, _), Child(k)) => AtAppend(cs[k], p[1..], q);
    }
  }

  /** Neither path is a prefix of the other: they name disjoint sub-trees. */
  predicate Disjoint(p: Path, q: Path) {
    exists i :: 0 <= i < |p| && i < |q| && p[i] != q[i] && p[..i] == q[..i]
  }

  /** Nothing outside the updated position changes. */
  lemma {:induction false} AtUpdateDisjoint(s: Stmt, p: Path, q: Path, n: Stmt)
    requires At(s, p).Some?
    requires Disjoint(p, q)
    ensures At(Update(s, p, n), q) == At(s, q)
    decreases |p|
  {
    var i :| 0 <= i < |p| && i < |q| && p[i] != q[i] && p[..i] == q[..i];
    if i > 0 {
      assert p[0] == q[0] by { assert p[..i][0] == q[..i][0]; }
      assert p[1..][..i - 1] == q[1..][..i - 1] by {
        assert p[1..][..i - 1] == p[..i][1..];
        assert q[1..][..i - 1] == q[..i][1..];
      }
      assert Disjoint(p[1..], q[1..]) by {
        assert p[1..][i - 1] != q[1..][i - 1];
      }
      match (s, p[0])
      case (Compound(items, _), Item(k)) => AtUpdateDisjoint(items[k], p[1..], q[1..], n);
      case (While(b, _), Body) => AtUpdateDisjoint(b, p[1..], q[1..], n);
      case (DoWhile(b, _), Body) => AtUpdateDisjoint(b, p[1..], q[1..], n);
      case (For(b, _), Body) => AtUpdateDisjoint(b, p[1..], q[1..], n);
      case (If(t, _, _), Then) => AtUpdateDisjoint(t, p[1..], q[1..], n);
      case (If(_, Some(e), _), Else) => AtUpdateDisjoint(e, p[1..], q[1..], n);
      case (Other(cs, _), Child(k)) => AtUpdateDisjoint(cs[k], p[1..], q[1..], n);
    }
  }

  /** The argument lists of every call statement to `name` inside `s`. */
  function Calls(s: Stmt, name: string): multiset<seq<Value>>
  {
    match s
    case Compound(items, _) => CallsIn(items, name)
    case If(t, e, _) => Calls(t, name) + (if e.Some? then Calls(e.value, name) else multiset{})
    case While(b, _) => Calls(b, name)
    case DoWhile(b, _) => Calls(b, name)
    case For(b, _) => Calls(b, name)
    case FuncCall(n, args, _) => if n == name then multiset{args} else multiset{}
    case Other(cs, _) => CallsIn(cs, name)
  }

  function CallsIn(ss: seq<Stmt>, name: string): multiset<seq<Value>>
  {
    if ss == [] then multiset{} else Calls(ss[0], name) + CallsIn(ss[1..], name)
  }

  lemma {:induction false} CallsInConcat(a: seq<Stmt>, b: seq<Stmt>, name: string)
    ensures CallsIn(a + b, name) == CallsIn(a, name) + CallsIn(b, name)
  {
    if a == [] {
      assert a + b == b;
    } else {
      assert (a + b)[1..] == a[1..] + b;
      CallsInConcat(a[1..], b, name);
    }
  }

  /** Replacing one element changes the calls by exactly that element's calls. */
  lemma {:induction false} CallsInReplace(ss: seq<Stmt>, k: nat, x: Stmt, name: string)
    requires k < |ss|
    ensures CallsIn(ss[k := x], name) + Calls(ss[k], name) == CallsIn(ss, name) + Calls(x, name)
  {
    assert ss == ss[..k] + [ss[k]] + ss[k + 1..];
    assert ss[k := x] == ss[..k] + [x] + ss[k + 1..];
    CallsInConcat(ss[..k] + [ss[k]], ss[k + 1..], name);
    CallsInConcat(ss[..k], [ss[k]], name);
    CallsInConcat(ss[..k] + [x], ss[k + 1..], name);
    CallsInConcat(ss[..k], [x], name);
    assert CallsIn([x], name) == Calls(x, name);
    assert CallsIn([ss[k]], name) == Calls(ss[k], name);
  }

  /** Cancellation of multiset sums, used to chain the two replacement facts below. */
  lemma MultisetChain<T>(a: multiset<T>, c: multiset<T>, x: multiset<T>, y: multiset<T>, w: multiset<T>, z: multiset<T>)
    requires a + y == c + x
    requires x + z == y + w
    ensures a + z == c + w
  {
    forall e
      ensures (a + z)[e] == (c + w)[e]
    {
      assert (a + y)[e] == (c + x)[e];
      assert (x + z)[e] == (y + w)[e];
    }
  }

  lemma MultisetFrame<T>(a: multiset<T>, b: multiset<T>, c: multiset<T>, d: multiset<T>, e: multiset<T>)
    requires a + b == c + d
    ensures (a + e) + b == (c + e) + d
    ensures (e + a) + b == (e + c) + d
  {
    forall x
      ensures ((a + e) + b)[x] == ((c + e) + d)[x]
    {
      assert (a + b)[x] == (c + d)[x];
    }
    assert (e + a) == (a + e) && (e + c) == (c + e);
  }

  /** Replacing the sub-tree at `p` swaps its calls for those of `n`. */
  lemma {:induction false} UpdateCalls(s: Stmt, p: Path, n: Stmt, name: string)
    requires At(s, p).Some?
    ensures Calls(Update(s, p, n), name) + Calls(At(s, p).value, name) == Calls(s, name) + Calls(n, name)
    decreases |p|
  {
    if p != [] {
      match (s, p[0])
      case (Compound(items, l), Item(k)) =>
        UpdateCalls(items[k], p[1..], n, name);
        CallsInReplace(items, k, Update(items[k], p[1..], n), name);
        var x := Update(items[k], p[1..], n);
        assert Update(s, p, n) == Compound(items[k := x], l);
        assert At(s, p) == At(items[k], p[1..]);
        assert Calls(s, name) == CallsIn(items, name);
        assert Calls(Compound(items[k := x], l), name) == CallsIn(items[k := x], name);
        MultisetChain(CallsIn(items[k := x], name), CallsIn(items, name), Calls(x, name),
          Calls(items[k], name), Calls(n, name), Calls(At(s, p).value, name));
      case (While(b, _), Body) => UpdateCalls(b, p[1..], n, name);
      case (DoWhile(b, _), Body) => UpdateCalls(b, p[1..], n, name);
      case (For(b, _), Body) => UpdateCalls(b, p[1..], n, name);
      case (If(t, None, _), Then) =>
        UpdateCalls(t, p[1..], n, name);
        MultisetFrame(Calls(Update(t, p[1..], n), name), Calls(At(s, p).value, name), Calls(t, name), Calls(n, name),
          multiset{});
      case (If(t, Some(e), _), Then) =>
        UpdateCalls(t, p[1..], n, name);
        MultisetFrame(Calls(Update(t, p[1..], n), name), Calls(At(s, p).value, name), Calls(t, name), Calls(n, name),
          Calls(e, name));
      case (If(t, Some(e), _), Else) =>
        UpdateCalls(e, p[1..], n, name);
        MultisetFrame(Calls(Update(e, p[1..], n), name), Calls(At(s, p).value, name), Calls(e, name), Calls(n, name),
          Calls(t, name));
      case (Other(cs, _), Child(k)) =>
        var x := Update(cs[k], p[1..], n);
        UpdateCalls(cs[k], p[1..], n, name);
        CallsInReplace(cs, k, x, name);
        MultisetChain(CallsIn(cs[k := x], name), CallsIn(cs, name), Calls(x, name),
          Calls(cs[k], name), Calls(n, name), Calls(At(s, p).value, name));
    }
  }

  /** Type of a declaration, as far as the clean-up passes look at it. */
  datatype BaseType =
    | Struct(name: Option<string>, decls: Option<seq<string>>)
    | Named(names: seq<string>)

  datatype TypeNode =
    | TypeDecl(base: BaseType)    // a declarator wrapping a base type
    | Specifier(base: BaseType)   // a bare type, as in `struct S { ... };`
    | Derived(text: string)       // function, pointer and array declarators

  datatype Decl = Decl(
    name: Option<string>,
    quals: seq<string>,
    storage: seq<string>,
    funcspec: seq<string>,
    typ: TypeNode,
    init: Option<string>,
    bitsize: Option<string>)

  /** A top-level item of the translation unit. */
  datatype External =
    | FuncDef(decl: Decl, body: Stmt)
    | DeclExt(decl: Decl)
    | OtherExt(text: string)   // typedefs, pragmas

  datatype FileAst = FileAst(ext: seq<External>)
}

=== FILE: cleanup.dfy ===
/**
 The clean-up of the C text before parsing (main.py, `hacks`, lines
 126-161): the blanking helpers and the two literal substitutions. The
 blanking keeps the length of a match (the zero-padded form for a match
 that does not start with ')'), but it turns every character of the
 blanked prefix into a space, newlines included: the `__attribute__`,
 `asm` and `__extension__` patterns allow a newline before their '(', and
 a match across it moves every later line up by one. The two literal
 substitutions keep the length and the places of the newlines, so line
 numbers and offsets of a witness still point at the same characters.
 */
module Cleanup {
  import opened Wrappers
  import opened SourceText

  /** Python's `' ' * n`: empty for a negative count. */
  function Spaces(n: int): (r: string)
    ensures |r| == if n < 0 then 0 else n
    ensures forall k :: 0 <= k < |r| ==> r[k] == ' '
  {
    if n <= 0 then "" else Spaces(n - 1) + " "
  }

  // ---------------------------------------------------------------------
  // replace_with_spaces_str, as written.
  // ---------------------------------------------------------------------

  /**
   The loop of `replace_with_spaces_str` from index `i` with `parens` open
   parentheses: at a ')' that closes the first group (depth back to 0) the
   group is blanked; at an unmatched ')' (depth below 0) everything before
   it is; with no such ')' the whole match is.
   */
  function SpacesLoop(s: string, offset: int, i: nat, parens: int): string
    requires i <= |s|
    decreases |s| - i
  {
    if i == |s| then Spaces(|s| - offset)
    else if s[i] == '(' then SpacesLoop(s, offset, i + 1, parens + 1)
    else if s[i] == ')' then
      if parens - 1 < 0 then Spaces(i - offset) + s[i..]
      else if parens - 1 == 0 then Spaces(i - offset + 1) + s[i + 1..]
      else SpacesLoop(s, offset, i + 1, parens - 1)
    else SpacesLoop(s, offset, i + 1, parens)
  }

  /** `replace_with_spaces_str(s, offset)`. */
  function ReplaceWithSpaces(s: string, offset: int): string {
    SpacesLoop(s, offset, 0, 0)
  }

  /** `replace_with_zero_padded`: a '0' followed by the match blanked one shorter. */
  function ZeroPadded(s: string): string {
    "0" + ReplaceWithSpaces(s, 1)
  }

  // ---------------------------------------------------------------------
  // A reference definition by counting parentheses.
  // ---------------------------------------------------------------------

  /** Opening minus closing parentheses in `t`. */
  function Depth(t: string): int {
    if t == [] then 0
    else
      var c := t[|t| - 1];
      Depth(t[..|t| - 1]) + (if c == '(' then 1 else if c == ')' then -1 else 0)
  }

  /** The ')' at `c` brings the depth of the prefix ending there to zero or below. */
  predicate Closes(s: string, c: int) {
    0 <= c < |s| && s[c] == ')' && Depth(s[..c + 1]) <= 0
  }

  /** The first index at or after `from` where a ')' closes. */
  function FirstClose(s: string, from: nat): (r: Option<nat>)
    ensures r.Some? ==> from <= r.value && Closes(s, r.value)
    ensures forall j :: from <= j < (if r.Some? then r.value else |s|) ==> !Closes(s, j)
    decreases |s| - from
  {
    if from >= |s| then None
    else if Closes(s, from) then Some(from)
    else FirstClose(s, from + 1)
  }

  /** How many leading characters are blanked: through a balancing ')', up to an unmatched one, or all. */
  function Blanked(s: string): (k: nat)
    ensures k <= |s|
  {
    match FirstClose(s, 0)
    case None => |s|
    case Some(c) => if Depth(s[..c + 1]) == 0 then c + 1 else c
  }

  lemma DepthNext(s: string, i: nat)
    requires i < |s|
    ensures Depth(s[..i + 1]) == Depth(s[..i]) + (if s[i] == '(' then 1 else if s[i] == ')' then -1 else 0)
  {
    assert s[..i + 1][..i] == s[..i];
  }

  /** The loop, started anywhere before the first closing ')', agrees with the reference. */
  lemma {:induction false} SpacesLoopSpec(s: string, offset: int, i: nat)
    requires i <= |s|
    requires forall j :: 0 <= j < i ==> !Closes(s, j)
    ensures SpacesLoop(s, offset, i, Depth(s[..i])) == Spaces(Blanked(s) - offset) + s[Blanked(s)..]
    decreases |s| - i
  {
    var first := FirstClose(s, 0);
    if i == |s| {
    } else {
      DepthNext(s, i);
      if Closes(s, i) {
        assert first == Some(i);
      } else {
        SpacesLoopSpec(s, offset, i + 1);
      }
    }
  }

  /**
   `replace_with_spaces_str` blanks exactly the reference prefix, shifted
   left by `offset`, and keeps the rest of the match unchanged.
   */
  lemma ReplaceWithSpacesSpec(s: string, offset: int)
    ensures ReplaceWithSpaces(s, offset) == Spaces(Blanked(s) - offset) + s[Blanked(s)..]
  {
    assert s[..0] == [];
    SpacesLoopSpec(s, offset, 0);
  }

  /** Blanking never shortens the match beyond `offset` as long as `offset` is within the blanked prefix. */
  lemma ReplaceWithSpacesLength(s: string, offset: int)
    requires 0 <= offset <= Blanked(s)
    ensures |ReplaceWithSpaces(s, offset)| == |s| - offset
  {
    ReplaceWithSpacesSpec(s, offset);
  }

  /** Only a match that starts with ')' has nothing blanked. */
  lemma BlankedPositive(s: string)
    ensures Blanked(s) == 0 <==> s == [] || s[0] == ')'
  {
    var first := FirstClose(s, 0);
    if s != [] && s[0] == ')' {
      DepthNext(s, 0);
      assert s[..0] == [];
      assert Closes(s, 0);
    }
    if first.Some? && first.value == 0 {
      assert s[0] == ')';
    }
  }

  /**
   The zero-padded replacement keeps the match's length, and is a '0',
   spaces, then the unchanged rest of the match.
   */
  lemma ZeroPaddedSpec(s: string)
    requires s != [] && s[0] != ')'
    ensures |ZeroPadded(s)| == |s|
    ensures ZeroPadded(s) == "0" + Spaces(Blanked(s) - 1) + s[Blanked(s)..]
  {
    BlankedPositive(s);
    ReplaceWithSpacesSpec(s, 1);
  }

  lemma ReplaceExamples()
    ensures ReplaceWithSpaces("a(b)c)", 0) == "    c)"
    ensures ReplaceWithSpaces("a)b", 0) == " )b"
    ensures ReplaceWithSpaces("// c", 0) == "    "
    ensures ZeroPadded("e(1)") == "0   "
  {
  }

  // ---------------------------------------------------------------------
  // Literal substitutions.
  // ---------------------------------------------------------------------

  /** `re.sub(pat, rep, s)` for a literal pattern: left to right, matches do not overlap. */
  function ReplaceAll(s: string, pat: string, rep: string): string
    requires |pat| > 0
    decreases |s|
  {
    if |s| < |pat| then s
    else if s[..|pat|] == pat then rep + ReplaceAll(s[|pat|..], pat, rep)
    else [s[0]] + ReplaceAll(s[1..], pat, rep)
  }

  /**
   With a replacement as long as the pattern, the length is kept and every
   changed character was a pattern character and became a replacement one.
   */
  lemma {:induction false} ReplaceAllPointwise(s: string, pat: string, rep: string)
    requires |pat| > 0 && |rep| == |pat|
    ensures var r := ReplaceAll(s, pat, rep);
      && |r| == |s|
      && forall k :: 0 <= k < |s| ==> r[k] == s[k] || (s[k] in pat && r[k] in rep)
    decreases |s|
  {
    var r := ReplaceAll(s, pat, rep);
    if |s| >= |pat| {
      if s[..|pat|] == pat {
        var t := s[|pat|..];
        ReplaceAllPointwise(t, pat, rep);
        forall k | 0 <= k < |s|
          ensures r[k] == s[k] || (s[k] in pat && r[k] in rep)
        {
          if k < |pat| {
            assert s[k] == pat[k] && r[k] == rep[k];
          } else {
            assert s[k] == t[k - |pat|] && r[k] == ReplaceAll(t, pat, rep)[k - |pat|];
          }
        }
      } else {
        var t := s[1..];
        ReplaceAllPointwise(t, pat, rep);
        forall k | 0 <= k < |s|
          ensures r[k] == s[k] || (s[k] in pat && r[k] in rep)
        {
          if k > 0 {
            assert s[k] == t[k - 1] && r[k] == ReplaceAll(t, pat, rep)[k - 1];
          }
        }
      }
    }
  }

  /** Without an occurrence of the pattern the text is unchanged. */
  lemma {:induction false} ReplaceAllAbsent(s: string, pat: string, rep: string)
    requires |pat| > 0 && !Contains(s, pat)
    ensures ReplaceAll(s, pat, rep) == s
    decreases |s|
  {
    if |s| >= |pat| {
      assert !OccursAt(s, pat, 0);
      assert !Contains(s[1..], pat) by {
        if Contains(s[1..], pat) {
          var j :| 0 <= j <= |s| - 1 && OccursAt(s[1..], pat, j);
          assert s[1 + j..1 + j + |pat|] == s[1..][j..j + |pat|];
          assert OccursAt(s, pat, 1 + j);
        }
      }
      ReplaceAllAbsent(s[1..], pat, rep);
      assert s == [s[0]] + s[1..];
    }
  }

  /** The two literal rewrites of `hacks` (lines 159-160). */
  const VaList: string := "__builtin_va_list"
  const VaListRep: string := "int              "
  const Signed: string := "__signed__"
  const SignedRep: string := "  signed  "

  function Literals(s: string): string {
    ReplaceAll(ReplaceAll(s, VaList, VaListRep), Signed, SignedRep)
  }

  /** Two texts with the same length and newlines at the same places. */
  predicate SameLines(f: string, g: string) {
    |f| == |g| && forall k :: 0 <= k < |f| ==> (f[k] == '\n' <==> g[k] == '\n')
  }

  lemma {:induction false} ReadLineSame(f: string, g: string, pos: nat)
    requires SameLines(f, g) && pos <= |f|
    ensures ReadLine(f, pos) == ReadLine(g, pos)
    decreases |f| - pos
  {
    if pos < |f| && f[pos] != '\n' {
      ReadLineSame(f, g, pos + 1);
    }
  }

  lemma {:induction false} AdvanceSame(f: string, g: string, n: nat)
    requires SameLines(f, g)
    ensures Advance(f, n) == Advance(g, n)
  {
    if n > 0 {
      AdvanceSame(f, g, n - 1);
      ReadLineSame(f, g, Advance(f, n - 1));
    }
  }

  /** Texts with the same newlines have the same line offsets. */
  lemma OffsetOfLineSame(f: string, g: string, line: int)
    requires SameLines(f, g)
    ensures OffsetOfLine(f, line) == OffsetOfLine(g, line)
  {
    AdvanceSame(f, g, if line <= 1 then 0 else line - 1);
  }

  /**
   The literal rewrites keep the length and the newlines, so every line
   of the rewritten text starts at the same offset as in the original.
   */
  lemma LiteralsKeepLines(s: string)
    ensures SameLines(Literals(s), s)
    ensures forall line :: OffsetOfLine(Literals(s), line) == OffsetOfLine(s, line)
  {
    var a := ReplaceAll(s, VaList, VaListRep);
    ReplaceAllPointwise(s, VaList, VaListRep);
    ReplaceAllPointwise(a, Signed, SignedRep);
    assert '\n' !in VaList && '\n' !in VaListRep && '\n' !in Signed && '\n' !in SignedRep;
    forall line
      ensures OffsetOfLine(Literals(s), line) == OffsetOfLine(s, line)
    {
      OffsetOfLineSame(Literals(s), s, line);
    }
  }
}

=== FILE: instrument.dfy ===
/**
 `apply_witness` (witness2ast.py, lines 131-162): walk the transitions,
 and at every change of thread put a `yield(i, t)` call before the first
 statement at or after the transition's line and a `release(i, t)` call at
 the start of what that statement runs next.
 */
module Instrument {
  import opened Wrappers
  import opened Values
  import opened Failures
  import opened Ast
  import opened Search
  import opened SourceText
  import opened WitnessGraph

  // ---------------------------------------------------------------------
  // Markers and the inverse of instrumentation.
  // ---------------------------------------------------------------------

  /** A `yield` or `release` call carrying counter `i` and thread `t`; markers have no source line. */
  function Marker(name: string, i: nat, t: Value): Stmt {
    FuncCall(name, [VInt(i), t], None)
  }

  predicate IsMarker(s: Stmt) {
    s.FuncCall? && s.line.None? && (s.name == "yield" || s.name == "release")
  }

  /** A body or branch opened by `rel`: `Compound(block_items=[release, body])`. */
  function Opened(b: Stmt, rel: Stmt): Stmt {
    Compound([rel, b], None)
  }

  /**
   Markers removed and every block without a line that is left with a
   single statement replaced by that statement: undoes what the
   instrumentation adds.
   */
  function Erase(s: Stmt): Stmt {
    match s
    case Compound(items, l) =>
      var es := EraseItems(items);
      if l.None? && |es| == 1 then es[0] else Compound(es, l)
    case If(t, None, l) => If(Erase(t), None, l)
    case If(t, Some(e), l) => If(Erase(t), Some(Erase(e)), l)
    case While(b, l) => While(Erase(b), l)
    case DoWhile(b, l) => DoWhile(Erase(b), l)
    case For(b, l) => For(Erase(b), l)
    case FuncCall(_, _, _) => s
    case Other(cs, l) => Other(EraseAll(cs), l)
  }

  function EraseItems(ss: seq<Stmt>): seq<Stmt> {
    if ss == [] then [] else (if IsMarker(ss[0]) then [] else [Erase(ss[0])]) + EraseItems(ss[1..])
  }

  function EraseAll(ss: seq<Stmt>): seq<Stmt> {
    if ss == [] then [] else [Erase(ss[0])] + EraseAll(ss[1..])
  }

  /** Markers occur only as items of blocks (never as a loop body, branch or other child). */
  predicate NoStray(s: Stmt) {
    match s
    case Compound(items, _) => forall j :: 0 <= j < |items| ==> NoStray(items[j])
    case If(t, None, _) => !IsMarker(t) && NoStray(t)
    case If(t, Some(e), _) => !IsMarker(t) && NoStray(t) && !IsMarker(e) && NoStray(e)
    case While(b, _) => !IsMarker(b) && NoStray(b)
    case DoWhile(b, _) => !IsMarker(b) && NoStray(b)
    case For(b, _) => !IsMarker(b) && NoStray(b)
    case FuncCall(_, _, _) => true
    case Other(cs, _) => forall j :: 0 <= j < |cs| ==> !IsMarker(cs[j]) && NoStray(cs[j])
  }

  /** A tree as the parser produces it: no markers, and every block has a line. */
  predicate Plain(s: Stmt) {
    match s
    case Compound(items, l) => l.Some? && forall j :: 0 <= j < |items| ==> Plain(items[j])
    case If(t, None, _) => Plain(t)
    case If(t, Some(e), _) => Plain(t) && Plain(e)
    case While(b, _) => Plain(b)
    case DoWhile(b, _) => Plain(b)
    case For(b, _) => Plain(b)
    case FuncCall(_, _, _) => !IsMarker(s)
    case Other(cs, _) => forall j :: 0 <= j < |cs| ==> Plain(cs[j])
  }

  lemma {:induction false} EraseItemsConcat(a: seq<Stmt>, b: seq<Stmt>)
    ensures EraseItems(a + b) == EraseItems(a) + EraseItems(b)
  {
    if a == [] {
      assert a + b == b;
    } else {
      assert (a + b)[1..] == a[1..] + b;
      EraseItemsConcat(a[1..], b);
    }
  }

  lemma {:induction false} EraseAllConcat(a: seq<Stmt>, b: seq<Stmt>)
    ensures EraseAll(a + b) == EraseAll(a) + EraseAll(b)
  {
    if a == [] {
      assert a + b == b;
    } else {
      assert (a + b)[1..] == a[1..] + b;
      EraseAllConcat(a[1..], b);
    }
  }

  lemma EraseItemsSingle(x: Stmt)
    ensures EraseItems([x]) == if IsMarker(x) then [] else [Erase(x)]
  {
    assert [x][1..] == [];
  }

  /** A parsed tree is its own erasure and has no stray markers. */
  lemma {:induction false} PlainErase(s: Stmt)
    requires Plain(s)
    ensures Erase(s) == s && NoStray(s) && !IsMarker(s)
  {
    match s
    case Compound(items, l) =>
      PlainItemsErase(items);
    case If(t, None, _) => PlainErase(t);
    case If(t, Some(e), _) => PlainErase(t); PlainErase(e);
    case While(b, _) => PlainErase(b);
    case DoWhile(b, _) => PlainErase(b);
    case For(b, _) => PlainErase(b);
    case FuncCall(_, _, _) =>
    case Other(cs, _) =>
      PlainItemsErase(cs);
  }

  lemma {:induction false} PlainItemsErase(ss: seq<Stmt>)
    requires forall j :: 0 <= j < |ss| ==> Plain(ss[j])
    ensures EraseItems(ss) == ss && EraseAll(ss) == ss
    ensures forall j :: 0 <= j < |ss| ==> NoStray(ss[j]) && !IsMarker(ss[j])
  {
    if ss != [] {
      PlainErase(ss[0]);
      PlainItemsErase(ss[1..]);
      assert forall j :: 1 <= j < |ss| ==> ss[j] == ss[1..][j - 1];
      assert ss == [ss[0]] + ss[1..];
    }
  }

  /** Only a leaf can be a marker: an update below the root never produces one. */
  lemma UpdateNotMarker(s: Stmt, p: Path, n: Stmt)
    requires At(s, p).Some? && !IsMarker(n)
    ensures !IsMarker(Update(s, p, n))
  {
  }

  lemma UpdateSelf(s: Stmt, p: Path)
    requires At(s, p).Some?
    ensures Update(s, p, At(s, p).value) == s
    decreases |p|
  {
    if p != [] {
      match (s, p[0])
      case (Compound(items, _), Item(k)) => UpdateSelf(items[k], p[1..]); assert items[k := items[k]] == items;
      case (While(b, _), Body) => UpdateSelf(b, p[1..]);
      case (DoWhile(b, _), Body) => UpdateSelf(b, p[1..]);
      case (For(b, _), Body) => UpdateSelf(b, p[1..]);
      case (If(t, _, _), Then) => UpdateSelf(t, p[1..]);
      case (If(_, Some(e), _), Else) => UpdateSelf(e, p[1..]);
      case (Other(cs, _), Child(k)) => UpdateSelf(cs[k], p[1..]); assert cs[k := cs[k]] == cs;
    }
  }

  lemma EraseItemsReplace(ss: seq<Stmt>, k: nat, x: Stmt, y: Stmt)
    requires k < |ss| && !IsMarker(x) && !IsMarker(y) && Erase(x) == Erase(y)
    ensures EraseItems(ss[k := x]) == EraseItems(ss[k := y])
  {
    assert ss[k := x] == ss[..k] + [x] + ss[k + 1..];
    assert ss[k := y] == ss[..k] + [y] + ss[k + 1..];
    EraseItemsConcat(ss[..k] + [x], ss[k + 1..]);
    EraseItemsConcat(ss[..k], [x]);
    EraseItemsConcat(ss[..k] + [y], ss[k + 1..]);
    EraseItemsConcat(ss[..k], [y]);
    EraseItemsSingle(x);
    EraseItemsSingle(y);
  }

  lemma EraseAllReplace(ss: seq<Stmt>, k: nat, x: Stmt, y: Stmt)
    requires k < |ss| && Erase(x) == Erase(y)
    ensures EraseAll(ss[k := x]) == EraseAll(ss[k := y])
  {
    assert ss[k := x] == ss[..k] + [x] + ss[k + 1..];
    assert ss[k := y] == ss[..k] + [y] + ss[k + 1..];
    EraseAllConcat(ss[..k] + [x], ss[k + 1..]);
    EraseAllConcat(ss[..k], [x]);
    EraseAllConcat(ss[..k] + [y], ss[k + 1..]);
    EraseAllConcat(ss[..k], [y]);
    assert EraseAll([x]) == [Erase(x)] && EraseAll([y]) == [Erase(y)];
  }

  /** Replacing a sub-tree by one with the same erasure keeps the erasure of the whole tree. */
  lemma {:induction false} EraseUpdate(s: Stmt, p: Path, n: Stmt, m: Stmt)
    requires At(s, p).Some? && !IsMarker(n) && !IsMarker(m) && Erase(n) == Erase(m)
    ensures Erase(Update(s, p, n)) == Erase(Update(s, p, m))
    decreases |p|
  {
    if p != [] {
      match (s, p[0])
      case (Compound(items, l), Item(k)) =>
        EraseUpdate(items[k], p[1..], n, m);
        UpdateNotMarker(items[k], p[1..], n);
        UpdateNotMarker(items[k], p[1..], m);
        EraseItemsReplace(items, k, Update(items[k], p[1..], n), Update(items[k], p[1..], m));
      case (While(b, _), Body) => EraseUpdate(b, p[1..], n, m);
      case (DoWhile(b, _), Body) => EraseUpdate(b, p[1..], n, m);
      case (For(b, _), Body) => EraseUpdate(b, p[1..], n, m);
      case (If(t, None, _), Then) => EraseUpdate(t, p[1..], n, m);
      case (If(t, Some(_), _), Then) => EraseUpdate(t, p[1..], n, m);
      case (If(_, Some(e), _), Else) => EraseUpdate(e, p[1..], n, m);
      case (Other(cs, _), Child(k)) =>
        EraseUpdate(cs[k], p[1..], n, m);
        EraseAllReplace(cs, k, Update(cs[k], p[1..], n), Update(cs[k], p[1..], m));
    }
  }

  /** Putting a non-marker without stray markers anywhere keeps the tree free of stray markers. */
  lemma {:induction false} NoStrayUpdate(s: Stmt, p: Path, n: Stmt)
    requires At(s, p).Some? && NoStray(s) && NoStray(n) && !IsMarker(n)
    ensures NoStray(Update(s, p, n))
    decreases |p|
  {
    if p != [] {
      match (s, p[0])
      case (Compound(items, l), Item(k)) =>
        NoStrayUpdate(items[k], p[1..], n);
      case (While(b, _), Body) => NoStrayUpdate(b, p[1..], n); UpdateNotMarker(b, p[1..], n);
      case (DoWhile(b, _), Body) => NoStrayUpdate(b, p[1..], n); UpdateNotMarker(b, p[1..], n);
      case (For(b, _), Body) => NoStrayUpdate(b, p[1..], n); UpdateNotMarker(b, p[1..], n);
      case (If(t, _, _), Then) => NoStrayUpdate(t, p[1..], n); UpdateNotMarker(t, p[1..], n);
      case (If(_, Some(e), _), Else) => NoStrayUpdate(e, p[1..], n); UpdateNotMarker(e, p[1..], n);
      case (Other(cs, _), Child(k)) =>
        NoStrayUpdate(cs[k], p[1..], n);
        UpdateNotMarker(cs[k], p[1..], n);
    }
  }

  // ---------------------------------------------------------------------
  // One insertion (lines 143-162).
  // ---------------------------------------------------------------------

  /** A statement whose body or branches receive the release call. */
  predicate Opens(s: Stmt) {
    s.IsLoop() || s.If?
  }

  /** Loop bodies and the existing branches of an `if` opened by `rel`. */
  function Guard(s: Stmt, rel: Stmt): (r: Stmt)
    requires Opens(s)
    ensures r.line == s.line
    ensures r.While? == s.While? && r.DoWhile? == s.DoWhile? && r.For? == s.For? && r.If? == s.If?
    ensures s.IsLoop() ==> r.body.Compound? && r.body.items == [rel, s.body] && r.body.line.None?
    ensures s.If? ==>
      && r.thenBranch.Compound? && r.thenBranch.items == [rel, s.thenBranch] && r.thenBranch.line.None?
      && r.elseBranch.Some? == s.elseBranch.Some?
      && (s.elseBranch.Some? ==>
            r.elseBranch.value.Compound? && r.elseBranch.value.items == [rel, s.elseBranch.value]
            && r.elseBranch.value.line.None?)
  {
    match s
    case If(t, e, l) => If(Opened(t, rel), if e.Some? then Some(Opened(e.value, rel)) else None, l)
    case While(b, l) => While(Opened(b, rel), l)
    case DoWhile(b, l) => DoWhile(Opened(b, rel), l)
    case For(b, l) => For(Opened(b, rel), l)
  }

  /**
   The items of the target's block after the insertion of pair `i` for
   thread `t` before item `k`. A block as target fails: it has no `stmt`
   attribute to wrap. Otherwise `yield` takes the target's place, the target
   (guarded when it opens a body) follows, and for a flat statement `release`
   comes right after it. The other items keep their order.
   */
  function Place(items: seq<Stmt>, k: nat, i: nat, t: Value): (r: Result<seq<Stmt>, Failure>)
    requires k < |items|
    ensures r.Failure? <==> items[k].Compound?
    ensures r.Failure? ==> r.error == Crashed(CompoundTarget)
    ensures r.Success? ==>
      var out := r.value;
      var shift := if Opens(items[k]) then 1 else 2;
      && |out| == |items| + shift
      && (forall j :: 0 <= j < k ==> out[j] == items[j])
      && out[k] == Marker("yield", i, t)
      && out[k + 1] == (if Opens(items[k]) then Guard(items[k], Marker("release", i, t)) else items[k])
      && (!Opens(items[k]) ==> out[k + 2] == Marker("release", i, t))
      && (forall j :: k < j < |items| ==> out[j + shift] == items[j])
  {
    var target := items[k];
    var y := Marker("yield", i, t);
    var rel := Marker("release", i, t);
    if target.Compound? then Failure(Crashed(CompoundTarget))
    else if Opens(target) then Success(items[..k] + [y, Guard(target, rel)] + items[k + 1..])
    else Success(items[..k] + [y, target, rel] + items[k + 1..])
  }

  /** The release calls the target receives: two for an `if` with an else branch. */
  function Releases(s: Stmt): nat {
    if s.If? && s.elseBranch.Some? then 2 else 1
  }

  /** `m` taken `c` times. */
  function Times<T>(m: multiset<T>, c: nat): multiset<T> {
    if c == 0 then multiset{} else m + Times(m, c - 1)
  }

  lemma CallsConcat3(a: seq<Stmt>, b: seq<Stmt>, c: seq<Stmt>, name: string)
    ensures CallsIn(a + b + c, name) == CallsIn(a, name) + CallsIn(b, name) + CallsIn(c, name)
  {
    CallsInConcat(a + b, c, name);
    CallsInConcat(a, b, name);
  }

  lemma CallsPair(x: Stmt, y: Stmt, name: string)
    ensures CallsIn([x, y], name) == Calls(x, name) + Calls(y, name)
  {
    assert [x, y][1..] == [y];
    assert [y][1..] == [];
    assert CallsIn([y], name) == Calls(y, name) + CallsIn([], name);
    assert CallsIn([x, y], name) == Calls(x, name) + CallsIn([y], name);
  }

  lemma CallsTriple(x: Stmt, y: Stmt, z: Stmt, name: string)
    ensures CallsIn([x, y, z], name) == Calls(x, name) + Calls(y, name) + Calls(z, name)
  {
    assert [x, y, z][1..] == [y, z];
    CallsPair(y, z, name);
  }

  lemma CallsGuard(s: Stmt, rel: Stmt, name: string)
    requires Opens(s)
    ensures Calls(Guard(s, rel), name) == Calls(s, name) + Times(Calls(rel, name), Releases(s))
  {
    match s
    case If(t, e, l) => CallsGuardIf(t, e, l, rel, name);
    case While(b, l) => CallsOpened(b, rel, name);
    case DoWhile(b, l) => CallsOpened(b, rel, name);
    case For(b, l) => CallsOpened(b, rel, name);
  }

  lemma CallsOpened(b: Stmt, rel: Stmt, name: string)
    ensures Calls(Opened(b, rel), name) == Calls(b, name) + Times(Calls(rel, name), 1)
  {
    CallsPair(rel, b, name);
    assert Times(Calls(rel, name), 1) == Calls(rel, name);
  }

  lemma CallsGuardIf(t: Stmt, e: Option<Stmt>, l: Option<int>, rel: Stmt, name: string)
    ensures Calls(Guard(If(t, e, l), rel), name) == Calls(If(t, e, l), name) + Times(Calls(rel, name), Releases(If(t, e, l)))
  {
    var m := Calls(rel, name);
    CallsOpened(t, rel, name);
    if e.Some? {
      CallsOpened(e.value, rel, name);
      assert Times(m, 2) == m + m;
    }
  }

  /** The block gains the yield once and the release once or twice; nothing else. */
  lemma PlaceCalls(items: seq<Stmt>, k: nat, i: nat, t: Value, name: string)
    requires k < |items| && !items[k].Compound?
    ensures CallsIn(Place(items, k, i, t).value, name)
      == CallsIn(items, name) + Calls(Marker("yield", i, t), name)
         + Times(Calls(Marker("release", i, t), name), Releases(items[k]))
  {
    var target := items[k];
    var y := Marker("yield", i, t);
    var rel := Marker("release", i, t);
    assert items == items[..k] + [target] + items[k + 1..];
    CallsConcat3(items[..k], [target], items[k + 1..], name);
    assert CallsIn([target], name) == Calls(target, name) by { assert [target][1..] == []; }
    if Opens(target) {
      CallsConcat3(items[..k], [y, Guard(target, rel)], items[k + 1..], name);
      CallsPair(y, Guard(target, rel), name);
      CallsGuard(target, rel, name);
    } else {
      CallsConcat3(items[..k], [y, target, rel], items[k + 1..], name);
      CallsTriple(y, target, rel, name);
    }
  }

  /** A guarded target erases to the target and has no stray markers. */
  lemma GuardErase(s: Stmt, rel: Stmt)
    requires Opens(s) && NoStray(s) && IsMarker(rel)
    ensures Erase(Guard(s, rel)) == Erase(s) && NoStray(Guard(s, rel))
  {
    match s
    case If(th, e, l) =>
      OpenedErase(th, rel);
      if e.Some? {
        OpenedErase(e.value, rel);
      }
    case While(b, l) => OpenedErase(b, rel);
    case DoWhile(b, l) => OpenedErase(b, rel);
    case For(b, l) => OpenedErase(b, rel);
  }

  lemma OpenedErase(b: Stmt, rel: Stmt)
    requires !IsMarker(b) && NoStray(b) && IsMarker(rel)
    ensures Erase(Opened(b, rel)) == Erase(b) && NoStray(Opened(b, rel)) && !IsMarker(Opened(b, rel))
  {
    assert [rel, b][1..] == [b];
    EraseItemsSingle(b);
  }

  /** Replacing one item by a run with the same erasure keeps the erasure of the list. */
  lemma EraseItemsSplice(items: seq<Stmt>, k: nat, mid: seq<Stmt>)
    requires k < |items| && EraseItems(mid) == EraseItems([items[k]])
    ensures EraseItems(items[..k] + mid + items[k + 1..]) == EraseItems(items)
  {
    assert items == items[..k] + [items[k]] + items[k + 1..];
    EraseItemsConcat(items[..k] + [items[k]], items[k + 1..]);
    EraseItemsConcat(items[..k], [items[k]]);
    EraseItemsConcat(items[..k] + mid, items[k + 1..]);
    EraseItemsConcat(items[..k], mid);
  }

  /** The block's erasure is unchanged. */
  lemma PlaceErase(items: seq<Stmt>, k: nat, i: nat, t: Value)
    requires k < |items| && !items[k].Compound? && NoStray(items[k])
    ensures EraseItems(Place(items, k, i, t).value) == EraseItems(items)
  {
    var target := items[k];
    var y := Marker("yield", i, t);
    var rel := Marker("release", i, t);
    EraseItemsSingle(target);
    if Opens(target) {
      var g := Guard(target, rel);
      GuardErase(target, rel);
      assert EraseItems([y, g]) == EraseItems([g]) by { assert [y, g][1..] == [g]; }
      EraseItemsSingle(g);
      EraseItemsSplice(items, k, [y, g]);
    } else {
      assert EraseItems([y, target, rel]) == EraseItems([target, rel]) by { assert [y, target, rel][1..] == [target, rel]; }
      assert EraseItems([target, rel]) == EraseItems([target]) + EraseItems([rel]) by {
        assert [target, rel] == [target] + [rel];
        EraseItemsConcat([target], [rel]);
      }
      EraseItemsSingle(rel);
      EraseItemsSplice(items, k, [y, target, rel]);
    }
  }

  /** The placed items still have no stray markers. */
  lemma PlaceNoStray(items: seq<Stmt>, k: nat, i: nat, t: Value)
    requires k < |items| && !items[k].Compound?
    requires forall j :: 0 <= j < |items| ==> NoStray(items[j])
    ensures var out := Place(items, k, i, t).value; forall j :: 0 <= j < |out| ==> NoStray(out[j])
  {
    if Opens(items[k]) {
      GuardErase(items[k], Marker("release", i, t));
    }
  }

  /** The parent block of `h` exists in `body`, and an item index is in range. */
  predicate Names(body: Stmt, h: Hit) {
    var n := At(body, h.parent);
    && n.Some? && n.value.Compound?
    && (h.slot.Index? ==> h.slot.k < |n.value.items|)
  }

  /**
   One insertion into a function body at the search result `h`. An empty
   block as target fails (the block itself has no list to insert into), so
   does a block item that is itself a block. On success the parent block is
   replaced by the placed items and nothing outside it changes.
   */
  function InsertAt(body: Stmt, h: Hit, i: nat, t: Value): (r: Result<Stmt, Failure>)
    requires Names(body, h)
    ensures h.slot.Itself? ==> r == Failure(Crashed(EmptyBlockTarget))
    ensures h.slot.Index? ==>
      var c := At(body, h.parent).value;
      var placed := Place(c.items, h.slot.k, i, t);
      && (placed.Failure? ==> r == Failure(placed.error))
      && (placed.Success? ==>
            && r.Success?
            && At(r.value, h.parent) == Some(Compound(placed.value, c.line))
            && forall q :: Disjoint(h.parent, q) ==> At(r.value, q) == At(body, q))
  {
    match h.slot
    case Itself => Failure(Crashed(EmptyBlockTarget))
    case Index(k) =>
      var c := At(body, h.parent).value;
      match Place(c.items, k, i, t)
      case Failure(err) => Failure(err)
      case Success(items) =>
        var n := Compound(items, c.line);
        AtUpdate(body, h.parent, n);
        forall q | Disjoint(h.parent, q)
          ensures At(Update(body, h.parent, n), q) == At(body, q)
        {
          AtUpdateDisjoint(body, h.parent, q, n);
        }
        Success(Update(body, h.parent, n))
  }

  lemma MultisetCancel<T>(a: multiset<T>, b: multiset<T>, o: multiset<T>, x: multiset<T>)
    requires a + o == b + (o + x)
    ensures a == b + x
  {
    forall e
      ensures a[e] == (b + x)[e]
    {
      assert (a + o)[e] == (b + (o + x))[e];
    }
  }

  /** A successful insertion adds one yield call and one or two release calls, and no other call. */
  lemma InsertAtCalls(body: Stmt, h: Hit, i: nat, t: Value, name: string)
    requires Names(body, h) && InsertAt(body, h, i, t).Success?
    ensures var c := At(body, h.parent).value;
      Calls(InsertAt(body, h, i, t).value, name)
        == Calls(body, name) + Calls(Marker("yield", i, t), name)
           + Times(Calls(Marker("release", i, t), name), Releases(c.items[h.slot.k]))
  {
    var c := At(body, h.parent).value;
    var k := h.slot.k;
    var items := Place(c.items, k, i, t).value;
    var n := Compound(items, c.line);
    UpdateCalls(body, h.parent, n, name);
    PlaceCalls(c.items, k, i, t, name);
    MultisetCancel(Calls(Update(body, h.parent, n), name), Calls(body, name), Calls(c, name),
      Calls(Marker("yield", i, t), name) + Times(Calls(Marker("release", i, t), name), Releases(c.items[k])));
  }

  /** A successful insertion is undone by erasure and keeps markers inside blocks. */
  lemma InsertAtErase(body: Stmt, h: Hit, i: nat, t: Value)
    requires Names(body, h) && InsertAt(body, h, i, t).Success? && NoStray(body)
    ensures Erase(InsertAt(body, h, i, t).value) == Erase(body)
    ensures NoStray(InsertAt(body, h, i, t).value)
  {
    var c := At(body, h.parent).value;
    var k := h.slot.k;
    NoStrayAt(body, h.parent);
    PlaceErase(c.items, k, i, t);
    PlaceNoStray(c.items, k, i, t);
    var n := Compound(Place(c.items, k, i, t).value, c.line);
    EraseUpdate(body, h.parent, n, c);
    UpdateSelf(body, h.parent);
    NoStrayUpdate(body, h.parent, n);
  }

  lemma {:induction false} NoStrayAt(s: Stmt, p: Path)
    requires At(s, p).Some? && NoStray(s)
    ensures NoStray(At(s, p).value)
    decreases |p|
  {
    if p != [] {
      match (s, p[0])
      case (Compound(items, _), Item(k)) => NoStrayAt(items[k], p[1..]);
      case (While(b, _), Body) => NoStrayAt(b, p[1..]);
      case (DoWhile(b, _), Body) => NoStrayAt(b, p[1..]);
      case (For(b, _), Body) => NoStrayAt(b, p[1..]);
      case (If(t, _, _), Then) => NoStrayAt(t, p[1..]);
      case (If(_, Some(e), _), Else) => NoStrayAt(e, p[1..]);
      case (Other(cs, _), Child(k)) => NoStrayAt(cs[k], p[1..]);
    }
  }

  // ---------------------------------------------------------------------
  // The translation unit (lines 131-151).
  // ---------------------------------------------------------------------

  /** The calls to `name` in all function bodies. */
  function CallsExt(ext: seq<External>, name: string): multiset<seq<Value>> {
    if ext == [] then multiset{}
    else (if ext[0].FuncDef? then Calls(ext[0].body, name) else multiset{}) + CallsExt(ext[1..], name)
  }

  function EraseDef(x: External): External {
    if x.FuncDef? then FuncDef(x.decl, Erase(x.body)) else x
  }

  /** Every function body erased; declarations and other items as they are. */
  function EraseExt(ext: seq<External>): (r: seq<External>)
    ensures |r| == |ext|
  {
    seq(|ext|, j requires 0 <= j < |ext| => EraseDef(ext[j]))
  }

  predicate NoStrayExt(ext: seq<External>) {
    forall j :: 0 <= j < |ext| && ext[j].FuncDef? ==> NoStray(ext[j].body)
  }

  predicate PlainExt(ext: seq<External>) {
    forall j :: 0 <= j < |ext| && ext[j].FuncDef? ==> Plain(ext[j].body)
  }

  lemma PlainExtErase(ext: seq<External>)
    requires PlainExt(ext)
    ensures EraseExt(ext) == ext && NoStrayExt(ext)
  {
    forall j | 0 <= j < |ext| && ext[j].FuncDef?
      ensures Erase(ext[j].body) == ext[j].body && NoStray(ext[j].body)
    {
      PlainErase(ext[j].body);
    }
  }

  lemma {:induction false} CallsExtReplace(ext: seq<External>, fn: nat, b: Stmt, name: string)
    requires fn < |ext| && ext[fn].FuncDef?
    ensures CallsExt(ext[fn := FuncDef(ext[fn].decl, b)], name) + Calls(ext[fn].body, name)
      == CallsExt(ext, name) + Calls(b, name)
  {
    var x := FuncDef(ext[fn].decl, b);
    if fn == 0 {
      assert ext[fn := x][1..] == ext[1..];
    } else {
      assert ext[fn := x][1..] == ext[1..][fn - 1 := x];
      CallsExtReplace(ext[1..], fn - 1, b, name);
      MultisetFrame(CallsExt(ext[1..][fn - 1 := x], name), Calls(ext[fn].body, name),
        CallsExt(ext[1..], name), Calls(b, name),
        if ext[0].FuncDef? then Calls(ext[0].body, name) else multiset{});
    }
  }

  /** The block item the search picks for `line`, if any, and whether it can receive a pair. */
  function Target(ext: seq<External>, line: int): Option<Stmt> {
    match FindFirstStatementAsWritten(ext, line)
    case None => None
    case Some(loc) =>
      var c := At(ext[loc.fn].body, loc.hit.parent).value;
      match loc.hit.slot
      case Itself => Some(c)
      case Index(k) => Some(c.items[k])
  }

  /**
   One iteration that switches threads: search, as the program does, for
   the first statement at or after `line` and insert pair `i` for thread
   `t` there. No statement
   found raises (`first_parent` is `None`), and so do the two unusable
   targets. Only the function body holding the target changes.
   */
  function InsertPair(ext: seq<External>, line: int, i: nat, t: Value): (r: Result<seq<External>, Failure>)
    ensures FindFirstStatementAsWritten(ext, line).None? ==> r == Failure(Crashed(NoTarget))
    ensures r.Failure? ==> r.error in {Crashed(NoTarget), Crashed(EmptyBlockTarget), Crashed(CompoundTarget)}
    ensures Target(ext, line).Some? && !Target(ext, line).value.Compound? ==> r.Success?
    ensures r.Success? ==>
      && Target(ext, line).Some? && !Target(ext, line).value.Compound?
      && var loc := FindFirstStatementAsWritten(ext, line).value;
         && |r.value| == |ext|
         && r.value[loc.fn] == FuncDef(ext[loc.fn].decl, InsertAt(ext[loc.fn].body, loc.hit, i, t).value)
         && forall j :: 0 <= j < |ext| && j != loc.fn ==> r.value[j] == ext[j]
  {
    match FindFirstStatementAsWritten(ext, line)
    case None => Failure(Crashed(NoTarget))
    case Some(loc) =>
      match InsertAt(ext[loc.fn].body, loc.hit, i, t)
      case Failure(err) =>
        assert err == Crashed(EmptyBlockTarget) || err == Crashed(CompoundTarget);
        Failure(err)
      case Success(b) => Success(ext[loc.fn := FuncDef(ext[loc.fn].decl, b)])
  }

  /** A pair adds one yield call and one or two release calls with its counter and thread; no other call. */
  lemma InsertPairCalls(ext: seq<External>, line: int, i: nat, t: Value, name: string)
    requires InsertPair(ext, line, i, t).Success?
    ensures var target := Target(ext, line).value;
      CallsExt(InsertPair(ext, line, i, t).value, name)
        == CallsExt(ext, name) + Calls(Marker("yield", i, t), name)
           + Times(Calls(Marker("release", i, t), name), Releases(target))
  {
    var loc := FindFirstStatementAsWritten(ext, line).value;
    var body := ext[loc.fn].body;
    var b := InsertAt(body, loc.hit, i, t).value;
    var target := Target(ext, line).value;
    InsertAtCalls(body, loc.hit, i, t, name);
    CallsExtReplace(ext, loc.fn, b, name);
    var delta := Calls(Marker("yield", i, t), name) + Times(Calls(Marker("release", i, t), name), Releases(target));
    assert Calls(b, name) == Calls(body, name) + delta;
    assert InsertPair(ext, line, i, t).value == ext[loc.fn := FuncDef(ext[loc.fn].decl, b)];
    MultisetCancel(CallsExt(InsertPair(ext, line, i, t).value, name), CallsExt(ext, name), Calls(body, name), delta);
  }

  /** A pair is undone by erasure and keeps markers inside blocks. */
  lemma InsertPairErase(ext: seq<External>, line: int, i: nat, t: Value)
    requires InsertPair(ext, line, i, t).Success? && NoStrayExt(ext)
    ensures EraseExt(InsertPair(ext, line, i, t).value) == EraseExt(ext)
    ensures NoStrayExt(InsertPair(ext, line, i, t).value)
  {
    var loc := FindFirstStatementAsWritten(ext, line).value;
    InsertAtErase(ext[loc.fn].body, loc.hit, i, t);
    var r := InsertPair(ext, line, i, t).value;
    assert forall j :: 0 <= j < |ext| ==> EraseDef(r[j]) == EraseDef(ext[j]);
  }

  /** The thread of a transition: its `threadId`, or the current thread when it has none. */
  function Thread(data: map<string, Value>, cur: Value): Value {
    if "threadId" in data then data["threadId"] else cur
  }

  datatype Switch = Switch(line: int, tid: Value)

  /** The loop acts on a transition when it has coordinates and names a thread other than `cur`. */
  predicate ActsOn(tr: Transition, cur: Value) {
    tr.coords.Some? && Thread(tr.data, cur) != cur
  }

  /**
   The thread changes acted upon, starting from thread `cur`: a transition
   with coordinates whose thread differs from the current one. The current
   thread only moves at such a change, so consecutive switches name
   different threads and the first differs from `cur`; a first transition
   that acts on `cur` gives the first switch.
   */
  function Switches(meta: seq<Transition>, cur: Value): (sw: seq<Switch>)
    ensures |sw| <= |meta|
    ensures |sw| > 0 ==> sw[0].tid != cur
    ensures forall j :: 0 < j < |sw| ==> sw[j].tid != sw[j - 1].tid
    ensures meta != [] && ActsOn(meta[0], cur) ==>
      |sw| > 0 && sw[0] == Switch(meta[0].coords.value.startline, Thread(meta[0].data, cur))
  {
    if meta == [] then []
    else
      var tid := Thread(meta[0].data, cur);
      if tid != cur && meta[0].coords.Some? then
        var rest := Switches(meta[1..], tid);
        var sw := [Switch(meta[0].coords.value.startline, tid)] + rest;
        assert forall j :: 0 < j < |sw| ==> sw[j] == rest[j - 1];
        sw
      else Switches(meta[1..], cur)
  }

  /** There is no switch exactly when no transition acts on the starting thread. */
  lemma {:induction false} SwitchesNone(meta: seq<Transition>, cur: Value)
    ensures Switches(meta, cur) == [] <==> forall m :: 0 <= m < |meta| ==> !ActsOn(meta[m], cur)
    decreases |meta|
  {
    if meta != [] && !ActsOn(meta[0], cur) {
      SwitchesNone(meta[1..], cur);
      assert forall m :: 1 <= m < |meta| ==> meta[m] == meta[1..][m - 1];
    }
  }

  /** The current thread after the loop went through `meta` from thread `cur`. */
  function After(meta: seq<Transition>, cur: Value): Value
    decreases |meta|
  {
    if meta == [] then cur
    else After(meta[1..], if ActsOn(meta[0], cur) then Thread(meta[0].data, cur) else cur)
  }

  /** The first transition either acts on `cur` and gives the first switch, or is passed over. */
  lemma {:induction false} SwitchesHead(meta: seq<Transition>, cur: Value)
    requires meta != []
    ensures var tid := Thread(meta[0].data, cur);
      && Switches(meta, cur) == (if ActsOn(meta[0], cur)
           then [Switch(meta[0].coords.value.startline, tid)] + Switches(meta[1..], tid)
           else Switches(meta[1..], cur))
      && After(meta, cur) == (if ActsOn(meta[0], cur) then After(meta[1..], tid) else After(meta[1..], cur))
  {
  }

  /** `Switches` without its contract, for the proofs that take sequences apart. */
  function Acted(meta: seq<Transition>, cur: Value): seq<Switch>
    decreases |meta|
  {
    if meta == [] then []
    else if ActsOn(meta[0], cur) then
      [Switch(meta[0].coords.value.startline, Thread(meta[0].data, cur))] + Acted(meta[1..], Thread(meta[0].data, cur))
    else Acted(meta[1..], cur)
  }

  lemma {:induction false} SwitchesActed(meta: seq<Transition>, cur: Value)
    ensures Switches(meta, cur) == Acted(meta, cur)
    decreases |meta|
  {
    if meta != [] {
      SwitchesHead(meta, cur);
      SwitchesActed(meta[1..], if ActsOn(meta[0], cur) then Thread(meta[0].data, cur) else cur);
    }
  }

  lemma {:induction false} ActedAppend(a: seq<Transition>, b: seq<Transition>, cur: Value)
    ensures Acted(a + b, cur) == Acted(a, cur) + Acted(b, After(a, cur))
    decreases |a|
  {
    if a == [] {
      assert a + b == b;
    } else {
      assert (a + b)[1..] == a[1..] + b && (a + b)[0] == a[0];
      if ActsOn(a[0], cur) {
        var tid := Thread(a[0].data, cur);
        ActedAppend(a[1..], b, tid);
        var h := [Switch(a[0].coords.value.startline, tid)];
        assert h + (Acted(a[1..], tid) + Acted(b, After(a[1..], tid)))
          == (h + Acted(a[1..], tid)) + Acted(b, After(a[1..], tid));
      } else {
        ActedAppend(a[1..], b, cur);
      }
    }
  }

  /** The loop over `a + b` is the loop over `a` and then over `b` from the thread it left. */
  lemma {:induction false} SwitchesAppend(a: seq<Transition>, b: seq<Transition>, cur: Value)
    ensures Switches(a + b, cur) == Switches(a, cur) + Switches(b, After(a, cur))
  {
    SwitchesActed(a + b, cur);
    SwitchesActed(a, cur);
    SwitchesActed(b, After(a, cur));
    ActedAppend(a, b, cur);
  }

  lemma {:induction false} AfterAppend(a: seq<Transition>, b: seq<Transition>, cur: Value)
    ensures After(a + b, cur) == After(b, After(a, cur))
    decreases |a|
  {
    if a == [] {
      assert a + b == b;
    } else {
      assert (a + b)[1..] == a[1..] + b && (a + b)[0] == a[0];
      AfterAppend(a[1..], b, if ActsOn(a[0], cur) then Thread(a[0].data, cur) else cur);
    }
  }

  /**
   One iteration of the loop, in the program's order: transition `m` adds
   a switch to its line and thread exactly when it acts on the current
   thread, which then becomes that thread.
   */
  lemma {:induction false} SwitchesStep(meta: seq<Transition>, cur: Value, m: nat)
    requires m < |meta|
    ensures var now := After(meta[..m], cur);
      && Switches(meta[..m + 1], cur) == Switches(meta[..m], cur)
           + (if ActsOn(meta[m], now) then [Switch(meta[m].coords.value.startline, Thread(meta[m].data, now))] else [])
      && After(meta[..m + 1], cur) == if ActsOn(meta[m], now) then Thread(meta[m].data, now) else now
  {
    var now := After(meta[..m], cur);
    assert meta[..m + 1] == meta[..m] + [meta[m]];
    SwitchesAppend(meta[..m], [meta[m]], cur);
    AfterAppend(meta[..m], [meta[m]], cur);
    assert [meta[m]][1..] == [];
    var sw := Switches(meta[..m + 1], cur);
    if ActsOn(meta[m], now) {
      assert sw == Switches(meta[..m], cur) + [Switch(meta[m].coords.value.startline, Thread(meta[m].data, now))];
    } else {
      assert sw == Switches(meta[..m], cur) + [];
    }
  }

  /** Transition `m` produced the `k`-th switch: its line and its thread. */
  predicate SwitchAt(meta: seq<Transition>, cur: Value, m: int, k: nat) {
    && 0 <= m < |meta|
    && k == |Switches(meta[..m], cur)|
    && ActsOn(meta[m], After(meta[..m], cur))
    && k < |Switches(meta, cur)|
    && Switches(meta, cur)[k] == Switch(meta[m].coords.value.startline, Thread(meta[m].data, After(meta[..m], cur)))
  }

  /** A transition with coordinates that changes the current thread always yields a switch, numbered by the switches before it. */
  lemma {:induction false} SwitchActed(meta: seq<Transition>, cur: Value, m: nat)
    requires m < |meta| && ActsOn(meta[m], After(meta[..m], cur))
    ensures SwitchAt(meta, cur, m, |Switches(meta[..m], cur)|)
  {
    SwitchesStep(meta, cur, m);
    assert meta == meta[..m + 1] + meta[m + 1..];
    SwitchesAppend(meta[..m + 1], meta[m + 1..], cur);
  }

  lemma {:induction false} SwitchOriginUpTo(meta: seq<Transition>, cur: Value, k: nat, n: nat)
    requires n <= |meta| && k < |Switches(meta[..n], cur)|
    ensures exists m :: m < n && SwitchAt(meta, cur, m, k)
    decreases n
  {
    if n > 0 {
      var m := n - 1;
      SwitchesStep(meta, cur, m);
      if k < |Switches(meta[..m], cur)| {
        SwitchOriginUpTo(meta, cur, k, m);
      } else {
        assert ActsOn(meta[m], After(meta[..m], cur));
        SwitchActed(meta, cur, m);
        assert SwitchAt(meta, cur, m, k);
      }
    }
  }

  /** Every switch comes from a transition that acts on the thread current when the loop reaches it. */
  lemma {:induction false} SwitchOrigin(meta: seq<Transition>, cur: Value, k: nat)
    requires k < |Switches(meta, cur)|
    ensures exists m :: SwitchAt(meta, cur, m, k)
  {
    assert meta[..|meta|] == meta;
    SwitchOriginUpTo(meta, cur, k, |meta|);
  }

  /** The pairs in order: counter `i + k` with the thread of the `k`-th switch. */
  function Tags(sw: seq<Switch>, i: nat): (r: seq<seq<Value>>)
    ensures |r| == |sw|
    ensures forall k :: 0 <= k < |sw| ==> r[k] == [VInt(i + k), sw[k].tid]
  {
    if sw == [] then []
    else
      var rest := Tags(sw[1..], i + 1);
      var r := [[VInt(i), sw[0].tid]] + rest;
      assert forall k :: 1 <= k < |sw| ==> r[k] == rest[k - 1] && sw[k] == sw[1..][k - 1];
      r
  }

  /** Insert the pairs for `sw` one after another, counters from `i`. */
  function ApplySwitches(ext: seq<External>, sw: seq<Switch>, i: nat): Result<seq<External>, Failure>
    decreases |sw|
  {
    if sw == [] then Success(ext)
    else
      match InsertPair(ext, sw[0].line, i, sw[0].tid)
      case Failure(err) => Failure(err)
      case Success(next) => ApplySwitches(next, sw[1..], i + 1)
  }

  /** The `for` loop over the transitions, with the current thread and the counter. */
  function Loop(ext: seq<External>, meta: seq<Transition>, cur: Value, i: nat): Result<seq<External>, Failure>
    decreases |meta|
  {
    if meta == [] then Success(ext)
    else
      var tid := Thread(meta[0].data, cur);
      if tid != cur && meta[0].coords.Some? then
        match InsertPair(ext, meta[0].coords.value.startline, i, tid)
        case Failure(err) => Failure(err)
        case Success(next) => Loop(next, meta[1..], tid, i + 1)
      else Loop(ext, meta[1..], cur, i)
  }

  /** The loop inserts exactly the pairs of the thread switches, in order. */
  lemma {:induction false} LoopIsApplySwitches(ext: seq<External>, meta: seq<Transition>, cur: Value, i: nat)
    ensures Loop(ext, meta, cur, i) == ApplySwitches(ext, Switches(meta, cur), i)
    decreases |meta|
  {
    if meta != [] {
      var tid := Thread(meta[0].data, cur);
      if tid != cur && meta[0].coords.Some? {
        var sw := Switches(meta, cur);
        assert sw[1..] == Switches(meta[1..], tid);
        match InsertPair(ext, meta[0].coords.value.startline, i, tid)
        case Failure(_) =>
        case Success(next) => LoopIsApplySwitches(next, meta[1..], tid, i + 1);
      } else {
        LoopIsApplySwitches(ext, meta[1..], cur, i);
      }
    }
  }

  lemma TimesIn<T>(m: multiset<T>, c: nat, a: T)
    ensures a in Times(m, c) <==> c > 0 && a in m
  {
    if c > 0 {
      TimesIn(m, c - 1, a);
    }
  }

  /** A pair adds exactly its own tag to the yield calls. */
  lemma PairYields(ext: seq<External>, line: int, i: nat, t: Value)
    requires InsertPair(ext, line, i, t).Success?
    ensures CallsExt(InsertPair(ext, line, i, t).value, "yield") == CallsExt(ext, "yield") + multiset{[VInt(i), t]}
  {
    InsertPairCalls(ext, line, i, t, "yield");
    TimesEmpty(Calls(Marker("release", i, t), "yield"), Releases(Target(ext, line).value));
  }

  /** After a pair, the release calls hold its tag (once or twice) besides the earlier ones. */
  lemma PairReleases(ext: seq<External>, line: int, i: nat, t: Value)
    requires InsertPair(ext, line, i, t).Success?
    ensures forall a ::
      a in CallsExt(InsertPair(ext, line, i, t).value, "release") <==> a in CallsExt(ext, "release") || a == [VInt(i), t]
  {
    InsertPairCalls(ext, line, i, t, "release");
    var after := CallsExt(InsertPair(ext, line, i, t).value, "release");
    var c := Releases(Target(ext, line).value);
    assert after == CallsExt(ext, "release") + Times(multiset{[VInt(i), t]}, c);
    forall a
      ensures a in after <==> a in CallsExt(ext, "release") || a == [VInt(i), t]
    {
      TimesIn(multiset{[VInt(i), t]}, c, a);
    }
  }

  lemma PairOthers(ext: seq<External>, line: int, i: nat, t: Value, name: string)
    requires InsertPair(ext, line, i, t).Success? && name != "yield" && name != "release"
    ensures CallsExt(InsertPair(ext, line, i, t).value, name) == CallsExt(ext, name)
  {
    InsertPairCalls(ext, line, i, t, name);
    TimesEmpty(Calls(Marker("release", i, t), name), Releases(Target(ext, line).value));
  }

  /** The yield calls gain exactly the tags of the switches. */
  lemma {:induction false} ApplySwitchesYields(ext: seq<External>, sw: seq<Switch>, i: nat)
    requires ApplySwitches(ext, sw, i).Success?
    ensures CallsExt(ApplySwitches(ext, sw, i).value, "yield") == CallsExt(ext, "yield") + multiset(Tags(sw, i))
    decreases |sw|
  {
    if sw != [] {
      var next := InsertPair(ext, sw[0].line, i, sw[0].tid).value;
      ApplySwitchesYields(next, sw[1..], i + 1);
      assert Tags(sw, i) == [[VInt(i), sw[0].tid]] + Tags(sw[1..], i + 1);
      PairYields(ext, sw[0].line, i, sw[0].tid);
    }
  }

  /** A release call is present afterwards iff it was before or its arguments are a tag of a switch. */
  lemma {:induction false} ApplySwitchesReleases(ext: seq<External>, sw: seq<Switch>, i: nat)
    requires ApplySwitches(ext, sw, i).Success?
    ensures forall a ::
      a in CallsExt(ApplySwitches(ext, sw, i).value, "release") <==> a in CallsExt(ext, "release") || a in Tags(sw, i)
    decreases |sw|
  {
    if sw != [] {
      var next := InsertPair(ext, sw[0].line, i, sw[0].tid).value;
      ApplySwitchesReleases(next, sw[1..], i + 1);
      assert Tags(sw, i) == [[VInt(i), sw[0].tid]] + Tags(sw[1..], i + 1);
      PairReleases(ext, sw[0].line, i, sw[0].tid);
    }
  }

  /** Calls other than the two markers are untouched. */
  lemma {:induction false} ApplySwitchesOthers(ext: seq<External>, sw: seq<Switch>, i: nat, name: string)
    requires ApplySwitches(ext, sw, i).Success? && name != "yield" && name != "release"
    ensures CallsExt(ApplySwitches(ext, sw, i).value, name) == CallsExt(ext, name)
    decreases |sw|
  {
    if sw != [] {
      var next := InsertPair(ext, sw[0].line, i, sw[0].tid).value;
      ApplySwitchesOthers(next, sw[1..], i + 1, name);
      PairOthers(ext, sw[0].line, i, sw[0].tid, name);
    }
  }

  lemma TimesEmpty<T>(m: multiset<T>, c: nat)
    requires m == multiset{}
    ensures Times(m, c) == multiset{}
  {
    if c > 0 {
      TimesEmpty(m, c - 1);
    }
  }

  /** Erasing the instrumented program gives the program before instrumentation. */
  lemma {:induction false} ApplySwitchesErase(ext: seq<External>, sw: seq<Switch>, i: nat)
    requires ApplySwitches(ext, sw, i).Success? && NoStrayExt(ext)
    ensures EraseExt(ApplySwitches(ext, sw, i).value) == EraseExt(ext)
    ensures NoStrayExt(ApplySwitches(ext, sw, i).value)
    decreases |sw|
  {
    if sw != [] {
      var next := InsertPair(ext, sw[0].line, i, sw[0].tid).value;
      InsertPairErase(ext, sw[0].line, i, sw[0].tid);
      ApplySwitchesErase(next, sw[1..], i + 1);
    }
  }

  /**
   The body of `apply_witness` after `extract_metadata`: an empty
   transition list raises (`metadata[0]`), otherwise the loop starts from
   the first transition's thread, or thread 0.
   */
  function Instrument(ext: seq<External>, meta: seq<Transition>): (r: Result<seq<External>, Failure>)
    ensures meta == [] <==> r == Failure(Crashed(NoTransitions))
  {
    if meta == [] then Failure(Crashed(NoTransitions))
    else
      var r := Loop(ext, meta, Thread(meta[0].data, VInt(0)), 0);
      assert r != Failure(Crashed(NoTransitions)) by {
        LoopIsApplySwitches(ext, meta, Thread(meta[0].data, VInt(0)), 0);
        ApplySwitchesNeverEmpty(ext, Switches(meta, Thread(meta[0].data, VInt(0))), 0);
      }
      r
  }

  lemma {:induction false} ApplySwitchesNeverEmpty(ext: seq<External>, sw: seq<Switch>, i: nat)
    ensures ApplySwitches(ext, sw, i) != Failure(Crashed(NoTransitions))
    decreases |sw|
  {
    if sw != [] {
      match InsertPair(ext, sw[0].line, i, sw[0].tid)
      case Failure(_) =>
      case Success(next) => ApplySwitchesNeverEmpty(next, sw[1..], i + 1);
    }
  }

  /**
   For a parsed program, a successful instrumentation only adds calls:
   erasing them gives back the program.
   */
  lemma {:induction false} InstrumentErases(ext: seq<External>, meta: seq<Transition>)
    requires PlainExt(ext) && Instrument(ext, meta).Success?
    ensures EraseExt(Instrument(ext, meta).value) == ext
  {
    var cur := Thread(meta[0].data, VInt(0));
    LoopIsApplySwitches(ext, meta, cur, 0);
    PlainExtErase(ext);
    ApplySwitchesErase(ext, Switches(meta, cur), 0);
  }

  /**
   The calls a successful instrumentation adds: the yield calls are the
   program's own plus exactly one per thread switch, numbered from 0 in
   transition order, each carrying the thread switched to; its release
   calls carry exactly those same tags.
   */
  lemma {:induction false} InstrumentSpec(ext: seq<External>, meta: seq<Transition>)
    requires Instrument(ext, meta).Success?
    ensures var r := Instrument(ext, meta).value;
      var sw := Switches(meta, Thread(meta[0].data, VInt(0)));
      && CallsExt(r, "yield") == CallsExt(ext, "yield") + multiset(Tags(sw, 0))
      && (forall a :: a in CallsExt(r, "release") <==> a in CallsExt(ext, "release") || a in Tags(sw, 0))
  {
    var cur := Thread(meta[0].data, VInt(0));
    LoopIsApplySwitches(ext, meta, cur, 0);
    ApplySwitchesYields(ext, Switches(meta, cur), 0);
    ApplySwitchesReleases(ext, Switches(meta, cur), 0);
  }

  /**
   `apply_witness`: extract the transitions (its failures pass through),
   then instrument. The table of function definitions the source builds
   first is never read.
   */
  function ApplyWitness(ast: FileAst, f: string, g: Witness): (r: Result<FileAst, Failure>)
    requires WellFormed(g)
    ensures ExtractMetadata(g, f).Failure? ==> r == Failure(ExtractMetadata(g, f).error)
    ensures ExtractMetadata(g, f) == Success([]) ==> r == Failure(Crashed(NoTransitions))
    ensures r.Success? ==>
      && ExtractMetadata(g, f).Success? && ExtractMetadata(g, f).value != []
      && var meta := ExtractMetadata(g, f).value;
         var tags := Tags(Switches(meta, Thread(meta[0].data, VInt(0))), 0);
         && (PlainExt(ast.ext) ==> EraseExt(r.value.ext) == ast.ext)
         && CallsExt(r.value.ext, "yield") == CallsExt(ast.ext, "yield") + multiset(tags)
         && (forall a :: a in CallsExt(r.value.ext, "release") <==> a in CallsExt(ast.ext, "release") || a in tags)
  {
    var meta :- ExtractMetadata(g, f);
    var ext :- Instrument(ast.ext, meta);
    InstrumentSpec(ast.ext, meta);
    if PlainExt(ast.ext) then
      InstrumentErases(ast.ext, meta);
      Success(FileAst(ext))
    else
      Success(FileAst(ext))
  }

  /**
   On a witness with parallel edges every transition is empty, so no
   transition acts and a successful run inserts nothing.
   */
  lemma {:induction false} MultigraphInsertsNothing(ast: FileAst, f: string, g: Witness)
    requires WellFormed(g) && Parallel(g) && ApplyWitness(ast, f, g).Success?
    ensures ApplyWitness(ast, f, g) == Success(ast)
  {
    var meta := ExtractMetadata(g, f).value;
    var cur := Thread(meta[0].data, VInt(0));
    assert forall m :: 0 <= m < |meta| ==> !ActsOn(meta[m], cur);
    SwitchesNone(meta, cur);
    LoopIsApplySwitches(ast.ext, meta, cur, 0);
  }

  /**
   Two transitions, thread 0 and then thread 1 at line 10, over a function
   whose body holds a line-9 statement and the line-10 statement `x`:
   exactly one pair (0, 1) is inserted; `yield` right before `x`, and
   `release` right after a flat `x` or at the head of its body or branches.
   */
  lemma {:induction false} TwoThreadScenario(d: Decl, x: Stmt, c: Coords)
    requires x.line == Some(10) && !x.Compound? && c.startline == 10
    ensures var s9 := Other([], Some(9));
      var meta := [Transition(None, map["threadId" := VInt(0)]), Transition(Some(c), map["threadId" := VInt(1)])];
      var y := Marker("yield", 0, VInt(1));
      var rel := Marker("release", 0, VInt(1));
      Instrument([FuncDef(d, Compound([s9, x], Some(8)))], meta)
        == Success([FuncDef(d, Compound(if Opens(x) then [s9, y, Guard(x, rel)] else [s9, y, x, rel], Some(8)))])
  {
    var s9 := Other([], Some(9));
    var body := Compound([s9, x], Some(8));
    var ext := [FuncDef(d, body)];
    var meta := [Transition(None, map["threadId" := VInt(0)]), Transition(Some(c), map["threadId" := VInt(1)])];
    assert Switches(meta, VInt(0)) == [Switch(10, VInt(1))] by {
      assert meta[1..][1..] == [];
    }
    assert ItemsAsWritten(body, [], 10, 1, None) == Some(Hit([], Index(1)));
    assert KidsAsWritten(s9, [Item(0)], 10, 0, None) == None;
    assert ChildrenAsWritten(s9, [Item(0)], 10, None) == None;
    assert ItemsAsWritten(body, [], 10, 0, None) == Some(Hit([], Index(1)));
    assert VisitAsWritten(body, [], 10, None) == Some(Hit([], Index(1)));
    assert FindFromAsWritten(ext, 10, 1, Some(Loc(0, Hit([], Index(1))))) == Some(Loc(0, Hit([], Index(1))));
    assert FindFirstStatementAsWritten(ext, 10) == Some(Loc(0, Hit([], Index(1))));
    LoopIsApplySwitches(ext, meta, VInt(0), 0);
    var y := Marker("yield", 0, VInt(1));
    var rel := Marker("release", 0, VInt(1));
    var out := if Opens(x) then [s9, y, Guard(x, rel)] else [s9, y, x, rel];
    assert [s9, x][..1] == [s9] && [s9, x][2..] == [];
    if Opens(x) {
      assert [s9] + [y, Guard(x, rel)] + [] == out;
    } else {
      assert [s9] + [y, x, rel] + [] == out;
    }
    assert Place([s9, x], 1, 0, VInt(1)) == Success(out);
    assert At(body, []) == Some(body);
    assert InsertAt(body, Hit([], Index(1)), 0, VInt(1)) == Success(Compound(out, Some(8)));
    var next := [FuncDef(d, Compound(out, Some(8)))];
    assert ext[0].body == body && ext[0].decl == d;
    assert ext[0 := FuncDef(d, Compound(out, Some(8)))] == next;
    assert InsertPair(ext, 10, 0, VInt(1)) == Success(next);
    assert [Switch(10, VInt(1))][1..] == [];
    assert ApplySwitches(ext, [Switch(10, VInt(1))], 0) == Success(next);
    assert Thread(meta[0].data, VInt(0)) == VInt(0);
  }

  /**
   The nested-match input of the search as written: a loop (line 1) whose
   body holds a line-5 statement, then a statement `x` at line 9, and a
   switch to thread 1 at line 3. The pair goes around `x`, not into the
   loop body; when `x` is a block the insertion fails.
   */
  lemma {:induction false} NestedMatchScenario(d: Decl, x: Stmt, c: Coords)
    requires x.line == Some(9) && c.startline == 3
    ensures var w := While(Compound([Other([], Some(5))], Some(2)), Some(1));
      var meta := [Transition(None, map["threadId" := VInt(0)]), Transition(Some(c), map["threadId" := VInt(1)])];
      var y := Marker("yield", 0, VInt(1));
      var rel := Marker("release", 0, VInt(1));
      Instrument([FuncDef(d, Compound([w, x], Some(0)))], meta)
        == if x.Compound? then Failure(Crashed(CompoundTarget))
           else Success([FuncDef(d, Compound(if Opens(x) then [w, y, Guard(x, rel)] else [w, y, x, rel], Some(0)))])
  {
    var inner := Compound([Other([], Some(5))], Some(2));
    var w := While(inner, Some(1));
    var body := Compound([w, x], Some(0));
    var ext := [FuncDef(d, body)];
    var meta := [Transition(None, map["threadId" := VInt(0)]), Transition(Some(c), map["threadId" := VInt(1)])];
    assert Switches(meta, VInt(0)) == [Switch(3, VInt(1))] by {
      assert meta[1..][1..] == [];
    }
    assert Thread(meta[0].data, VInt(0)) == VInt(0);
    InstrumentSingleSwitch(ext, meta, 3, VInt(1));
    NestedMatchFound(d, x);
    assert At(body, []) == Some(body);
    if !x.Compound? {
      var y := Marker("yield", 0, VInt(1));
      var rel := Marker("release", 0, VInt(1));
      var out := if Opens(x) then [w, y, Guard(x, rel)] else [w, y, x, rel];
      assert [w, x][..1] == [w] && [w, x][2..] == [];
      if Opens(x) {
        assert [w] + [y, Guard(x, rel)] + [] == out;
      } else {
        assert [w] + [y, x, rel] + [] == out;
      }
      assert Place([w, x], 1, 0, VInt(1)) == Success(out);
      assert InsertAt(body, Hit([], Index(1)), 0, VInt(1)) == Success(Compound(out, Some(0)));
      var next := [FuncDef(d, Compound(out, Some(0)))];
      assert ext[0 := FuncDef(d, Compound(out, Some(0)))] == next;
      assert InsertPair(ext, 3, 0, VInt(1)) == Success(next);
    } else {
      assert InsertPair(ext, 3, 0, VInt(1)) == Failure(Crashed(CompoundTarget));
    }
  }

  /** The search as written picks `x`, the item after the loop, for line 3. */
  lemma NestedMatchFound(d: Decl, x: Stmt)
    requires x.line == Some(9)
    ensures var w := While(Compound([Other([], Some(5))], Some(2)), Some(1));
      FindFirstStatementAsWritten([FuncDef(d, Compound([w, x], Some(0)))], 3) == Some(Loc(0, Hit([], Index(1))))
  {
    var inner := Compound([Other([], Some(5))], Some(2));
    var w := While(inner, Some(1));
    var body := Compound([w, x], Some(0));
    var ext := [FuncDef(d, body)];
    var lp: Path := [Item(0), Body];
    var found := Some(Hit(lp, Index(0)));
    assert [] + [Item(0)] == [Item(0)] && [Item(0)] + [Body] == lp;
    assert ItemsAsWritten(inner, lp, 3, 0, None) == found;
    assert VisitAsWritten(inner, lp, 3, None) == found;
    assert ChildrenAsWritten(w, [Item(0)], 3, None) == found;
    assert ItemsAsWritten(body, [], 3, 0, None) == Some(Hit([], Index(1)));
    assert VisitAsWritten(body, [], 3, None) == Some(Hit([], Index(1)));
    assert FindFromAsWritten(ext, 3, 1, Some(Loc(0, Hit([], Index(1))))) == Some(Loc(0, Hit([], Index(1))));
  }

  /** With a single switch the instrumentation is one insertion, of pair 0. */
  lemma {:induction false} InstrumentSingleSwitch(ext: seq<External>, meta: seq<Transition>, line: int, t: Value)
    requires meta != [] && Switches(meta, Thread(meta[0].data, VInt(0))) == [Switch(line, t)]
    ensures Instrument(ext, meta) == InsertPair(ext, line, 0, t)
  {
    LoopIsApplySwitches(ext, meta, Thread(meta[0].data, VInt(0)), 0);
    assert [Switch(line, t)][1..] == [];
  }
}

=== FILE: pipeline.dfy ===
/**
 The driver `translate_to_c` (main.py, lines 31-123): apply the witness,
 tidy the program, compile it and run the trials. Parsing, C generation,
 the compiler and the executions are outside the model; their results are
 inputs.
 */
module Validator {
  import opened Wrappers
  import opened Failures
  import opened Ast
  import opened WitnessGraph
  import opened Instrument
  import opened Tweaks
  import opened Trials

  /** What the run prints after "Verdict: ", or that it never finishes. */
  datatype Report = Decided(v: Verdict) | Stopped(reason: string) | Hangs

  /** The tidy-ups of lines 55-57, in order. */
  function Tidy(ext: seq<External>): seq<External> {
    ReachError(FixStructDef(FixInline(ext)))
  }

  /** The report for a failure while the witness is applied (lines 43-52). */
  function FailureReport(err: Failure): (r: Report)
    ensures err.Diverges? <==> r.Hangs?
    ensures err.Crashed? ==> r == Stopped("Incompatible witness")
    ensures err == CorrectnessWitness ==> r == Stopped("Correctness witness")
    ensures err == NoEntryNode ==> r == Stopped("No entry node")
    ensures err == MultipleEntryNodes ==> r == Stopped("Multiple entry nodes")
    ensures err == HasBranching ==> r == Stopped("Has branching")
  {
    if err.Diverges? then Hangs else Stopped(Reason(err))
  }

  /**
   One validation. `compileExit` is the compiler's exit status on the tidied
   program `program`, and `runs` the answers of the up to 100 executions.
   A rejected witness or a failed compilation reports before any trial.
   */
  method Validate(ast: FileAst, f: string, g: Witness, compileExit: int, mode: Mode, runs: seq<Run>)
    returns (r: Report, program: Option<seq<External>>)
    requires WellFormed(g) && |runs| == TrialCount
    ensures var applied := ApplyWitness(ast, f, g);
      && (applied.Failure? ==> r == FailureReport(applied.error) && program == None)
      && (applied.Success? ==> program == Some(Tidy(applied.value.ext)))
      && (applied.Success? && compileExit != 0 ==> r == Stopped("Compilation error"))
      && (applied.Success? && compileExit == 0 ==> r == Decided(VerdictOf(Tally(Recorded(mode, runs)))))
  {
    var applied := ApplyWitness(ast, f, g);
    if applied.Failure? {
      return FailureReport(applied.error), None;
    }
    program := Some(Tidy(applied.value.ext));
    if compileExit != 0 {
      return Stopped("Compilation error"), program;
    }
    var codes := RunTrials(mode, runs);
    r := Decided(VerdictOf(codes));
  }
}

=== FILE: search.dfy ===
/**
 `find_first_statement_on_line` (witness2ast.py, lines 60-91): find a block
 item whose line is at or after a target line, together with the block
 that lists it.

 The Python visitor only looks at the items of a block when it reaches the
 block through `visit`; an item that does not qualify is then walked with
 `generic_visit`, which visits its children but examines none of them
 as block items unless one of them is itself a block. A block without items
 examines itself. The search is modelled twice: as written, where the item
 loop of a block keeps running after a nested match was found, and corrected,
 where the first match ends the search.
 */
module Search {
  import opened Wrappers
  import opened Ast

  /** An item with a source line at or after `t`; items without a line never qualify. */
  predicate LineAtLeast(s: Stmt, t: int) {
    s.line.Some? && s.line.value >= t
  }

  /** Which item of the block at `parent` was found; `Itself` is the empty-block case. */
  datatype Slot = Index(k: nat) | Itself

  /** `parent` is a path from the root of the searched tree. */
  datatype Hit = Hit(parent: Path, slot: Slot)

  /** `h` names a qualifying item inside the tree `s`. */
  predicate Locates(s: Stmt, h: Hit, t: int) {
    var n := At(s, h.parent);
    && n.Some? && n.value.Compound?
    && match h.slot
       case Index(k) => k < |n.value.items| && LineAtLeast(n.value.items[k], t)
       case Itself => n.value.items == [] && LineAtLeast(n.value, t)
  }

  // ---------------------------------------------------------------------
  // Corrected search: the first qualifying item in visiting order.
  // ---------------------------------------------------------------------

  /** `visit(node)` starting from the tree `s` found at path `p` of `root`. */
  function SearchNode(s: Stmt, p: Path, t: int): (r: Option<Hit>)
    decreases s, 4, 0
  {
    if s.Compound? then SearchBlock(s, p, t) else SearchChildren(s, p, t)
  }

  /** `visit_Compound`. */
  function SearchBlock(c: Stmt, p: Path, t: int): (r: Option<Hit>)
    requires c.Compound?
    decreases c, 3, 0
  {
    if |c.items| == 0 then
      if LineAtLeast(c, t) then Some(Hit(p, Itself)) else None
    else SearchItems(c, p, t, 0)
  }

  /** The item loop of `visit_Compound`, from item `k` on. */
  function SearchItems(c: Stmt, p: Path, t: int, k: nat): (r: Option<Hit>)
    requires c.Compound?
    decreases c, 2, |c.items| - k
  {
    if k >= |c.items| then None
    else if LineAtLeast(c.items[k], t) then Some(Hit(p, Index(k)))
    else
      var nested := SearchChildren(c.items[k], p + [Item(k)], t);
      if nested.Some? then nested else SearchItems(c, p, t, k + 1)
  }

  /** `generic_visit`: visit the children in pycparser's order. */
  function SearchChildren(s: Stmt, p: Path, t: int): (r: Option<Hit>)
    decreases s, 1, 0
  {
    match s
    case Compound(_, _) => SearchKids(s, p, t, 0)
    case Other(_, _) => SearchKids(s, p, t, 0)
    case If(tb, eb, _) =>
      var first := SearchNode(tb, p + [Then], t);
      if first.Some? || eb.None? then first else SearchNode(eb.value, p + [Else], t)
    case While(b, _) => SearchNode(b, p + [Body], t)
    case DoWhile(b, _) => SearchNode(b, p + [Body], t)
    case For(b, _) => SearchNode(b, p + [Body], t)
    case FuncCall(_, _, _) => None
  }

  /** `generic_visit` over the listed children of a block or other statement. */
  function SearchKids(s: Stmt, p: Path, t: int, j: nat): (r: Option<Hit>)
    requires s.Compound? || s.Other?
    decreases s, 0, (if s.Compound? then |s.items| else |s.children|) - j
  {
    if s.Compound? then
      if j >= |s.items| then None
      else
        var r := SearchNode(s.items[j], p + [Item(j)], t);
        if r.Some? then r else SearchKids(s, p, t, j + 1)
    else
      if j >= |s.children| then None
      else
        var r := SearchNode(s.children[j], p + [Child(j)], t);
        if r.Some? then r else SearchKids(s, p, t, j + 1)
  }

  // ---------------------------------------------------------------------
  // Reference: every (item, location) the visitor examines, in order.
  // ---------------------------------------------------------------------

  function NodeCandidates(s: Stmt, p: Path): seq<(Stmt, Hit)>
    decreases s, 4, 0
  {
    if s.Compound? then BlockCandidates(s, p) else ChildCandidates(s, p)
  }

  function BlockCandidates(c: Stmt, p: Path): seq<(Stmt, Hit)>
    requires c.Compound?
    decreases c, 3, 0
  {
    if |c.items| == 0 then [(c, Hit(p, Itself))] else ItemCandidates(c, p, 0)
  }

  function ItemCandidates(c: Stmt, p: Path, k: nat): seq<(Stmt, Hit)>
    requires c.Compound?
    decreases c, 2, |c.items| - k
  {
    if k >= |c.items| then []
    else [(c.items[k], Hit(p, Index(k)))] + ChildCandidates(c.items[k], p + [Item(k)])
         + ItemCandidates(c, p, k + 1)
  }

  function ChildCandidates(s: Stmt, p: Path): seq<(Stmt, Hit)>
    decreases s, 1, 0
  {
    match s
    case Compound(_, _) => KidCandidates(s, p, 0)
    case Other(_, _) => KidCandidates(s, p, 0)
    case If(tb, eb, _) =>
      NodeCandidates(tb, p + [Then]) + (if eb.Some? then NodeCandidates(eb.value, p + [Else]) else [])
    case While(b, _) => NodeCandidates(b, p + [Body])
    case DoWhile(b, _) => NodeCandidates(b, p + [Body])
    case For(b, _) => NodeCandidates(b, p + [Body])
    case FuncCall(_, _, _) => []
  }

  function KidCandidates(s: Stmt, p: Path, j: nat): seq<(Stmt, Hit)>
    requires s.Compound? || s.Other?
    decreases s, 0, (if s.Compound? then |s.items| else |s.children|) - j
  {
    if s.Compound? then
      if j >= |s.items| then [] else NodeCandidates(s.items[j], p + [Item(j)]) + KidCandidates(s, p, j + 1)
    else
      if j >= |s.children| then [] else NodeCandidates(s.children[j], p + [Child(j)]) + KidCandidates(s, p, j + 1)
  }

  /** Candidate `i` qualifies and no candidate before it does. */
  predicate FirstAt(cs: seq<(Stmt, Hit)>, t: int, i: int) {
    && 0 <= i < |cs| && LineAtLeast(cs[i].0, t)
    && forall j :: 0 <= j < i ==> !LineAtLeast(cs[j].0, t)
  }

  /** The location of the first candidate whose line is at or after `t`. */
  function FirstMatch(cs: seq<(Stmt, Hit)>, t: int): (r: Option<Hit>)
    ensures r.Some? ==> exists i :: FirstAt(cs, t, i) && cs[i].1 == r.value
    ensures r.None? ==> forall i :: 0 <= i < |cs| ==> !LineAtLeast(cs[i].0, t)
  {
    if cs == [] then None
    else if LineAtLeast(cs[0].0, t) then
      assert FirstAt(cs, t, 0);
      Some(cs[0].1)
    else
      var r := FirstMatch(cs[1..], t);
      assert forall i :: 1 <= i < |cs| ==> cs[i] == cs[1..][i - 1];
      assert r.Some? ==> exists i :: FirstAt(cs, t, i) && cs[i].1 == r.value by {
        if r.Some? {
          var i :| FirstAt(cs[1..], t, i) && cs[1..][i].1 == r.value;
          assert FirstAt(cs, t, i + 1);
        }
      }
      r
  }

  lemma {:induction false} FirstMatchConcat(a: seq<(Stmt, Hit)>, b: seq<(Stmt, Hit)>, t: int)
    ensures FirstMatch(a + b, t) == if FirstMatch(a, t).Some? then FirstMatch(a, t) else FirstMatch(b, t)
  {
    if a == [] {
      assert a + b == b;
    } else {
      assert (a + b)[1..] == a[1..] + b;
      FirstMatchConcat(a[1..], b, t);
    }
  }

  /** The corrected search returns the first examined item whose line is at or after `t`. */
  lemma {:induction false} SearchNodeIsFirstMatch(s: Stmt, p: Path, t: int)
    ensures SearchNode(s, p, t) == FirstMatch(NodeCandidates(s, p), t)
    decreases s, 4, 0
  {
    if s.Compound? {
      SearchBlockIsFirstMatch(s, p, t);
    } else {
      SearchChildrenIsFirstMatch(s, p, t);
    }
  }

  lemma {:induction false} SearchBlockIsFirstMatch(c: Stmt, p: Path, t: int)
    requires c.Compound?
    ensures SearchBlock(c, p, t) == FirstMatch(BlockCandidates(c, p), t)
    decreases c, 3, 0
  {
    if |c.items| == 0 {
      assert FirstMatch([(c, Hit(p, Itself))], t) == if LineAtLeast(c, t) then Some(Hit(p, Itself)) else None by {
        assert [(c, Hit(p, Itself))][1..] == [];
      }
    } else {
      SearchItemsIsFirstMatch(c, p, t, 0);
    }
  }

  lemma {:induction false} SearchItemsIsFirstMatch(c: Stmt, p: Path, t: int, k: nat)
    requires c.Compound?
    ensures SearchItems(c, p, t, k) == FirstMatch(ItemCandidates(c, p, k), t)
    decreases c, 2, |c.items| - k
  {
    if k < |c.items| {
      var head := [(c.items[k], Hit(p, Index(k)))];
      var nested := ChildCandidates(c.items[k], p + [Item(k)]);
      var rest := ItemCandidates(c, p, k + 1);
      assert ItemCandidates(c, p, k) == head + (nested + rest);
      FirstMatchConcat(head, nested + rest, t);
      assert head[1..] == [];
      FirstMatchConcat(nested, rest, t);
      SearchChildrenIsFirstMatch(c.items[k], p + [Item(k)], t);
      SearchItemsIsFirstMatch(c, p, t, k + 1);
    }
  }

  lemma {:induction false} SearchChildrenIsFirstMatch(s: Stmt, p: Path, t: int)
    ensures SearchChildren(s, p, t) == FirstMatch(ChildCandidates(s, p), t)
    decreases s, 1, 0
  {
    match s
    case Compound(_, _) => SearchKidsIsFirstMatch(s, p, t, 0);
    case Other(_, _) => SearchKidsIsFirstMatch(s, p, t, 0);
    case If(tb, eb, _) =>
      SearchNodeIsFirstMatch(tb, p + [Then], t);
      if eb.Some? {
        SearchNodeIsFirstMatch(eb.value, p + [Else], t);
        FirstMatchConcat(NodeCandidates(tb, p + [Then]), NodeCandidates(eb.value, p + [Else]), t);
      } else {
        assert ChildCandidates(s, p) == NodeCandidates(tb, p + [Then]) + [];
        assert NodeCandidates(tb, p + [Then]) + [] == NodeCandidates(tb, p + [Then]);
      }
    case While(b, _) => SearchNodeIsFirstMatch(b, p + [Body], t);
    case DoWhile(b, _) => SearchNodeIsFirstMatch(b, p + [Body], t);
    case For(b, _) => SearchNodeIsFirstMatch(b, p + [Body], t);
    case FuncCall(_, _, _) =>
  }

  lemma {:induction false} SearchKidsIsFirstMatch(s: Stmt, p: Path, t: int, j: nat)
    requires s.Compound? || s.Other?
    ensures SearchKids(s, p, t, j) == FirstMatch(KidCandidates(s, p, j), t)
    decreases s, 0, (if s.Compound? then |s.items| else |s.children|) - j
  {
    if s.Compound? {
      if j < |s.items| {
        SearchNodeIsFirstMatch(s.items[j], p + [Item(j)], t);
        SearchKidsIsFirstMatch(s, p, t, j + 1);
        FirstMatchConcat(NodeCandidates(s.items[j], p + [Item(j)]), KidCandidates(s, p, j + 1), t);
      }
    } else {
      if j < |s.children| {
        SearchNodeIsFirstMatch(s.children[j], p + [Child(j)], t);
        SearchKidsIsFirstMatch(s, p, t, j + 1);
        FirstMatchConcat(NodeCandidates(s.children[j], p + [Child(j)]), KidCandidates(s, p, j + 1), t);
      }
    }
  }

  // ---------------------------------------------------------------------
  // Every candidate is an item of the block its location names.
  // ---------------------------------------------------------------------

  predicate CandidateAt(root: Stmt, c: (Stmt, Hit)) {
    var n := At(root, c.1.parent);
    && n.Some? && n.value.Compound?
    && match c.1.slot
       case Index(k) => k < |n.value.items| && n.value.items[k] == c.0
       case Itself => n.value.items == [] && n.value == c.0
  }

  predicate AllAt(root: Stmt, cs: seq<(Stmt, Hit)>) {
    forall i :: 0 <= i < |cs| ==> CandidateAt(root, cs[i])
  }

  lemma AllAtConcat(root: Stmt, a: seq<(Stmt, Hit)>, b: seq<(Stmt, Hit)>)
    requires AllAt(root, a) && AllAt(root, b)
    ensures AllAt(root, a + b)
  {
    forall i | 0 <= i < |a + b|
      ensures CandidateAt(root, (a + b)[i])
    {
      if i >= |a| {
        assert (a + b)[i] == b[i - |a|];
      }
    }
  }

  /** One step below the statement at `p`. */
  lemma StepAt(root: Stmt, p: Path, step: Step)
    requires At(root, p).Some?
    ensures At(root, p + [step]) == At(At(root, p).value, [step])
  {
    AtAppend(root, p, [step]);
  }

  lemma {:induction false} NodeCandidatesAt(root: Stmt, s: Stmt, p: Path)
    requires At(root, p) == Some(s)
    ensures AllAt(root, NodeCandidates(s, p))
    decreases s, 4, 0
  {
    if s.Compound? {
      BlockCandidatesAt(root, s, p);
    } else {
      ChildCandidatesAt(root, s, p);
    }
  }

  lemma {:induction false} BlockCandidatesAt(root: Stmt, c: Stmt, p: Path)
    requires c.Compound?
    requires At(root, p) == Some(c)
    ensures AllAt(root, BlockCandidates(c, p))
    decreases c, 3, 0
  {
    if |c.items| != 0 {
      ItemCandidatesAt(root, c, p, 0);
    }
  }

  lemma {:induction false} ItemCandidatesAt(root: Stmt, c: Stmt, p: Path, k: nat)
    requires c.Compound?
    requires At(root, p) == Some(c)
    ensures AllAt(root, ItemCandidates(c, p, k))
    decreases c, 2, |c.items| - k
  {
    if k < |c.items| {
      StepAt(root, p, Item(k));
      assert At(c, [Item(k)]) == At(c.items[k], []);
      ChildCandidatesAt(root, c.items[k], p + [Item(k)]);
      ItemCandidatesAt(root, c, p, k + 1);
      var head := [(c.items[k], Hit(p, Index(k)))];
      assert AllAt(root, head);
      AllAtConcat(root, ChildCandidates(c.items[k], p + [Item(k)]), ItemCandidates(c, p, k + 1));
      AllAtConcat(root, head, ChildCandidates(c.items[k], p + [Item(k)]) + ItemCandidates(c, p, k + 1));
      assert ItemCandidates(c, p, k)
        == head + (ChildCandidates(c.items[k], p + [Item(k)]) + ItemCandidates(c, p, k + 1));
    }
  }

  lemma {:induction false} ChildCandidatesAt(root: Stmt, s: Stmt, p: Path)
    requires At(root, p) == Some(s)
    ensures AllAt(root, ChildCandidates(s, p))
    decreases s, 1, 0
  {
    match s
    case Compound(_, _) => KidCandidatesAt(root, s, p, 0);
    case Other(_, _) => KidCandidatesAt(root, s, p, 0);
    case If(tb, eb, _) =>
      StepAt(root, p, Then);
      assert At(s, [Then]) == At(tb, []);
      NodeCandidatesAt(root, tb, p + [Then]);
      if eb.Some? {
        StepAt(root, p, Else);
        assert At(s, [Else]) == At(eb.value, []);
        NodeCandidatesAt(root, eb.value, p + [Else]);
        AllAtConcat(root, NodeCandidates(tb, p + [Then]), NodeCandidates(eb.value, p + [Else]));
      } else {
        assert ChildCandidates(s, p) == NodeCandidates(tb, p + [Then]) + [];
        assert NodeCandidates(tb, p + [Then]) + [] == NodeCandidates(tb, p + [Then]);
      }
    case While(b, _) =>
      StepAt(root, p, Body);
      assert At(s, [Body]) == At(b, []);
      NodeCandidatesAt(root, b, p + [Body]);
    case DoWhile(b, _) =>
      StepAt(root, p, Body);
      assert At(s, [Body]) == At(b, []);
      NodeCandidatesAt(root, b, p + [Body]);
    case For(b, _) =>
      StepAt(root, p, Body);
      assert At(s, [Body]) == At(b, []);
      NodeCandidatesAt(root, b, p + [Body]);
    case FuncCall(_, _, _) =>
  }

  lemma {:induction false} KidCandidatesAt(root: Stmt, s: Stmt, p: Path, j: nat)
    requires s.Compound? || s.Other?
    requires At(root, p) == Some(s)
    ensures AllAt(root, KidCandidates(s, p, j))
    decreases s, 0, (if s.Compound? then |s.items| else |s.children|) - j
  {
    if s.Compound? {
      if j < |s.items| {
        StepAt(root, p, Item(j));
        assert At(s, [Item(j)]) == At(s.items[j], []);
        NodeCandidatesAt(root, s.items[j], p + [Item(j)]);
        KidCandidatesAt(root, s, p, j + 1);
        AllAtConcat(root, NodeCandidates(s.items[j], p + [Item(j)]), KidCandidates(s, p, j + 1));
      }
    } else {
      if j < |s.children| {
        StepAt(root, p, Child(j));
        assert At(s, [Child(j)]) == At(s.children[j], []);
        NodeCandidatesAt(root, s.children[j], p + [Child(j)]);
        KidCandidatesAt(root, s, p, j + 1);
        AllAtConcat(root, NodeCandidates(s.children[j], p + [Child(j)]), KidCandidates(s, p, j + 1));
      }
    }
  }

  /**
   The corrected search over one function body: a hit names a block of the
   body and an item of it whose line is at or after `t` (or the empty block
   itself), and every item the visitor examines before it fails to qualify.
   No hit means no examined item qualifies.
   */
  function FindInBody(body: Stmt, t: int): (r: Option<Hit>)
    ensures r.Some? ==> Locates(body, r.value, t)
    ensures r == FirstMatch(NodeCandidates(body, []), t)
    ensures r.None? <==> forall i :: 0 <= i < |NodeCandidates(body, [])| ==> !LineAtLeast(NodeCandidates(body, [])[i].0, t)
  {
    SearchNodeIsFirstMatch(body, [], t);
    NodeCandidatesAt(body, body, []);
    SearchNode(body, [], t)
  }

  // ---------------------------------------------------------------------
  // The search as written: after a nested block reported a match, the item
  // loop of every enclosing block keeps running, and a later item whose
  // line is at or after the target overwrites the match.
  // ---------------------------------------------------------------------

  /** `visit(node)` with the visitor's state `st` (`Some` once `found` is set). */
  function VisitAsWritten(s: Stmt, p: Path, t: int, st: Option<Hit>): Option<Hit>
    decreases s, 4, 0
  {
    if st.Some? then st
    else if s.Compound? then BlockAsWritten(s, p, t, st)
    else ChildrenAsWritten(s, p, t, st)
  }

  function BlockAsWritten(c: Stmt, p: Path, t: int, st: Option<Hit>): Option<Hit>
    requires c.Compound?
    decreases c, 3, 0
  {
    if st.Some? then st
    else if |c.items| == 0 then
      if LineAtLeast(c, t) then Some(Hit(p, Itself)) else st
    else ItemsAsWritten(c, p, t, 0, st)
  }

  /** The item loop: it checks each item's line whatever the state. */
  function ItemsAsWritten(c: Stmt, p: Path, t: int, k: nat, st: Option<Hit>): Option<Hit>
    requires c.Compound?
    decreases c, 2, |c.items| - k
  {
    if k >= |c.items| then st
    else if LineAtLeast(c.items[k], t) then Some(Hit(p, Index(k)))
    else ItemsAsWritten(c, p, t, k + 1, ChildrenAsWritten(c.items[k], p + [Item(k)], t, st))
  }

  function ChildrenAsWritten(s: Stmt, p: Path, t: int, st: Option<Hit>): Option<Hit>
    decreases s, 1, 0
  {
    match s
    case Compound(_, _) => KidsAsWritten(s, p, t, 0, st)
    case Other(_, _) => KidsAsWritten(s, p, t, 0, st)
    case If(tb, eb, _) =>
      var st1 := VisitAsWritten(tb, p + [Then], t, st);
      if eb.Some? then VisitAsWritten(eb.value, p + [Else], t, st1) else st1
    case While(b, _) => VisitAsWritten(b, p + [Body], t, st)
    case DoWhile(b, _) => VisitAsWritten(b, p + [Body], t, st)
    case For(b, _) => VisitAsWritten(b, p + [Body], t, st)
    case FuncCall(_, _, _) => st
  }

  function KidsAsWritten(s: Stmt, p: Path, t: int, j: nat, st: Option<Hit>): Option<Hit>
    requires s.Compound? || s.Other?
    decreases s, 0, (if s.Compound? then |s.items| else |s.children|) - j
  {
    if s.Compound? then
      if j >= |s.items| then st
      else KidsAsWritten(s, p, t, j + 1, VisitAsWritten(s.items[j], p + [Item(j)], t, st))
    else
      if j >= |s.children| then st
      else KidsAsWritten(s, p, t, j + 1, VisitAsWritten(s.children[j], p + [Child(j)], t, st))
  }

  /**
   A loop body holds the first item at or after line 3, but the statement
   after the loop (line 9) overwrites it: the code as written reports the
   later statement, the corrected search the one inside the loop.
   */
  lemma AsWrittenOverwritesNestedMatch()
    ensures
      var inner := Compound([Other([], Some(5))], Some(2));
      var body := Compound([While(inner, Some(1)), Other([], Some(9))], Some(0));
      && VisitAsWritten(body, [], 3, None) == Some(Hit([], Index(1)))
      && FindInBody(body, 3) == Some(Hit([Item(0), Body], Index(0)))
  {
    var inner := Compound([Other([], Some(5))], Some(2));
    var body := Compound([While(inner, Some(1)), Other([], Some(9))], Some(0));
    var lp: Path := [Item(0), Body];
    var found := Some(Hit(lp, Index(0)));
    assert [] + [Item(0)] == [Item(0)] && [Item(0)] + [Body] == lp;
    assert ItemsAsWritten(inner, lp, 3, 0, None) == found;
    assert BlockAsWritten(inner, lp, 3, None) == found;
    assert VisitAsWritten(inner, lp, 3, None) == found;
    assert ChildrenAsWritten(While(inner, Some(1)), [Item(0)], 3, None) == found;
    assert ItemsAsWritten(body, [], 3, 1, found) == Some(Hit([], Index(1)));
    assert ItemsAsWritten(body, [], 3, 0, None) == Some(Hit([], Index(1)));
    assert SearchItems(inner, lp, 3, 0) == found;
    assert SearchNode(inner, lp, 3) == found;
    assert SearchChildren(While(inner, Some(1)), [Item(0)], 3) == found;
    assert SearchItems(body, [], 3, 0) == found;
  }

  lemma {:induction false} VisitAsWrittenSticky(s: Stmt, p: Path, t: int, h: Hit)
    ensures VisitAsWritten(s, p, t, Some(h)) == Some(h)
  {
  }

  lemma {:induction false} ChildrenAsWrittenSticky(s: Stmt, p: Path, t: int, h: Hit)
    ensures ChildrenAsWritten(s, p, t, Some(h)) == Some(h)
  {
    match s
    case Compound(_, _) => KidsAsWrittenSticky(s, p, t, 0, h);
    case Other(_, _) => KidsAsWrittenSticky(s, p, t, 0, h);
    case If(_, _, _) =>
    case While(_, _) =>
    case DoWhile(_, _) =>
    case For(_, _) =>
    case FuncCall(_, _, _) =>
  }

  lemma {:induction false} KidsAsWrittenSticky(s: Stmt, p: Path, t: int, j: nat, h: Hit)
    requires s.Compound? || s.Other?
    ensures KidsAsWritten(s, p, t, j, Some(h)) == Some(h)
    decreases (if s.Compound? then |s.items| else |s.children|) - j
  {
    if (s.Compound? && j < |s.items|) || (s.Other? && j < |s.children|) {
      KidsAsWrittenSticky(s, p, t, j + 1, h);
    }
  }

  lemma {:induction false} ItemsAsWrittenStaysFound(c: Stmt, p: Path, t: int, k: nat, h: Hit)
    requires c.Compound?
    ensures ItemsAsWritten(c, p, t, k, Some(h)).Some?
    decreases |c.items| - k
  {
    if k < |c.items| && !LineAtLeast(c.items[k], t) {
      ChildrenAsWrittenSticky(c.items[k], p + [Item(k)], t, h);
      ItemsAsWrittenStaysFound(c, p, t, k + 1, h);
    }
  }

  /** The overwrite changes which item is reported, never whether one is found. */
  lemma {:induction false} AsWrittenFindsIffCorrected(s: Stmt, p: Path, t: int)
    ensures VisitAsWritten(s, p, t, None).Some? == SearchNode(s, p, t).Some?
    decreases s, 4, 0
  {
    if s.Compound? {
      if |s.items| != 0 {
        ItemsAgree(s, p, t, 0);
      }
    } else {
      ChildrenAgree(s, p, t);
    }
  }

  lemma {:induction false} ItemsAgree(c: Stmt, p: Path, t: int, k: nat)
    requires c.Compound?
    ensures ItemsAsWritten(c, p, t, k, None).Some? == SearchItems(c, p, t, k).Some?
    decreases c, 2, |c.items| - k
  {
    if k < |c.items| && !LineAtLeast(c.items[k], t) {
      ChildrenAgree(c.items[k], p + [Item(k)], t);
      var st := ChildrenAsWritten(c.items[k], p + [Item(k)], t, None);
      if st.Some? {
        ItemsAsWrittenStaysFound(c, p, t, k + 1, st.value);
      } else {
        ItemsAgree(c, p, t, k + 1);
      }
    }
  }

  lemma {:induction false} ChildrenAgree(s: Stmt, p: Path, t: int)
    ensures ChildrenAsWritten(s, p, t, None).Some? == SearchChildren(s, p, t).Some?
    decreases s, 1, 0
  {
    match s
    case Compound(_, _) => KidsAgree(s, p, t, 0);
    case Other(_, _) => KidsAgree(s, p, t, 0);
    case If(tb, eb, _) =>
      AsWrittenFindsIffCorrected(tb, p + [Then], t);
      var st1 := VisitAsWritten(tb, p + [Then], t, None);
      if eb.Some? {
        if st1.Some? {
          VisitAsWrittenSticky(eb.value, p + [Else], t, st1.value);
        } else {
          AsWrittenFindsIffCorrected(eb.value, p + [Else], t);
        }
      }
    case While(b, _) => AsWrittenFindsIffCorrected(b, p + [Body], t);
    case DoWhile(b, _) => AsWrittenFindsIffCorrected(b, p + [Body], t);
    case For(b, _) => AsWrittenFindsIffCorrected(b, p + [Body], t);
    case FuncCall(_, _, _) =>
  }

  lemma {:induction false} KidsAgree(s: Stmt, p: Path, t: int, j: nat)
    requires s.Compound? || s.Other?
    ensures KidsAsWritten(s, p, t, j, None).Some? == SearchKids(s, p, t, j).Some?
    decreases s, 0, (if s.Compound? then |s.items| else |s.children|) - j
  {
    if s.Compound? && j < |s.items| {
      AsWrittenFindsIffCorrected(s.items[j], p + [Item(j)], t);
      var st := VisitAsWritten(s.items[j], p + [Item(j)], t, None);
      if st.Some? {
        KidsAsWrittenSticky(s, p, t, j + 1, st.value);
      } else {
        KidsAgree(s, p, t, j + 1);
      }
    } else if s.Other? && j < |s.children| {
      AsWrittenFindsIffCorrected(s.children[j], p + [Child(j)], t);
      var st := VisitAsWritten(s.children[j], p + [Child(j)], t, None);
      if st.Some? {
        KidsAsWrittenSticky(s, p, t, j + 1, st.value);
      } else {
        KidsAgree(s, p, t, j + 1);
      }
    }
  }

  // ---------------------------------------------------------------------
  // The search over the whole translation unit.
  // ---------------------------------------------------------------------

  /** A hit inside the body of the function definition at index `fn`. */
  datatype Loc = Loc(fn: nat, hit: Hit)

  /**
   `find_first_statement_on_line(ast, t)`, corrected: function bodies are
   searched in order and the first one with a hit decides. The result
   names a qualifying item of a function body; every earlier function body
   has none; `None` means no function body has one.
   */
  function FindFirstStatement(ext: seq<External>, t: int): (r: Option<Loc>)
    ensures r.Some? ==>
      && r.value.fn < |ext| && ext[r.value.fn].FuncDef?
      && Locates(ext[r.value.fn].body, r.value.hit, t)
      && FindInBody(ext[r.value.fn].body, t) == Some(r.value.hit)
      && forall j :: 0 <= j < r.value.fn && ext[j].FuncDef? ==> FindInBody(ext[j].body, t).None?
    ensures r.None? ==> forall j :: 0 <= j < |ext| && ext[j].FuncDef? ==> FindInBody(ext[j].body, t).None?
  {
    FindFrom(ext, t, 0)
  }

  function FindFrom(ext: seq<External>, t: int, fn: nat): (r: Option<Loc>)
    requires fn <= |ext|
    requires forall j :: 0 <= j < fn && ext[j].FuncDef? ==> FindInBody(ext[j].body, t).None?
    ensures r.Some? ==>
      && fn <= r.value.fn < |ext| && ext[r.value.fn].FuncDef?
      && Locates(ext[r.value.fn].body, r.value.hit, t)
      && FindInBody(ext[r.value.fn].body, t) == Some(r.value.hit)
      && forall j :: 0 <= j < r.value.fn && ext[j].FuncDef? ==> FindInBody(ext[j].body, t).None?
    ensures r.None? ==> forall j :: 0 <= j < |ext| && ext[j].FuncDef? ==> FindInBody(ext[j].body, t).None?
    decreases |ext| - fn
  {
    if fn == |ext| then None
    else if ext[fn].FuncDef? && FindInBody(ext[fn].body, t).Some? then
      Some(Loc(fn, FindInBody(ext[fn].body, t).value))
    else FindFrom(ext, t, fn + 1)
  }

  /**
   The search as written over the translation unit from function `fn` on,
   with the visitor's state `st`: once a function body reported a hit,
   `visit` returns at once for everything after it.
   */
  function FindFromAsWritten(ext: seq<External>, t: int, fn: nat, st: Option<Loc>): (r: Option<Loc>)
    requires fn <= |ext|
    ensures st.Some? ==> r == st
    ensures st.None? && r.Some? ==>
      && fn <= r.value.fn < |ext| && ext[r.value.fn].FuncDef?
      && Locates(ext[r.value.fn].body, r.value.hit, t)
      && FindInBody(ext[r.value.fn].body, t).Some?
      && forall j :: fn <= j < r.value.fn && ext[j].FuncDef? ==> FindInBody(ext[j].body, t).None?
    decreases |ext| - fn
  {
    if fn == |ext| || st.Some? then st
    else if ext[fn].FuncDef? then
      var h := VisitAsWritten(ext[fn].body, [], t, None);
      VisitAsWrittenLocates(ext[fn].body, ext[fn].body, [], t, None);
      AsWrittenFindsIffCorrected(ext[fn].body, [], t);
      FindFromAsWritten(ext, t, fn + 1, if h.Some? then Some(Loc(fn, h.value)) else None)
    else FindFromAsWritten(ext, t, fn + 1, st)
  }

  /** From function `fn` on, the search as written misses exactly when no body has a qualifying item. */
  lemma {:induction false} FromAsWrittenMisses(ext: seq<External>, t: int, fn: nat)
    requires fn <= |ext|
    ensures FindFromAsWritten(ext, t, fn, None).None?
      <==> forall j :: fn <= j < |ext| && ext[j].FuncDef? ==> FindInBody(ext[j].body, t).None?
    decreases |ext| - fn
  {
    if fn < |ext| {
      if ext[fn].FuncDef? {
        AsWrittenFindsIffCorrected(ext[fn].body, [], t);
        if VisitAsWritten(ext[fn].body, [], t, None).None? {
          FromAsWrittenMisses(ext, t, fn + 1);
        }
      } else {
        FromAsWrittenMisses(ext, t, fn + 1);
      }
    }
  }

  /**
   `find_first_statement_on_line(ast, t)` as the program runs it. Its hit
   names a qualifying item (or empty block) of a function body; it finds
   one exactly when the corrected search does, and in the same function,
   the first whose body has a qualifying item. Inside that body it may
   name a later item than the corrected search (see `AsWrittenMisses`).
   */
  function FindFirstStatementAsWritten(ext: seq<External>, t: int): (r: Option<Loc>)
    ensures r.Some? ==>
      && r.value.fn < |ext| && ext[r.value.fn].FuncDef?
      && Locates(ext[r.value.fn].body, r.value.hit, t)
      && forall j :: 0 <= j < r.value.fn && ext[j].FuncDef? ==> FindInBody(ext[j].body, t).None?
  {
    FindFromAsWritten(ext, t, 0, None)
  }

  /**
   The search as written misses exactly when no function body has a
   qualifying item, which is exactly when the corrected search misses; when
   both find, they find in the same function.
   */
  lemma AsWrittenMisses(ext: seq<External>, t: int)
    ensures var r := FindFirstStatementAsWritten(ext, t);
      && (r.None? <==> forall j :: 0 <= j < |ext| && ext[j].FuncDef? ==> FindInBody(ext[j].body, t).None?)
      && (r.None? <==> FindFirstStatement(ext, t).None?)
      && (r.Some? ==> r.value.fn == FindFirstStatement(ext, t).value.fn)
  {
    FromAsWrittenMisses(ext, t, 0);
  }

  // ---------------------------------------------------------------------
  // Every hit of the search as written is a qualifying item.
  // ---------------------------------------------------------------------

  lemma {:induction false} VisitAsWrittenLocates(root: Stmt, s: Stmt, p: Path, t: int, st: Option<Hit>)
    requires At(root, p) == Some(s)
    requires st.Some? ==> Locates(root, st.value, t)
    ensures VisitAsWritten(s, p, t, st).Some? ==> Locates(root, VisitAsWritten(s, p, t, st).value, t)
    decreases s, 4, 0
  {
    if st.None? {
      if s.Compound? {
        BlockAsWrittenLocates(root, s, p, t, st);
      } else {
        ChildrenAsWrittenLocates(root, s, p, t, st);
      }
    }
  }

  lemma {:induction false} BlockAsWrittenLocates(root: Stmt, c: Stmt, p: Path, t: int, st: Option<Hit>)
    requires c.Compound? && At(root, p) == Some(c)
    requires st.Some? ==> Locates(root, st.value, t)
    ensures BlockAsWritten(c, p, t, st).Some? ==> Locates(root, BlockAsWritten(c, p, t, st).value, t)
    decreases c, 3, 0
  {
    if st.None? && |c.items| != 0 {
      ItemsAsWrittenLocates(root, c, p, t, 0, st);
    }
  }

  lemma {:induction false} ItemsAsWrittenLocates(root: Stmt, c: Stmt, p: Path, t: int, k: nat, st: Option<Hit>)
    requires c.Compound? && At(root, p) == Some(c)
    requires st.Some? ==> Locates(root, st.value, t)
    ensures ItemsAsWritten(c, p, t, k, st).Some? ==> Locates(root, ItemsAsWritten(c, p, t, k, st).value, t)
    decreases c, 2, |c.items| - k
  {
    if k < |c.items| && !LineAtLeast(c.items[k], t) {
      StepAt(root, p, Item(k));
      assert At(c, [Item(k)]) == At(c.items[k], []);
      ChildrenAsWrittenLocates(root, c.items[k], p + [Item(k)], t, st);
      ItemsAsWrittenLocates(root, c, p, t, k + 1, ChildrenAsWritten(c.items[k], p + [Item(k)], t, st));
    }
  }

  lemma {:induction false} ChildrenAsWrittenLocates(root: Stmt, s: Stmt, p: Path, t: int, st: Option<Hit>)
    requires At(root, p) == Some(s)
    requires st.Some? ==> Locates(root, st.value, t)
    ensures ChildrenAsWritten(s, p, t, st).Some? ==> Locates(root, ChildrenAsWritten(s, p, t, st).value, t)
    decreases s, 1, 0
  {
    match s
    case Compound(_, _) => KidsAsWrittenLocates(root, s, p, t, 0, st);
    case Other(_, _) => KidsAsWrittenLocates(root, s, p, t, 0, st);
    case If(tb, eb, _) =>
      StepAt(root, p, Then);
      assert At(s, [Then]) == At(tb, []);
      VisitAsWrittenLocates(root, tb, p + [Then], t, st);
      if eb.Some? {
        StepAt(root, p, Else);
        assert At(s, [Else]) == At(eb.value, []);
        VisitAsWrittenLocates(root, eb.value, p + [Else], t, VisitAsWritten(tb, p + [Then], t, st));
      }
    case While(b, _) =>
      StepAt(root, p, Body);
      assert At(s, [Body]) == At(b, []);
      VisitAsWrittenLocates(root, b, p + [Body], t, st);
    case DoWhile(b, _) =>
      StepAt(root, p, Body);
      assert At(s, [Body]) == At(b, []);
      VisitAsWrittenLocates(root, b, p + [Body], t, st);
    case For(b, _) =>
      StepAt(root, p, Body);
      assert At(s, [Body]) == At(b, []);
      VisitAsWrittenLocates(root, b, p + [Body], t, st);
    case FuncCall(_, _, _) =>
  }

  lemma {:induction false} KidsAsWrittenLocates(root: Stmt, s: Stmt, p: Path, t: int, j: nat, st: Option<Hit>)
    requires (s.Compound? || s.Other?) && At(root, p) == Some(s)
    requires st.Some? ==> Locates(root, st.value, t)
    ensures KidsAsWritten(s, p, t, j, st).Some? ==> Locates(root, KidsAsWritten(s, p, t, j, st).value, t)
    decreases s, 0, (if s.Compound? then |s.items| else |s.children|) - j
  {
    if s.Compound? {
      if j < |s.items| {
        StepAt(root, p, Item(j));
        assert At(s, [Item(j)]) == At(s.items[j], []);
        VisitAsWrittenLocates(root, s.items[j], p + [Item(j)], t, st);
        KidsAsWrittenLocates(root, s, p, t, j + 1, VisitAsWritten(s.items[j], p + [Item(j)], t, st));
      }
    } else {
      if j < |s.children| {
        StepAt(root, p, Child(j));
        assert At(s, [Child(j)]) == At(s.children[j], []);
        VisitAsWrittenLocates(root, s.children[j], p + [Child(j)], t, st);
        KidsAsWrittenLocates(root, s, p, t, j + 1, VisitAsWritten(s.children[j], p + [Child(j)], t, st));
      }
    }
  }
}

=== FILE: source_text.dfy ===
/**
 Source-position arithmetic of the witness reader (witness2ast.py, lines 23-57).

 The C file is a string; an offset is an index into it (one character per
 byte). Lines are numbered from 1 and end just after their '\n', so the last
 line may lack one.
 */
module SourceText {
  import opened Wrappers
  import opened Failures

  /** `m` occurs in `s` starting at index `j`. */
  predicate OccursAt(s: string, m: string, j: int) {
    0 <= j && j + |m| <= |s| && s[j..j + |m|] == m
  }

  /** Substring test, Python's `m in s`. */
  predicate Contains(s: string, m: string) {
    exists j :: 0 <= j <= |s| && OccursAt(s, m, j)
  }

  /** Number of newline characters in f[a..b]. */
  function Newlines(f: string, a: nat, b: nat): nat
    requires a <= b <= |f|
    decreases b
  {
    if a == b then 0 else Newlines(f, a, b - 1) + (if f[b - 1] == '\n' then 1 else 0)
  }

  predicate NoNewlineIn(f: string, a: int, b: int)
    requires 0 <= a && b <= |f|
  {
    forall j :: a <= j < b ==> f[j] != '\n'
  }

  lemma {:induction false} NewlinesSplit(f: string, a: nat, b: nat, c: nat)
    requires a <= b <= c <= |f|
    ensures Newlines(f, a, c) == Newlines(f, a, b) + Newlines(f, b, c)
    decreases c
  {
    if c > b {
      NewlinesSplit(f, a, b, c - 1);
    }
  }

  lemma {:induction false} NoNewlinesCountZero(f: string, a: nat, b: nat)
    requires a <= b <= |f|
    ensures NoNewlineIn(f, a, b) <==> Newlines(f, a, b) == 0
    decreases b
  {
    if a < b {
      NoNewlinesCountZero(f, a, b - 1);
    }
  }

  /**
   The offset just after one `readline()` that starts at `pos`: past the
   next '\n', or the end of the file if there is none.
   */
  function ReadLine(f: string, pos: nat): (e: nat)
    requires pos <= |f|
    ensures pos <= e <= |f|
    ensures pos < |f| ==> pos < e
    decreases |f| - pos
  {
    if pos == |f| then pos
    else if f[pos] == '\n' then pos + 1
    else ReadLine(f, pos + 1)
  }

  /**
   What one readline() consumes: no newline before its last character,
   which is a newline unless the file ended first.
   */
  lemma {:induction false} ReadLineSpec(f: string, pos: nat)
    requires pos <= |f|
    ensures var e := ReadLine(f, pos);
      && NoNewlineIn(f, pos, e - 1)
      && (e > pos ==> e == |f| || f[e - 1] == '\n')
      && (e == |f| && e > pos && f[e - 1] != '\n' ==> NoNewlineIn(f, pos, e))
    decreases |f| - pos
  {
    if pos < |f| && f[pos] != '\n' {
      ReadLineSpec(f, pos + 1);
    }
  }

  /** The file position after `k` successive `readline()` calls from the start. */
  function Advance(f: string, k: nat): (p: nat)
    ensures p <= |f|
  {
    if k == 0 then 0 else ReadLine(f, Advance(f, k - 1))
  }

  /** `get_offset_of_line`: `line - 1` readline() calls, none when `line <= 1`. */
  function OffsetOfLine(f: string, line: int): (p: nat)
    ensures p <= |f|
  {
    Advance(f, if line <= 1 then 0 else line - 1)
  }

  /**
   After k readline() calls the position is just past the k-th newline, or
   the end of the file once there are fewer than k newlines.
   */
  lemma {:induction false} AdvanceSpec(f: string, k: nat)
    ensures k <= Newlines(f, 0, |f|) ==> Newlines(f, 0, Advance(f, k)) == k
    ensures 0 < k <= Newlines(f, 0, |f|) ==> 0 < Advance(f, k) && f[Advance(f, k) - 1] == '\n'
    ensures k > Newlines(f, 0, |f|) ==> Advance(f, k) == |f|
  {
    if k > 0 {
      AdvanceSpec(f, k - 1);
      var q := Advance(f, k - 1);
      var e := ReadLine(f, q);
      ReadLineSpec(f, q);
      assert Advance(f, k) == e;
      if q == |f| {
      } else {
        NewlinesSplit(f, 0, q, |f|);
        NewlinesSplit(f, 0, q, e);
        NewlinesSplit(f, q, e, |f|);
        if e > q && f[e - 1] == '\n' {
          NoNewlinesCountZero(f, q, e - 1);
          assert Newlines(f, q, e) == 1;
        } else {
          assert e == |f| && NoNewlineIn(f, q, e);
          NoNewlinesCountZero(f, q, e);
        }
      }
    }
  }

  /**
   `get_offset_of_line(n)`: the summed length of lines 1..n-1 with their
   newlines, i.e. the offset just past the (n-1)-th newline; past the last
   line it is the length of the file.
   */
  lemma OffsetOfLineSpec(f: string, n: int)
    ensures n <= 1 ==> OffsetOfLine(f, n) == 0
    ensures 1 < n && n - 1 <= Newlines(f, 0, |f|) ==>
      var p := OffsetOfLine(f, n);
      0 < p && f[p - 1] == '\n' && Newlines(f, 0, p) == n - 1
    ensures n - 1 > Newlines(f, 0, |f|) ==> OffsetOfLine(f, n) == |f|
  {
    if n > 1 {
      AdvanceSpec(f, n - 1);
    }
  }

  lemma {:induction false} AdvanceMonotone(f: string, a: nat, b: nat)
    requires a <= b
    ensures Advance(f, a) <= Advance(f, b)
    ensures a < b && Advance(f, a) < |f| ==> Advance(f, a) < Advance(f, b)
    decreases b
  {
    if a < b {
      AdvanceMonotone(f, a, b - 1);
    }
  }

  /** The loop of `get_line_of_offset`: `i` lines read, `pos` is `f.tell()`. */
  function LineOfOffsetLoop(f: string, offset: int, i: nat, pos: nat, lineLen: int): (r: (int, int))
    requires offset < |f|
    requires pos == Advance(f, i)
    requires i == 0 ==> lineLen == 0
    requires i >= 1 ==> Advance(f, i - 1) <= offset && lineLen == pos - Advance(f, i - 1)
    ensures offset < 0 && i == 0 ==> r == (0, offset)
    ensures offset >= 0 ==>
      && r.0 >= 1
      && Advance(f, r.0 - 1) <= offset < Advance(f, r.0)
      && r.1 == offset - Advance(f, r.0 - 1)
    decreases |f| - pos
  {
    if pos <= offset then
      var e := ReadLine(f, pos);
      assert e == Advance(f, i + 1);
      LineOfOffsetLoop(f, offset, i + 1, e, e - pos)
    else
      assert offset >= 0 ==> i >= 1;
      (i, lineLen - (pos - offset))
  }

  /**
   `get_line_of_offset`: the 1-based line holding `offset` and the 0-based
   column inside it. The source loops forever when `offset >= |f|`, hence
   the precondition; a negative offset stops at once with line 0.
   */
  function LineOfOffset(f: string, offset: int): (r: (int, int))
    requires offset < |f|
    ensures offset < 0 ==> r == (0, offset)
    ensures offset >= 0 ==>
      && r.0 >= 1
      && OffsetOfLine(f, r.0) <= offset < OffsetOfLine(f, r.0 + 1)
      && r.1 == offset - OffsetOfLine(f, r.0)
  {
    LineOfOffsetLoop(f, offset, 0, 0, 0)
  }

  /** Round trip: the start of every non-empty line maps back to (line, 0). */
  lemma LineOfOffsetRoundTrip(f: string, n: int)
    requires n >= 1
    requires OffsetOfLine(f, n) < |f|
    ensures LineOfOffset(f, OffsetOfLine(f, n)) == (n, 0)
  {
    var o := OffsetOfLine(f, n);
    var m := LineOfOffset(f, o).0;
    assert OffsetOfLine(f, m) <= o < OffsetOfLine(f, m + 1);
    if m < n {
      AdvanceMonotone(f, m, n - 1);
    } else if m > n {
      AdvanceMonotone(f, n - 1, m - 1);
    }
  }

  /** Python truthiness of an optional integer: absent and 0 are false. */
  predicate Truthy(x: Option<int>) {
    x.Some? && x.value != 0
  }

  /** `f.seek(pos); f.read(size)`: a negative size reads to the end of the file. */
  function ReadAt(f: string, pos: nat, size: int): string {
    if pos >= |f| then []
    else if size < 0 || pos + size > |f| then f[pos..]
    else f[pos..pos + size]
  }

  /** The record `get_coords` builds for one witness edge. */
  datatype Coords = Coords(startline: int, column: int, endline: int, length: int, content: string)

  /** The four position hints of a witness edge. */
  datatype Hints = Hints(startline: Option<int>, endline: Option<int>, startoffset: Option<int>, endoffset: Option<int>)

  /**
   The hints after the three defaulting rules of `get_coords`: the end line
   falls back to the start line, and missing offsets are derived from lines.
   */
  function Derive(f: string, h: Hints): (d: Hints)
    ensures d.startline == h.startline
    ensures Truthy(h.endline) || !Truthy(h.startline) ==> d.endline == h.endline
    ensures Truthy(h.startoffset) || !Truthy(h.startline) ==> d.startoffset == h.startoffset
    ensures Truthy(h.endoffset) || !Truthy(d.endline) ==> d.endoffset == h.endoffset
    ensures !Truthy(h.endline) && Truthy(h.startline) ==> d.endline == h.startline
    ensures !Truthy(h.startoffset) && Truthy(h.startline) ==> d.startoffset == Some(OffsetOfLine(f, h.startline.value))
    ensures !Truthy(h.endoffset) && Truthy(d.endline) ==> d.endoffset == Some(OffsetOfLine(f, d.endline.value + 1))
  {
    var endline := if !Truthy(h.endline) && Truthy(h.startline) then h.startline else h.endline;
    var startoffset := if !Truthy(h.startoffset) && Truthy(h.startline)
      then Some(OffsetOfLine(f, h.startline.value) as int) else h.startoffset;
    var endoffset := if !Truthy(h.endoffset) && Truthy(endline)
      then Some(OffsetOfLine(f, endline.value + 1) as int) else h.endoffset;
    Hints(h.startline, endline, startoffset, endoffset)
  }

  /**
   `get_coords`. `Success(None)` when no end offset can be derived; the
   Python exceptions become `Crashed`; a start offset at or past the end of
   the file makes `get_line_of_offset` loop forever (`Diverges`).
   */
  function GetCoords(f: string, h: Hints): (r: Result<Option<Coords>, Failure>)
    ensures r == Success(None) <==> !Truthy(Derive(f, h).endoffset)
    ensures r.Failure? ==> r.error in {Crashed(MissingHint), Crashed(NegativeSeek), Diverges}
    ensures r == Failure(Diverges) <==>
      var d := Derive(f, h);
      Truthy(d.endoffset) && d.startoffset.Some? && 0 <= d.startoffset.value && d.startoffset.value >= |f|
    ensures r == Failure(Crashed(NegativeSeek)) <==>
      var d := Derive(f, h);
      Truthy(d.endoffset) && d.startoffset.Some? && d.startoffset.value < 0
    ensures r == Failure(Crashed(MissingHint)) <==>
      var d := Derive(f, h);
      Truthy(d.endoffset) && (d.startoffset.None? || (0 <= d.startoffset.value < |f| && d.endline.None?))
    ensures r.Success? && r.value.Some? <==>
      var d := Derive(f, h);
      Truthy(d.endoffset) && d.startoffset.Some? && 0 <= d.startoffset.value < |f| && d.endline.Some?
    ensures r.Success? && r.value.Some? ==>
      var d := Derive(f, h);
      var c := r.value.value;
      && d.startoffset.Some? && d.endline.Some? && d.endoffset.Some?
      && 0 <= d.startoffset.value < |f|
      && c.startline >= 1
      && OffsetOfLine(f, c.startline) + c.column == d.startoffset.value
      && d.startoffset.value < OffsetOfLine(f, c.startline + 1)
      && c.endline == d.endline.value
      && c.length == d.endoffset.value - d.startoffset.value + 1
      && c.content == ReadAt(f, d.startoffset.value, d.endoffset.value - d.startoffset.value - 1)
  {
    var d := Derive(f, h);
    if !Truthy(d.endoffset) then Success(None)
    else if d.startoffset.None? then Failure(Crashed(MissingHint))
    else if d.startoffset.value < 0 then Failure(Crashed(NegativeSeek))
    else
      var so := d.startoffset.value;
      var eo := d.endoffset.value;
      var content := ReadAt(f, so, eo - so - 1);
      if so >= |f| then Failure(Diverges)
      else
        var (line, column) := LineOfOffset(f, so);
        if d.endline.None? then Failure(Crashed(MissingHint))
        else Success(Some(Coords(line, column, d.endline.value, eo - so + 1, content)))
  }

  /**
   Hints that resolve to a start offset inside the file and an end line give
   the record of that offset's line and column.
   */
  lemma GetCoordsResolved(f: string, h: Hints)
    requires var d := Derive(f, h);
      && Truthy(d.endoffset) && d.startoffset.Some? && d.endline.Some?
      && 0 <= d.startoffset.value < |f|
    ensures
      var d := Derive(f, h);
      var so := d.startoffset.value;
      var eo := d.endoffset.value;
      var lc := LineOfOffset(f, so);
      GetCoords(f, h) == Success(Some(Coords(lc.0, lc.1, d.endline.value, eo - so + 1, ReadAt(f, so, eo - so - 1))))
  {
  }

  /**
   With only a start line n that has at least one character: the end line
   defaults to n, the column is 0, the start line comes back unchanged, and
   the content is line n without its last character (its newline, when it
   has one).
   */
  lemma GetCoordsLineOnly(f: string, n: int)
    requires n >= 1
    requires OffsetOfLine(f, n) < |f|
    ensures
      var s := OffsetOfLine(f, n);
      var e := OffsetOfLine(f, n + 1);
      && s < e
      && GetCoords(f, Hints(Some(n), None, None, None))
         == Success(Some(Coords(n, 0, n, e - s + 1, f[s..e - 1])))
      && (f[e - 1] == '\n' ==> f[s..e] == f[s..e - 1] + "\n" && NoNewlineIn(f, s, e - 1))
  {
    var s := OffsetOfLine(f, n);
    var e := OffsetOfLine(f, n + 1);
    AdvanceMonotone(f, n - 1, n);
    assert e == ReadLine(f, s);
    var h := Hints(Some(n), None, None, None);
    assert Derive(f, h) == Hints(Some(n), Some(n), Some(s as int), Some(e as int));
    LineOfOffsetRoundTrip(f, n);
    GetCoordsResolved(f, h);
    LineShape(f, s);
  }

  /** The text one readline() consumes from inside the file, split at its newline. */
  lemma LineShape(f: string, s: nat)
    requires s < |f|
    ensures
      var e := ReadLine(f, s);
      && ReadAt(f, s, e - s - 1) == f[s..e - 1]
      && (f[e - 1] == '\n' ==> f[s..e] == f[s..e - 1] + "\n" && NoNewlineIn(f, s, e - 1))
  {
    var e := ReadLine(f, s);
    ReadLineSpec(f, s);
    if f[e - 1] == '\n' {
      assert f[s..e] == f[s..e - 1] + [f[e - 1]];
    }
  }

  /**
   Explicit offsets 0 < s < e <= |f| + 1 and an end line: the reported
   length is e - s + 1 while the content holds e - s - 1 characters.
   */
  lemma GetCoordsOffsets(f: string, s: int, e: int, endline: int)
    requires 0 < s < e <= |f| + 1
    requires s < |f|
    ensures
      var r := GetCoords(f, Hints(None, Some(endline), Some(s), Some(e)));
      && r.Success? && r.value.Some?
      && r.value.value.length == e - s + 1
      && |r.value.value.content| == e - s - 1
      && r.value.value.endline == endline
  {
  }

  /** No line hint and no truthy end offset: no coordinates. */
  lemma GetCoordsNoHints(f: string, so: Option<int>)
    ensures GetCoords(f, Hints(None, None, so, None)) == Success(None)
    ensures GetCoords(f, Hints(Some(0), Some(0), so, Some(0))) == Success(None)
  {
  }
}

=== FILE: trials.dfy ===
/**
 The trial loop and the verdict of `translate_to_c` (main.py, lines
 72-119). Each execution of the instrumented program is an input: its exit
 code and standard output, or a timeout.
 */
module Trials {
  import opened Wrappers
  import opened SourceText

  datatype Mode = Strict | Normal | Permissive

  /** What one execution returned. */
  datatype Run = Exited(code: int, stdout: string) | TimedOut

  datatype Outcome = Reached | NotReached

  datatype Verdict = Always | Never | Sometimes | Timeout

  /** The number of executions tried. */
  const TrialCount: nat := 100

  /** The exit code of `reach_error` in the runtime stub. */
  const ErrorExitCode: int := 74

  /** The line the runtime stub prints when the error is reached. */
  const ErrorMarker: string := "Reached error!"

  // ---------------------------------------------------------------------
  // Splitting the output into lines.
  // ---------------------------------------------------------------------

  function FirstNewline(s: string): (i: nat)
    requires '\n' in s
    ensures i < |s| && s[i] == '\n' && '\n' !in s[..i]
  {
    if s[0] == '\n' then 0
    else
      assert '\n' in s[1..] by {
        var k :| 0 <= k < |s| && s[k] == '\n';
        assert s[1..][k - 1] == '\n';
      }
      var i := 1 + FirstNewline(s[1..]);
      assert s[..i] == [s[0]] + s[1..][..i - 1];
      i
  }

  /** `s.split("\n")`: the pieces between newlines, at least one. */
  function Lines(s: string): (r: seq<string>)
    ensures |r| >= 1
    ensures forall k :: 0 <= k < |r| ==> '\n' !in r[k]
    decreases |s|
  {
    if '\n' !in s then [s]
    else
      var i := FirstNewline(s);
      var rest := Lines(s[i + 1..]);
      var r := [s[..i]] + rest;
      assert forall k :: 1 <= k < |r| ==> r[k] == rest[k - 1];
      r
  }

  /** The pieces glued back with newlines: `"\n".join(lines)`. */
  function Join(lines: seq<string>): string
    requires |lines| >= 1
  {
    if |lines| == 1 then lines[0] else lines[0] + "\n" + Join(lines[1..])
  }

  /** Splitting and joining on newlines gives the output back. */
  lemma {:induction false} JoinLines(s: string)
    ensures Join(Lines(s)) == s
    decreases |s|
  {
    if '\n' in s {
      var i := FirstNewline(s);
      JoinLines(s[i + 1..]);
      var r := Lines(s);
      assert r[1..] == Lines(s[i + 1..]);
      assert s == s[..i] + "\n" + s[i + 1..];
    }
  }

  /** The `for line in stdout.split("\n")` loop: some line contains `m`. */
  predicate SomeLineHas(lines: seq<string>, m: string) {
    lines != [] && (Contains(lines[0], m) || SomeLineHas(lines[1..], m))
  }

  lemma ContainsPrefix(s: string, i: nat, m: string)
    requires i <= |s| && Contains(s[..i], m)
    ensures Contains(s, m)
  {
    var j :| 0 <= j <= i && OccursAt(s[..i], m, j);
    assert s[j..j + |m|] == s[..i][j..j + |m|];
    assert OccursAt(s, m, j);
  }

  lemma ContainsSuffix(s: string, i: nat, m: string)
    requires i <= |s| && Contains(s[i..], m)
    ensures Contains(s, m)
  {
    var j :| 0 <= j <= |s| - i && OccursAt(s[i..], m, j);
    assert s[i + j..i + j + |m|] == s[i..][j..j + |m|];
    assert OccursAt(s, m, i + j);
  }

  /** An occurrence of a newline-free `m` lies before or after the newline at `i`. */
  lemma ContainsSplit(s: string, i: nat, m: string)
    requires i < |s| && s[i] == '\n' && '\n' !in m && Contains(s, m)
    ensures Contains(s[..i], m) || Contains(s[i + 1..], m)
  {
    var j :| 0 <= j <= |s| && OccursAt(s, m, j);
    if j + |m| <= i {
      assert s[..i][j..j + |m|] == s[j..j + |m|];
      assert OccursAt(s[..i], m, j);
    } else if j > i {
      assert s[i + 1..][j - i - 1..j - i - 1 + |m|] == s[j..j + |m|];
      assert OccursAt(s[i + 1..], m, j - i - 1);
    }
  }

  /**
   Looking line by line finds the marker exactly when the whole output
   contains it, because the marker has no newline.
   */
  lemma {:induction false} SomeLineHasIff(s: string, m: string)
    requires '\n' !in m
    ensures SomeLineHas(Lines(s), m) <==> Contains(s, m)
    decreases |s|
  {
    if '\n' in s {
      var i := FirstNewline(s);
      var r := Lines(s);
      SomeLineHasIff(s[i + 1..], m);
      assert r[0] == s[..i] && r[1..] == Lines(s[i + 1..]);
      if Contains(s, m) {
        ContainsSplit(s, i, m);
      }
      if Contains(s[..i], m) {
        ContainsPrefix(s, i, m);
      }
      if Contains(s[i + 1..], m) {
        ContainsSuffix(s, i + 1, m);
      }
    } else {
      assert Lines(s) == [s];
      assert Lines(s)[1..] == [];
    }
  }

  // ---------------------------------------------------------------------
  // One trial.
  // ---------------------------------------------------------------------

  /**
   The outcome of one execution: reached when it exits with 74 or a line
   of its non-empty output contains the marker; a timeout records nothing.
   */
  function Classify(r: Run): (o: Option<Outcome>)
    ensures r.TimedOut? <==> o.None?
    ensures r.Exited? ==> (o == Some(Reached) <==> r.code == ErrorExitCode || Contains(r.stdout, ErrorMarker))
  {
    match r
    case TimedOut => None
    case Exited(code, out) =>
      var reached := code == ErrorExitCode || (|out| > 0 && SomeLineHas(Lines(out), ErrorMarker));
      assert '\n' !in ErrorMarker;
      SomeLineHasIff(out, ErrorMarker);
      assert Contains(out, ErrorMarker) ==> |out| > 0;
      Some(if reached then Reached else NotReached)
  }

  /** The early exit: strict mode stops at the first miss, permissive mode at the first hit. */
  predicate Stops(mode: Mode, o: Outcome) {
    (mode == Strict && o == NotReached) || (mode == Permissive && o == Reached)
  }

  /** The outcomes recorded so far, and whether the loop has left. */
  datatype TrialState = TrialState(outcomes: seq<Outcome>, stopped: bool)

  function Step(mode: Mode, st: TrialState, r: Run): TrialState {
    if st.stopped then st
    else match Classify(r)
      case None => st
      case Some(o) => TrialState(st.outcomes + [o], Stops(mode, o))
  }

  /** The state after the executions `runs`, in order. */
  function Fold(mode: Mode, runs: seq<Run>): TrialState {
    if runs == [] then TrialState([], false)
    else Step(mode, Fold(mode, runs[..|runs| - 1]), runs[|runs| - 1])
  }

  /** The outcomes the loop records from the executions `runs`. */
  function Recorded(mode: Mode, runs: seq<Run>): seq<Outcome> {
    Fold(mode, runs).outcomes
  }

  /** The `codes` dictionary: -1 counts reached, 0 counts not reached. */
  function CodeOf(o: Outcome): int {
    if o == Reached then -1 else 0
  }

  function Bump(codes: map<int, nat>, code: int): map<int, nat> {
    codes[code := if code in codes then codes[code] + 1 else 1]
  }

  function Tally(os: seq<Outcome>): (codes: map<int, nat>)
    ensures codes.Keys <= {-1, 0}
    ensures -1 in codes <==> Reached in os
    ensures 0 in codes <==> NotReached in os
  {
    if os == [] then map[]
    else
      var init := os[..|os| - 1];
      assert os == init + [os[|os| - 1]];
      Bump(Tally(init), CodeOf(os[|os| - 1]))
  }

  lemma FoldNext(mode: Mode, runs: seq<Run>, i: nat)
    requires i < |runs|
    ensures Fold(mode, runs[..i + 1]) == Step(mode, Fold(mode, runs[..i]), runs[i])
  {
    assert runs[..i + 1][..i] == runs[..i];
  }

  lemma TallyNext(os: seq<Outcome>, o: Outcome)
    ensures Tally(os + [o]) == Bump(Tally(os), CodeOf(o))
  {
    assert (os + [o])[..|os|] == os;
  }

  /** Once stopped, later executions change nothing. */
  lemma {:induction false} FoldStopped(mode: Mode, runs: seq<Run>, i: nat)
    requires i <= |runs| && Fold(mode, runs[..i]).stopped
    ensures Fold(mode, runs) == Fold(mode, runs[..i])
    decreases |runs| - i
  {
    if i < |runs| {
      assert runs[..i + 1][..i] == runs[..i];
      assert Fold(mode, runs[..i + 1]) == Fold(mode, runs[..i]);
      FoldStopped(mode, runs, i + 1);
    } else {
      assert runs[..i] == runs;
    }
  }

  /**
   The trial loop over the executions `runs` (one answer per possible
   trial). Its dictionary counts exactly the recorded outcomes.
   */
  method RunTrials(mode: Mode, runs: seq<Run>) returns (codes: map<int, nat>)
    requires |runs| == TrialCount
    ensures codes == Tally(Recorded(mode, runs))
  {
    codes := map[];
    var outcomes: seq<Outcome> := [];
    var i := 0;
    while i < TrialCount
      invariant 0 <= i <= TrialCount
      invariant Fold(mode, runs[..i]) == TrialState(outcomes, false)
      invariant codes == Tally(outcomes)
    {
      FoldNext(mode, runs, i);
      var o := Classify(runs[i]);
      if o.Some? {
        codes := Bump(codes, CodeOf(o.value));
        TallyNext(outcomes, o.value);
        outcomes := outcomes + [o.value];
        if Stops(mode, o.value) {
          FoldStopped(mode, runs, i + 1);
          return;
        }
      }
      i := i + 1;
    }
    assert runs[..i] == runs;
  }

  /** Lines 106-119: the verdict from the keys of the dictionary. */
  function VerdictOf(codes: map<int, nat>): Verdict {
    var mayNot := 0 in codes;
    var may := -1 in codes;
    if mayNot && may then Sometimes
    else if mayNot then Never
    else if may then Always
    else Timeout
  }

  /**
   The verdict depends only on which outcome kinds occurred: both gives
   SOMETIMES, only misses NEVER, only hits ALWAYS, none TIMEOUT.
   */
  lemma VerdictOfKinds(os: seq<Outcome>)
    ensures VerdictOf(Tally(os)) ==
      if Reached in os && NotReached in os then Sometimes
      else if NotReached in os then Never
      else if Reached in os then Always
      else Timeout
  {
  }

  /** Two outcome lists with the same kinds give the same verdict. */
  lemma VerdictSameKinds(a: seq<Outcome>, b: seq<Outcome>)
    requires forall o :: o in a <==> o in b
    ensures VerdictOf(Tally(a)) == VerdictOf(Tally(b))
  {
    VerdictOfKinds(a);
    VerdictOfKinds(b);
  }

  lemma VerdictExample()
    ensures VerdictOf(Tally([Reached, Reached, NotReached])) == Sometimes
  {
    VerdictOfKinds([Reached, Reached, NotReached]);
  }

  // ---------------------------------------------------------------------
  // The modes.
  // ---------------------------------------------------------------------

  /** The outcomes of all executions that did not time out. */
  function AllOutcomes(runs: seq<Run>): seq<Outcome> {
    if runs == [] then []
    else
      var init := AllOutcomes(runs[..|runs| - 1]);
      match Classify(runs[|runs| - 1])
      case None => init
      case Some(o) => init + [o]
  }

  /** Never more outcomes than executions. */
  lemma {:induction false} RecordedBound(mode: Mode, runs: seq<Run>)
    ensures |Recorded(mode, runs)| <= |runs|
  {
    if runs != [] {
      RecordedBound(mode, runs[..|runs| - 1]);
    }
  }

  /** Normal mode never stops early: every execution that did not time out is recorded. */
  lemma {:induction false} NormalRecordsAll(runs: seq<Run>)
    ensures Recorded(Normal, runs) == AllOutcomes(runs)
    ensures !Fold(Normal, runs).stopped
  {
    if runs != [] {
      NormalRecordsAll(runs[..|runs| - 1]);
    }
  }

  /**
   Strict mode stops right after the first miss, so every recorded outcome
   but the last is a hit, and the loop stops exactly when the last is a miss.
   */
  lemma {:induction false} StrictShape(runs: seq<Run>)
    ensures var st := Fold(Strict, runs);
      && (forall k :: 0 <= k < |st.outcomes| - 1 ==> st.outcomes[k] == Reached)
      && (st.stopped <==> |st.outcomes| > 0 && st.outcomes[|st.outcomes| - 1] == NotReached)
  {
    if runs != [] {
      StrictShape(runs[..|runs| - 1]);
    }
  }

  /** Permissive mode is the mirror image: it stops right after the first hit. */
  lemma {:induction false} PermissiveShape(runs: seq<Run>)
    ensures var st := Fold(Permissive, runs);
      && (forall k :: 0 <= k < |st.outcomes| - 1 ==> st.outcomes[k] == NotReached)
      && (st.stopped <==> |st.outcomes| > 0 && st.outcomes[|st.outcomes| - 1] == Reached)
  {
    if runs != [] {
      PermissiveShape(runs[..|runs| - 1]);
    }
  }

  /**
   Nothing is recorded exactly when every execution timed out, so the
   verdict is TIMEOUT exactly then.
   */
  lemma {:induction false} NothingRecordedIff(mode: Mode, runs: seq<Run>)
    ensures Recorded(mode, runs) == [] <==> forall k :: 0 <= k < |runs| ==> runs[k].TimedOut?
    ensures Fold(mode, runs).stopped ==> Recorded(mode, runs) != []
  {
    if runs != [] {
      var init := runs[..|runs| - 1];
      NothingRecordedIff(mode, init);
      assert forall k :: 0 <= k < |init| ==> init[k] == runs[k];
    }
  }

  lemma TimeoutVerdictIff(mode: Mode, runs: seq<Run>)
    ensures VerdictOf(Tally(Recorded(mode, runs))) == Timeout <==> forall k :: 0 <= k < |runs| ==> runs[k].TimedOut?
  {
    NothingRecordedIff(mode, runs);
    VerdictOfKinds(Recorded(mode, runs));
    var os := Recorded(mode, runs);
    if os != [] {
      assert os[0] in os;
    }
  }

  /** The executions without the timed-out ones. */
  function Finished(runs: seq<Run>): (r: seq<Run>)
    ensures forall k :: 0 <= k < |r| ==> r[k].Exited?
  {
    if runs == [] then []
    else
      var init := Finished(runs[..|runs| - 1]);
      if runs[|runs| - 1].TimedOut? then init else init + [runs[|runs| - 1]]
  }

  /** A timeout records nothing and never stops the loop: dropping timeouts changes nothing. */
  lemma {:induction false} TimeoutsIgnored(mode: Mode, runs: seq<Run>)
    ensures Fold(mode, runs) == Fold(mode, Finished(runs))
  {
    if runs != [] {
      var init := runs[..|runs| - 1];
      TimeoutsIgnored(mode, init);
      if runs[|runs| - 1].Exited? {
        var f := Finished(init) + [runs[|runs| - 1]];
        assert f[..|f| - 1] == Finished(init);
      }
    }
  }
}

=== FILE: tweaks.dfy ===
/**
 The three top-level tidy-ups of tweaks.py, as transformations of the list
 of external declarations: `reach_error` (lines 19-33), `fix_inline`
 (lines 37-46) and `fix_struct_def` (lines 50-61).
 */
module Tweaks {
  import opened Wrappers
  import opened Ast

  // ---------------------------------------------------------------------
  // fix_inline
  // ---------------------------------------------------------------------

  /** A non-static inline function definition. */
  predicate InlineDef(x: External) {
    x.FuncDef? && "inline" in x.decl.funcspec && "static" !in x.decl.storage
  }

  /**
   `fix_inline`: every non-static inline definition gets the function
   specifiers `extern inline`; nothing else changes.
   */
  function FixInline(ext: seq<External>): (r: seq<External>)
    ensures |r| == |ext|
    ensures forall j :: 0 <= j < |ext| && InlineDef(ext[j]) ==>
      r[j].FuncDef? && r[j].body == ext[j].body && r[j].decl == ext[j].decl.(funcspec := ["extern", "inline"])
    ensures forall j :: 0 <= j < |ext| && !InlineDef(ext[j]) ==> r[j] == ext[j]
  {
    seq(|ext|, j requires 0 <= j < |ext| =>
      if InlineDef(ext[j]) then FuncDef(ext[j].decl.(funcspec := ["extern", "inline"]), ext[j].body) else ext[j])
  }

  /** Applying `fix_inline` twice is applying it once. */
  lemma FixInlineIdempotent(ext: seq<External>)
    ensures FixInline(FixInline(ext)) == FixInline(ext)
  {
    var r := FixInline(ext);
    var r2 := FixInline(r);
    forall j | 0 <= j < |ext|
      ensures r2[j] == r[j]
    {
      if InlineDef(ext[j]) {
        assert InlineDef(r[j]) by { assert "inline" in r[j].decl.funcspec; }
      }
    }
  }

  // ---------------------------------------------------------------------
  // fix_struct_def
  // ---------------------------------------------------------------------

  /** A declaration whose declarator wraps a struct type, as in `struct S { ... } s;`. */
  predicate StructDecl(x: External) {
    x.DeclExt? && x.decl.typ.TypeDecl? && x.decl.typ.base.Struct?
  }

  /** The struct's tag; anonymous structs share the tag `None`. */
  function StructName(x: External): Option<string>
    requires StructDecl(x)
  {
    x.decl.typ.base.name
  }

  /** The same declaration with the struct's member list dropped. */
  function StripBody(x: External): (r: External)
    requires StructDecl(x)
    ensures StructDecl(r) && StructName(r) == StructName(x)
  {
    DeclExt(x.decl.(typ := TypeDecl(Struct(StructName(x), None))))
  }

  /** Some struct declaration before position `j` has the same tag as the one at `j`. */
  predicate Repeated(ext: seq<External>, j: int)
    requires 0 <= j < |ext| && StructDecl(ext[j])
  {
    exists i :: 0 <= i < j && StructDecl(ext[i]) && StructName(ext[i]) == StructName(ext[j])
  }

  /** The loop of `fix_struct_def`, with the set of tags already seen. */
  function StripRepeated(ext: seq<External>, seen: set<Option<string>>): (r: seq<External>)
    ensures |r| == |ext|
  {
    if ext == [] then []
    else
      var x := ext[0];
      if StructDecl(x) then
        if StructName(x) in seen then [StripBody(x)] + StripRepeated(ext[1..], seen)
        else [x] + StripRepeated(ext[1..], seen + {StructName(x)})
      else [x] + StripRepeated(ext[1..], seen)
  }

  function FixStructDef(ext: seq<External>): seq<External> {
    StripRepeated(ext, {})
  }

  /** The tags of the struct declarations in `pre`. */
  function TagsOf(pre: seq<External>): set<Option<string>> {
    set i | 0 <= i < |pre| && StructDecl(pre[i]) :: StructName(pre[i])
  }

  lemma TagsOfSnoc(pre: seq<External>, x: External)
    ensures TagsOf(pre + [x]) == TagsOf(pre) + (if StructDecl(x) then {StructName(x)} else {})
  {
    var q := pre + [x];
    assert forall i :: 0 <= i < |pre| ==> q[i] == pre[i];
    if StructDecl(x) {
      assert StructName(q[|pre|]) in TagsOf(q);
    }
  }

  /** What `fix_struct_def` leaves at position `j` of the whole list `all`. */
  function Expected(all: seq<External>, j: nat): External
    requires j < |all|
  {
    if StructDecl(all[j]) && Repeated(all, j) then StripBody(all[j]) else all[j]
  }

  /**
   The loop from position `|pre|` on, having seen the tags of `pre`: a struct
   declaration loses its members exactly when an earlier one has its tag.
   */
  lemma {:induction false} StripRepeatedSpec(pre: seq<External>, ext: seq<External>)
    ensures forall j :: 0 <= j < |ext| ==> StripRepeated(ext, TagsOf(pre))[j] == Expected(pre + ext, |pre| + j)
    decreases |ext|
  {
    if ext != [] {
      var x := ext[0];
      var all := pre + ext;
      var r := StripRepeated(ext, TagsOf(pre));
      TagsOfSnoc(pre, x);
      StripRepeatedSpec(pre + [x], ext[1..]);
      assert pre + [x] + ext[1..] == all;
      var rest := StripRepeated(ext[1..], TagsOf(pre + [x]));
      if StructDecl(x) {
        if StructName(x) in TagsOf(pre) {
          assert TagsOf(pre + [x]) == TagsOf(pre);
          assert r == [StripBody(x)] + rest;
        } else {
          assert r == [x] + rest;
        }
      } else {
        assert TagsOf(pre + [x]) == TagsOf(pre);
        assert r == [x] + rest;
      }
      if StructDecl(x) {
        assert all[|pre|] == x;
        if Repeated(all, |pre|) {
          var i :| 0 <= i < |pre| && StructDecl(all[i]) && StructName(all[i]) == StructName(x);
          assert all[i] == pre[i];
        }
        if StructName(x) in TagsOf(pre) {
          var i :| 0 <= i < |pre| && StructDecl(pre[i]) && StructName(pre[i]) == StructName(x);
          assert all[i] == pre[i];
        }
      }
      assert r[0] == Expected(all, |pre|);
      forall j | 1 <= j < |ext|
        ensures r[j] == Expected(all, |pre| + j)
      {
        assert r[j] == rest[j - 1];
        assert rest[j - 1] == Expected(pre + [x] + ext[1..], |pre + [x]| + (j - 1));
        assert |pre + [x]| + (j - 1) == |pre| + j;
      }
    }
  }

  /**
   `fix_struct_def`: the length and order of the list are kept; a struct
   declaration loses its member list exactly when an earlier struct
   declaration has the same tag; every other item is unchanged.
   */
  lemma FixStructDefSpec(ext: seq<External>)
    ensures |FixStructDef(ext)| == |ext|
    ensures forall j :: 0 <= j < |ext| ==>
      FixStructDef(ext)[j] == if StructDecl(ext[j]) && Repeated(ext, j) then StripBody(ext[j]) else ext[j]
  {
    var pre: seq<External> := [];
    assert TagsOf(pre) == {};
    var r := StripRepeated(ext, TagsOf(pre));
    assert r == FixStructDef(ext);
    StripRepeatedSpec(pre, ext);
    assert pre + ext == ext;
    forall j | 0 <= j < |ext|
      ensures FixStructDef(ext)[j] == Expected(ext, j)
    {
      assert r[j] == Expected(pre + ext, |pre| + j);
    }
  }

  /** Applying `fix_struct_def` twice is applying it once. */
  lemma FixStructDefIdempotent(ext: seq<External>)
    ensures FixStructDef(FixStructDef(ext)) == FixStructDef(ext)
  {
    var r := FixStructDef(ext);
    FixStructDefSpec(ext);
    FixStructDefSpec(r);
    forall j | 0 <= j < |ext|
      ensures FixStructDef(r)[j] == r[j]
    {
      assert StructDecl(r[j]) <==> StructDecl(ext[j]);
      if StructDecl(ext[j]) {
        assert StructName(r[j]) == StructName(ext[j]);
        if Repeated(ext, j) {
          var i :| 0 <= i < j && StructDecl(ext[i]) && StructName(ext[i]) == StructName(ext[j]);
          assert StructDecl(r[i]) && StructName(r[i]) == StructName(r[j]);
        }
        if Repeated(r, j) {
          var i :| 0 <= i < j && StructDecl(r[i]) && StructName(r[i]) == StructName(r[j]);
          assert StructDecl(ext[i]) && StructName(ext[i]) == StructName(ext[j]);
        }
      }
    }
  }

  // ---------------------------------------------------------------------
  // reach_error
  // ---------------------------------------------------------------------

  /** The definition of `reach_error`. */
  predicate ReachErrorDef(x: External) {
    x.FuncDef? && x.decl.name == Some("reach_error")
  }

  /** `extern` declaration with the definition's name and type. */
  function ExternOf(x: External): External
    requires x.FuncDef?
  {
    DeclExt(Decl(x.decl.name, [], ["extern"], [], x.decl.typ, None, None))
  }

  /**
   The `for` loop of `reach_error` over the list it mutates: the iterator's
   index `k` moves on by one after a definition at `k` is removed (so the
   item sliding into position `k` is never looked at) and the extern
   declaration is appended at the end, where the loop reaches it later.
   */
  function ReachErrorLoop(ext: seq<External>, k: nat): (r: seq<External>)
    ensures |r| == |ext|
    decreases |ext| - k
  {
    if k >= |ext| then ext
    else if ReachErrorDef(ext[k]) then ReachErrorLoop(ext[..k] + ext[k + 1..] + [ExternOf(ext[k])], k + 1)
    else ReachErrorLoop(ext, k + 1)
  }

  function ReachError(ext: seq<External>): seq<External> {
    ReachErrorLoop(ext, 0)
  }

  /**
   Reference for the loop: a left-to-right sweep over the original list
   where a `reach_error` definition is moved out and the item right after it
   is kept without being looked at. Returns the kept items and the extern
   declarations, both in order.
   */
  function Sweep(o: seq<External>): (r: (seq<External>, seq<External>))
    ensures |r.0| + |r.1| == |o|
    ensures forall j :: 0 <= j < |r.1| ==> r.1[j].DeclExt?
  {
    if o == [] then ([], [])
    else if ReachErrorDef(o[0]) then
      if |o| == 1 then ([], [ExternOf(o[0])])
      else
        var rest := Sweep(o[2..]);
        ([o[1]] + rest.0, [ExternOf(o[0])] + rest.1)
    else
      var rest := Sweep(o[1..]);
      ([o[0]] + rest.0, rest.1)
  }

  predicate NoDefFrom(ext: seq<External>, k: nat) {
    forall j :: k <= j < |ext| ==> !ReachErrorDef(ext[j])
  }

  lemma {:induction false} LoopIdle(ext: seq<External>, k: nat)
    requires NoDefFrom(ext, k)
    ensures ReachErrorLoop(ext, k) == ext
    decreases |ext| - k
  {
    if k < |ext| {
      LoopIdle(ext, k + 1);
    }
  }

  /**
   The loop entered at the start of `o`, with `done` already passed and the
   appended declarations `m` (none a definition) at the end, yields the
   passed items, the kept items, `m`, and the new extern declarations.
   */
  lemma {:induction false} LoopIsSweep(done: seq<External>, o: seq<External>, m: seq<External>)
    requires forall j :: 0 <= j < |m| ==> !ReachErrorDef(m[j])
    ensures ReachErrorLoop(done + o + m, |done|) == done + Sweep(o).0 + m + Sweep(o).1
    decreases |o|
  {
    if o == [] {
      assert done + o + m == done + m;
      LoopIdle(done + m, |done|);
    } else if ReachErrorDef(o[0]) {
      LoopRemoves(done, o, m);
    } else {
      var l := done + o + m;
      assert l[|done|] == o[0];
      assert l == (done + [o[0]]) + o[1..] + m;
      LoopIsSweep(done + [o[0]], o[1..], m);
      assert (done + [o[0]]) + Sweep(o[1..]).0 == done + Sweep(o).0;
    }
  }

  /** The loop at a definition: it is removed, its extern declaration appended, and the iterator moves on. */
  lemma LoopAtDef(done: seq<External>, o: seq<External>, m: seq<External>)
    requires o != [] && ReachErrorDef(o[0])
    ensures ReachErrorLoop(done + o + m, |done|)
      == ReachErrorLoop(done + o[1..] + m + [ExternOf(o[0])], |done| + 1)
  {
    var l := done + o + m;
    assert l[|done|] == o[0];
    assert l[..|done|] == done;
    assert l[|done| + 1..] == o[1..] + m;
    assert l[..|done|] + l[|done| + 1..] + [ExternOf(l[|done|])] == done + o[1..] + m + [ExternOf(o[0])];
  }

  /** The step of the loop at a definition: removal, append, and the skipped item. */
  lemma {:induction false} LoopRemoves(done: seq<External>, o: seq<External>, m: seq<External>)
    requires forall j :: 0 <= j < |m| ==> !ReachErrorDef(m[j])
    requires o != [] && ReachErrorDef(o[0])
    ensures ReachErrorLoop(done + o + m, |done|) == done + Sweep(o).0 + m + Sweep(o).1
    decreases |o|, 0
  {
    var e := ExternOf(o[0]);
    LoopAtDef(done, o, m);
    var l2 := done + o[1..] + m + [e];
    if |o| == 1 {
      assert l2 == done + m + [e];
      assert NoDefFrom(l2, |done| + 1);
      LoopIdle(l2, |done| + 1);
    } else {
      assert l2 == (done + [o[1]]) + o[2..] + (m + [e]);
      LoopIsSweep(done + [o[1]], o[2..], m + [e]);
      var rest := Sweep(o[2..]);
      assert Sweep(o) == ([o[1]] + rest.0, [e] + rest.1);
    }
  }

  /**
   `reach_error` keeps the list length and ends with the sweep's kept items
   followed by one extern declaration per definition it removed.
   */
  lemma ReachErrorSpec(ext: seq<External>)
    ensures |ReachError(ext)| == |ext|
    ensures ReachError(ext) == Sweep(ext).0 + Sweep(ext).1
  {
    LoopIsSweep([], ext, []);
    assert [] + ext + [] == ext;
  }

  /** Without a `reach_error` definition the list is unchanged. */
  lemma ReachErrorAbsent(ext: seq<External>)
    requires forall j :: 0 <= j < |ext| ==> !ReachErrorDef(ext[j])
    ensures ReachError(ext) == ext
  {
    LoopIdle(ext, 0);
  }

  /**
   Two definitions in a row: the second slides into the removed one's
   place, the iterator moves past it, and it stays where it is.
   */
  lemma ReachErrorSkipsNext(x: External, y: External)
    requires ReachErrorDef(x) && ReachErrorDef(y)
    ensures ReachError([x, y]) == [y, ExternOf(x)]
  {
    assert [x, y][..0] + [x, y][1..] + [ExternOf(x)] == [y, ExternOf(x)];
    assert ReachErrorLoop([y, ExternOf(x)], 1) == ReachErrorLoop([y, ExternOf(x)], 2);
  }

  /**
   The usual case, a single definition at position `j`: it is removed and
   its extern declaration is appended, and the other items keep their order.
   */
  lemma ReachErrorSingle(ext: seq<External>, j: nat)
    requires j < |ext| && ReachErrorDef(ext[j])
    requires forall i :: 0 <= i < |ext| && i != j ==> !ReachErrorDef(ext[i])
    ensures ReachError(ext) == ext[..j] + ext[j + 1..] + [ExternOf(ext[j])]
  {
    LoopIdleUpTo(ext, 0, j);
    var l2 := ext[..j] + ext[j + 1..] + [ExternOf(ext[j])];
    assert forall i :: j + 1 <= i < |l2| ==> !ReachErrorDef(l2[i]) by {
      forall i | j + 1 <= i < |l2|
        ensures !ReachErrorDef(l2[i])
      {
        if i < |ext| - 1 {
          assert l2[i] == ext[i + 1];
        }
      }
    }
    LoopIdle(l2, j + 1);
  }

  lemma {:induction false} LoopIdleUpTo(ext: seq<External>, k: nat, j: nat)
    requires k <= j < |ext|
    requires forall i :: k <= i < j ==> !ReachErrorDef(ext[i])
    ensures ReachErrorLoop(ext, k) == ReachErrorLoop(ext, j)
    decreases j - k
  {
    if k < j {
      LoopIdleUpTo(ext, k + 1, j);
    }
  }
}

=== FILE: witness_graph.dfy ===
/**
 `extract_metadata` (witness2ast.py, lines 94-128): check the witness type,
 find the entry node, and walk the chain of single out-edges from it,
 turning every traversed edge into a (coordinates, metadata) transition.

 The witness is a directed graph, possibly with parallel edges; then the
 graph reader builds a multigraph, whose edge data is indexed by edge key,
 and every attribute lookup of the walk misses. Only the node key `entry`
 marks an entry node; edges into sink nodes are walked like any other edge.
 */
module WitnessGraph {
  import opened Wrappers
  import opened Values
  import opened Failures
  import opened SourceText

  type NodeId = string

  /** A node and the attribute keys it carries. */
  datatype WNode = WNode(id: NodeId, keys: set<string>)

  /**
   An edge: the four integer position hints feed `get_coords`, every other
   attribute stays in `data`.
   */
  datatype WEdge = WEdge(src: NodeId, dst: NodeId, hints: Hints, data: map<string, Value>)

  datatype Witness = Witness(graphAttrs: map<string, string>, nodes: seq<WNode>, edges: seq<WEdge>)

  /** One transition of the extracted path. */
  datatype Transition = Transition(coords: Option<Coords>, data: map<string, Value>)

  function Ids(g: Witness): set<NodeId> {
    set i | 0 <= i < |g.nodes| :: g.nodes[i].id
  }

  /**
   What the graph library guarantees: distinct node ids and edges between
   nodes. Parallel edges are allowed (see `Parallel`).
   */
  predicate WellFormed(g: Witness) {
    && (forall i, j :: 0 <= i < j < |g.nodes| ==> g.nodes[i].id != g.nodes[j].id)
    && (forall i :: 0 <= i < |g.edges| ==> g.edges[i].src in Ids(g) && g.edges[i].dst in Ids(g))
  }

  /**
   Two edges with the same source and target. The reader then returns a
   multigraph: its out-edges list every parallel edge, and
   `get_edge_data(u, v)` maps edge keys to attribute dictionaries instead of
   giving the attributes themselves.
   */
  predicate Parallel(g: Witness) {
    exists i, j :: 0 <= i < j < |g.edges| && g.edges[i].src == g.edges[j].src && g.edges[i].dst == g.edges[j].dst
  }

  /** The position hints the walk reads for `e`: none at all in a multigraph. */
  function EdgeHints(multi: bool, e: WEdge): Hints {
    if multi then Hints(None, None, None, None) else e.hints
  }

  /** The attributes the metadata filter sees for `e`: none at all in a multigraph. */
  function EdgeData(multi: bool, e: WEdge): map<string, Value> {
    if multi then map[] else e.data
  }

  /** The edges leaving `n`, in insertion order. */
  function EdgesFrom(es: seq<WEdge>, n: NodeId): (r: seq<WEdge>)
    ensures forall e :: e in r <==> e in es && e.src == n
  {
    if es == [] then []
    else (if es[0].src == n then [es[0]] else []) + EdgesFrom(es[1..], n)
  }

  function OutEdges(g: Witness, n: NodeId): seq<WEdge> {
    EdgesFrom(g.edges, n)
  }

  function InDegreeOf(es: seq<WEdge>, n: NodeId): (d: nat)
    ensures d == 0 <==> forall i :: 0 <= i < |es| ==> es[i].dst != n
  {
    if es == [] then 0
    else
      var d := (if es[0].dst == n then 1 else 0) + InDegreeOf(es[1..], n);
      assert forall i :: 1 <= i < |es| ==> es[i] == es[1..][i - 1];
      d
  }

  // ---------------------------------------------------------------------
  // Entry node resolution (lines 100-109).
  // ---------------------------------------------------------------------

  /** Nodes carrying the `entry` key. */
  function MarkedSet(g: Witness): set<NodeId> {
    set i | 0 <= i < |g.nodes| && "entry" in g.nodes[i].keys :: g.nodes[i].id
  }

  /** Nodes with in-degree 0 minus nodes with out-degree 0. */
  function SourceSet(g: Witness): set<NodeId> {
    set i | 0 <= i < |g.nodes| && InDegreeOf(g.edges, g.nodes[i].id) == 0 && |OutEdges(g, g.nodes[i].id)| != 0
      :: g.nodes[i].id
  }

  /** The candidates the source looks at: marked nodes if any, otherwise the fallback. */
  function EntryCandidates(g: Witness): set<NodeId> {
    if MarkedSet(g) != {} then MarkedSet(g) else SourceSet(g)
  }

  function MarkedIds(ns: seq<WNode>): (r: seq<NodeId>)
    ensures forall x :: x in r <==> exists i :: 0 <= i < |ns| && "entry" in ns[i].keys && ns[i].id == x
    ensures |r| <= |ns|
  {
    if ns == [] then []
    else
      var r := (if "entry" in ns[0].keys then [ns[0].id] else []) + MarkedIds(ns[1..]);
      assert forall i :: 1 <= i < |ns| ==> ns[i] == ns[1..][i - 1];
      r
  }

  function SourceIds(g: Witness, ns: seq<WNode>): (r: seq<NodeId>)
    ensures forall x :: x in r <==>
      (exists i :: 0 <= i < |ns| && ns[i].id == x) && InDegreeOf(g.edges, x) == 0 && |OutEdges(g, x)| != 0
  {
    if ns == [] then []
    else
      var n := ns[0].id;
      var r := (if InDegreeOf(g.edges, n) == 0 && |OutEdges(g, n)| != 0 then [n] else []) + SourceIds(g, ns[1..]);
      assert forall i :: 1 <= i < |ns| ==> ns[i] == ns[1..][i - 1];
      r
  }

  ghost predicate Distinct<T>(s: seq<T>) {
    forall i, j :: 0 <= i < j < |s| ==> s[i] != s[j]
  }

  lemma DistinctCons<T>(h: seq<T>, t: seq<T>)
    requires |h| <= 1 && Distinct(t)
    requires forall x :: x in h ==> x !in t
    ensures Distinct(h + t)
  {
    var r := h + t;
    forall i, j | 0 <= i < j < |r|
      ensures r[i] != r[j]
    {
      if i < |h| {
        assert r[i] == h[0] && r[j] == t[j - |h|] && t[j - |h|] in t;
      } else {
        assert r[i] == t[i - |h|] && r[j] == t[j - |h|];
      }
    }
  }

  /** Filtering nodes with distinct ids yields distinct ids. */
  lemma {:induction false} MarkedIdsDistinct(ns: seq<WNode>)
    requires forall i, j :: 0 <= i < j < |ns| ==> ns[i].id != ns[j].id
    ensures Distinct(MarkedIds(ns))
  {
    if ns != [] {
      MarkedIdsDistinct(ns[1..]);
      assert forall x :: x in MarkedIds(ns[1..]) ==> x != ns[0].id by {
        forall x | x in MarkedIds(ns[1..])
          ensures x != ns[0].id
        {
          var i :| 0 <= i < |ns[1..]| && "entry" in ns[1..][i].keys && ns[1..][i].id == x;
          assert ns[1..][i] == ns[i + 1];
        }
      }
      DistinctCons(if "entry" in ns[0].keys then [ns[0].id] else [], MarkedIds(ns[1..]));
    }
  }

  lemma {:induction false} SourceIdsDistinct(g: Witness, ns: seq<WNode>)
    requires forall i, j :: 0 <= i < j < |ns| ==> ns[i].id != ns[j].id
    ensures Distinct(SourceIds(g, ns))
  {
    if ns != [] {
      SourceIdsDistinct(g, ns[1..]);
      assert forall x :: x in SourceIds(g, ns[1..]) ==> x != ns[0].id by {
        forall x | x in SourceIds(g, ns[1..])
          ensures x != ns[0].id
        {
          var i :| 0 <= i < |ns[1..]| && ns[1..][i].id == x;
          assert ns[1..][i] == ns[i + 1];
        }
      }
      var n := ns[0].id;
      DistinctCons(if InDegreeOf(g.edges, n) == 0 && |OutEdges(g, n)| != 0 then [n] else [], SourceIds(g, ns[1..]));
    }
  }

  /** A sequence without repeats is as long as the set of its elements. */
  lemma {:induction false} DistinctCard<T>(s: seq<T>)
    requires Distinct(s)
    ensures |set x | x in s| == |s|
  {
    if s != [] {
      DistinctCard(s[1..]);
      assert (set x | x in s) == {s[0]} + (set x | x in s[1..]);
      assert s[0] !in (set x | x in s[1..]);
    }
  }

  lemma MarkedIdsSet(g: Witness)
    requires WellFormed(g)
    ensures (set x | x in MarkedIds(g.nodes)) == MarkedSet(g)
    ensures |MarkedIds(g.nodes)| == |MarkedSet(g)|
  {
    MarkedIdsDistinct(g.nodes);
    DistinctCard(MarkedIds(g.nodes));
  }

  lemma SourceIdsSet(g: Witness)
    requires WellFormed(g)
    ensures (set x | x in SourceIds(g, g.nodes)) == SourceSet(g)
    ensures |SourceIds(g, g.nodes)| == |SourceSet(g)|
  {
    SourceIdsDistinct(g, g.nodes);
    DistinctCard(SourceIds(g, g.nodes));
  }

  /** The candidate ids as the source lists them. */
  function EntryIds(g: Witness): seq<NodeId> {
    var marked := MarkedIds(g.nodes);
    if |marked| == 0 then SourceIds(g, g.nodes) else marked
  }

  lemma EntryIdsSet(g: Witness)
    requires WellFormed(g)
    ensures (set x | x in EntryIds(g)) == EntryCandidates(g)
    ensures |EntryIds(g)| == |EntryCandidates(g)|
  {
    MarkedIdsSet(g);
    SourceIdsSet(g);
    if |MarkedIds(g.nodes)| != 0 {
      assert MarkedIds(g.nodes)[0] in MarkedSet(g);
    }
  }

  lemma SingletonSet<T>(s: seq<T>)
    requires |s| == 1
    ensures (set x | x in s) == {s[0]}
  {
  }

  /**
   The entry node: the only marked node, or when no node is marked the only
   node with in-degree 0 and some out-edge. No candidate and several
   candidates are the two named failures.
   */
  function ResolveEntry(g: Witness): (r: Result<NodeId, Failure>)
    requires WellFormed(g)
    ensures r == Failure(NoEntryNode) <==> EntryCandidates(g) == {}
    ensures r == Failure(MultipleEntryNodes) <==> |EntryCandidates(g)| > 1
    ensures r.Success? ==> EntryCandidates(g) == {r.value}
    ensures r.Success? || r == Failure(NoEntryNode) || r == Failure(MultipleEntryNodes)
  {
    EntryIdsSet(g);
    var entries := EntryIds(g);
    if |entries| == 0 then Failure(NoEntryNode)
    else if |entries| > 1 then Failure(MultipleEntryNodes)
    else
      SingletonSet(entries);
      Success(entries[0])
  }

  // ---------------------------------------------------------------------
  // The walk (lines 111-128).
  // ---------------------------------------------------------------------

  /** The attribute keys copied into a transition's metadata. */
  const MetadataKeys: set<string> := {"assumption", "control", "threadId", "createThread"}

  /** The metadata of a transition: exactly the edge attributes named in `MetadataKeys`. */
  function Metadata(data: map<string, Value>): (m: map<string, Value>)
    ensures m.Keys == data.Keys * MetadataKeys
    ensures forall k :: k in m ==> m[k] == data[k]
  {
    map k | k in data && k in MetadataKeys :: data[k]
  }

  /** How a chain of single out-edges stops. */
  datatype End = Terminal | Branch | Cycle

  /** The node the chain `es` from `n` has reached. */
  function Last(n: NodeId, es: seq<WEdge>): NodeId
    decreases |es|
  {
    if es == [] then n else Last(es[0].dst, es[1..])
  }

  /** Following the only out-edge of a fresh node stays in the graph and shrinks the unvisited part. */
  lemma StepInside(g: Witness, n: NodeId, visited: set<NodeId>)
    requires WellFormed(g) && n in Ids(g) && visited <= Ids(g) && n !in visited
    requires |OutEdges(g, n)| == 1
    ensures OutEdges(g, n)[0].dst in Ids(g)
    ensures visited + {n} <= Ids(g)
    ensures |Ids(g) - (visited + {n})| < |Ids(g) - visited|
  {
    var e := OutEdges(g, n)[0];
    assert e in g.edges;
    var k :| 0 <= k < |g.edges| && g.edges[k] == e;
    assert Ids(g) - (visited + {n}) < Ids(g) - visited;
  }

  /**
   The graph part of the walk: the edges followed from `n` while every node
   has exactly one out-edge, and how the chain stopped. Returning to a node
   already left is where the Python loop would run forever.
   */
  function Chain(g: Witness, n: NodeId, visited: set<NodeId>): (r: (seq<WEdge>, End))
    requires WellFormed(g) && n in Ids(g) && visited <= Ids(g)
    ensures |r.0| > 0 ==> n !in visited && OutEdges(g, n) == [r.0[0]]
    decreases |Ids(g) - visited|
  {
    if n in visited then ([], Cycle)
    else
      var out := OutEdges(g, n);
      if |out| == 0 then ([], Terminal)
      else if |out| > 1 then ([], Branch)
      else
        StepInside(g, n, visited);
        var rest := Chain(g, out[0].dst, visited + {n});
        ([out[0]] + rest.0, rest.1)
  }

  /** One step of the chain from a fresh node with a single out-edge. */
  lemma ChainStep(g: Witness, n: NodeId, visited: set<NodeId>)
    requires WellFormed(g) && n in Ids(g) && visited <= Ids(g)
    requires n !in visited && |OutEdges(g, n)| == 1
    ensures var e := OutEdges(g, n)[0];
      && e.src == n && e.dst in Ids(g) && visited + {n} <= Ids(g)
      && |Ids(g) - (visited + {n})| < |Ids(g) - visited|
      && Chain(g, n, visited) == ([e] + Chain(g, e.dst, visited + {n}).0, Chain(g, e.dst, visited + {n}).1)
  {
    assert OutEdges(g, n)[0] in OutEdges(g, n);
    StepInside(g, n, visited);
  }

  /** `es` is a chain from `n`: each edge is the only out-edge of its source, linked head to tail. */
  predicate Linked(g: Witness, n: NodeId, es: seq<WEdge>)
    decreases |es|
  {
    es == [] || (es[0].src == n && OutEdges(g, n) == [es[0]] && Linked(g, es[0].dst, es[1..]))
  }

  lemma {:induction false} LinkedIndices(g: Witness, n: NodeId, es: seq<WEdge>)
    requires Linked(g, n, es)
    ensures forall i :: 0 <= i < |es| ==> OutEdges(g, es[i].src) == [es[i]]
    ensures |es| > 0 ==> es[0].src == n
    ensures forall i :: 0 <= i < |es| - 1 ==> es[i].dst == es[i + 1].src
    decreases |es|
  {
    if es != [] {
      LinkedIndices(g, es[0].dst, es[1..]);
      assert forall i :: 1 <= i < |es| ==> es[i] == es[1..][i - 1];
    }
  }

  lemma {:induction false} ChainIsLinked(g: Witness, n: NodeId, visited: set<NodeId>)
    requires WellFormed(g) && n in Ids(g) && visited <= Ids(g)
    ensures Linked(g, n, Chain(g, n, visited).0)
    decreases |Ids(g) - visited|
  {
    if n !in visited && |OutEdges(g, n)| == 1 {
      ChainStep(g, n, visited);
      var e := OutEdges(g, n)[0];
      ChainIsLinked(g, e.dst, visited + {n});
      var es := Chain(g, n, visited).0;
      assert es[1..] == Chain(g, e.dst, visited + {n}).0;
    }
  }

  /** Each followed edge is the only out-edge of its source, and the edges are linked head to tail from `n`. */
  lemma ChainLinked(g: Witness, n: NodeId, visited: set<NodeId>)
    requires WellFormed(g) && n in Ids(g) && visited <= Ids(g)
    ensures var r := Chain(g, n, visited);
      && (forall i :: 0 <= i < |r.0| ==> OutEdges(g, r.0[i].src) == [r.0[i]])
      && (|r.0| > 0 ==> r.0[0].src == n)
      && (forall i :: 0 <= i < |r.0| - 1 ==> r.0[i].dst == r.0[i + 1].src)
  {
    ChainIsLinked(g, n, visited);
    LinkedIndices(g, n, Chain(g, n, visited).0);
  }

  /** The chain is terminal only at a node with no out-edge. */
  lemma {:induction false} ChainTerminal(g: Witness, n: NodeId, visited: set<NodeId>)
    requires WellFormed(g) && n in Ids(g) && visited <= Ids(g)
    ensures var r := Chain(g, n, visited); r.1 == Terminal ==> |OutEdges(g, Last(n, r.0))| == 0
    decreases |Ids(g) - visited|
  {
    if n !in visited && |OutEdges(g, n)| == 1 {
      var e := OutEdges(g, n)[0];
      ChainStep(g, n, visited);
      ChainTerminal(g, e.dst, visited + {n});
      var rest := Chain(g, e.dst, visited + {n});
      assert ([e] + rest.0)[1..] == rest.0;
    }
  }

  /** The chain stops as branching only at a node with several out-edges. */
  lemma {:induction false} ChainBranch(g: Witness, n: NodeId, visited: set<NodeId>)
    requires WellFormed(g) && n in Ids(g) && visited <= Ids(g)
    ensures var r := Chain(g, n, visited); r.1 == Branch ==> |OutEdges(g, Last(n, r.0))| > 1
    decreases |Ids(g) - visited|
  {
    if n !in visited && |OutEdges(g, n)| == 1 {
      var e := OutEdges(g, n)[0];
      ChainStep(g, n, visited);
      ChainBranch(g, e.dst, visited + {n});
      var rest := Chain(g, e.dst, visited + {n});
      assert ([e] + rest.0)[1..] == rest.0;
    }
  }

  /**
   The chain ends at a node with no out-edge or with several only when it
   says so; when its last node was not visited before the chain started,
   the out-degree of that node alone says how the chain ended.
   */
  lemma ChainEnd(g: Witness, n: NodeId, visited: set<NodeId>)
    requires WellFormed(g) && n in Ids(g) && visited <= Ids(g)
    ensures var r := Chain(g, n, visited);
      && (r.1 == Terminal ==> |OutEdges(g, Last(n, r.0))| == 0)
      && (r.1 == Branch ==> |OutEdges(g, Last(n, r.0))| > 1)
    ensures var r := Chain(g, n, visited);
      Last(n, r.0) !in visited ==>
        && (r.1 == Terminal <==> |OutEdges(g, Last(n, r.0))| == 0)
        && (r.1 == Branch <==> |OutEdges(g, Last(n, r.0))| > 1)
        && (r.1 == Cycle <==> |OutEdges(g, Last(n, r.0))| == 1)
  {
    ChainTerminal(g, n, visited);
    ChainBranch(g, n, visited);
    ChainCycle(g, n, visited);
    ChainIsLinked(g, n, visited);
    var r := Chain(g, n, visited);
    if r.1 == Cycle && Last(n, r.0) !in visited {
      LinkedSources(g, n, r.0, Last(n, r.0));
    }
  }

  /** Every node a chain leaves has exactly one out-edge. */
  lemma {:induction false} LinkedSources(g: Witness, n: NodeId, es: seq<WEdge>, x: NodeId)
    requires Linked(g, n, es) && x in Sources(es)
    ensures |OutEdges(g, x)| == 1
    decreases |es|
  {
    if es[0].src != x {
      LinkedSources(g, es[0].dst, es[1..], x);
    }
  }

  /** The source nodes of the edges `es`. */
  function Sources(es: seq<WEdge>): set<NodeId> {
    if es == [] then {} else {es[0].src} + Sources(es[1..])
  }

  /** A chain that stops on a cycle stops at a node visited before it started or left during it. */
  lemma {:induction false} ChainCycle(g: Witness, n: NodeId, visited: set<NodeId>)
    requires WellFormed(g) && n in Ids(g) && visited <= Ids(g)
    ensures var r := Chain(g, n, visited);
      r.1 == Cycle ==> Last(n, r.0) in visited + Sources(r.0)
    decreases |Ids(g) - visited|
  {
    if n !in visited && |OutEdges(g, n)| == 1 {
      var e := OutEdges(g, n)[0];
      ChainStep(g, n, visited);
      ChainCycle(g, e.dst, visited + {n});
      var rest := Chain(g, e.dst, visited + {n});
      var es := [e] + rest.0;
      assert Chain(g, n, visited) == (es, rest.1);
      assert es[1..] == rest.0;
      assert Sources(es) == {n} + Sources(rest.0);
      assert Last(n, es) == Last(e.dst, rest.0);
    }
  }

  /** `get_coords` for every edge in turn, then the way the chain ended; `multi` when the graph is a multigraph. */
  function Emit(f: string, multi: bool, es: seq<WEdge>, end: End): Result<seq<Transition>, Failure> {
    if es == [] then
      match end
      case Terminal => Success([])
      case Branch => Failure(HasBranching)
      case Cycle => Failure(Diverges)
    else
      match GetCoords(f, EdgeHints(multi, es[0]))
      case Failure(err) => Failure(err)
      case Success(c) =>
        match Emit(f, multi, es[1..], end)
        case Failure(err) => Failure(err)
        case Success(ts) => Success([Transition(c, Metadata(EdgeData(multi, es[0])))] + ts)
  }

  /** The `while` loop of `extract_metadata`, from node `n`; `visited` are the nodes already left. */
  function Walk(g: Witness, f: string, n: NodeId, visited: set<NodeId>): Result<seq<Transition>, Failure>
    requires WellFormed(g) && n in Ids(g) && visited <= Ids(g)
    decreases |Ids(g) - visited|
  {
    if n in visited then Failure(Diverges)
    else
      var out := OutEdges(g, n);
      if |out| == 0 then Success([])
      else if |out| > 1 then Failure(HasBranching)
      else
        var e := out[0];
        StepInside(g, n, visited);
        match GetCoords(f, EdgeHints(Parallel(g), e))
        case Failure(err) => Failure(err)
        case Success(c) =>
          match Walk(g, f, e.dst, visited + {n})
          case Failure(err) => Failure(err)
          case Success(ts) => Success([Transition(c, Metadata(EdgeData(Parallel(g), e)))] + ts)
  }

  /** The walk is the chain of the graph followed by per-edge coordinate resolution. */
  lemma {:induction false} WalkIsEmitOfChain(g: Witness, f: string, n: NodeId, visited: set<NodeId>)
    requires WellFormed(g) && n in Ids(g) && visited <= Ids(g)
    ensures Walk(g, f, n, visited) == Emit(f, Parallel(g), Chain(g, n, visited).0, Chain(g, n, visited).1)
    decreases |Ids(g) - visited|
  {
    if n !in visited {
      var out := OutEdges(g, n);
      if |out| == 1 {
        var e := out[0];
        StepInside(g, n, visited);
        WalkIsEmitOfChain(g, f, e.dst, visited + {n});
        var rest := Chain(g, e.dst, visited + {n});
        assert ([e] + rest.0)[1..] == rest.0;
      }
    }
  }

  /**
   A successful emission has one transition per edge, in order, and comes
   from a chain that ended at a node without out-edges. In a simple graph
   each transition is built from its edge's coordinates and metadata; in a
   multigraph every transition is empty.
   */
  lemma {:induction false} EmitSuccess(f: string, multi: bool, es: seq<WEdge>, end: End)
    requires Emit(f, multi, es, end).Success?
    ensures end == Terminal
    ensures var ts := Emit(f, multi, es, end).value;
      && |ts| == |es|
      && (!multi ==> forall i :: 0 <= i < |es| ==>
           GetCoords(f, es[i].hints).Success?
           && ts[i] == Transition(GetCoords(f, es[i].hints).value, Metadata(es[i].data)))
      && (multi ==> forall i :: 0 <= i < |es| ==> ts[i] == Transition(None, map[]))
  {
    if es != [] {
      EmitSuccess(f, multi, es[1..], end);
      var ts := Emit(f, multi, es, end).value;
      if multi {
        GetCoordsNoHints(f, None);
        assert Metadata(map[]) == map[];
      }
      assert forall i :: 1 <= i < |es| ==> es[i] == es[1..][i - 1] && ts[i] == ts[1..][i - 1];
    }
  }

  /** With every edge's coordinates resolvable, the way the chain ended decides the outcome. */
  lemma {:induction false} EmitResolved(f: string, multi: bool, es: seq<WEdge>, end: End)
    requires forall i :: 0 <= i < |es| ==> GetCoords(f, EdgeHints(multi, es[i])).Success?
    ensures Emit(f, multi, es, end).Success? <==> end == Terminal
    ensures end == Branch ==> Emit(f, multi, es, end) == Failure(HasBranching)
    ensures end == Cycle ==> Emit(f, multi, es, end) == Failure(Diverges)
  {
    if es != [] {
      assert forall i :: 1 <= i < |es| ==> es[i] == es[1..][i - 1];
      assert GetCoords(f, EdgeHints(multi, es[0])).Success?;
      EmitResolved(f, multi, es[1..], end);
    }
  }

  /**
   Branching is reported exactly when the chain stopped at a branching node
   and every edge before it had resolvable coordinates: no partial result.
   */
  lemma {:induction false} EmitBranching(f: string, multi: bool, es: seq<WEdge>, end: End)
    ensures Emit(f, multi, es, end) == Failure(HasBranching) <==>
      end == Branch && forall i :: 0 <= i < |es| ==> GetCoords(f, EdgeHints(multi, es[i])).Success?
  {
    if es != [] {
      EmitBranching(f, multi, es[1..], end);
      assert forall i :: 1 <= i < |es| ==> es[i] == es[1..][i - 1];
    }
  }

  /**
   `extract_metadata`: a witness whose type is not `violation_witness` is
   refused, then the entry is resolved and the walk runs from it.
   */
  function ExtractMetadata(g: Witness, f: string): (r: Result<seq<Transition>, Failure>)
    requires WellFormed(g)
    ensures r == Failure(Crashed(MissingWitnessType)) <==> "witness-type" !in g.graphAttrs
    ensures r == Failure(CorrectnessWitness) <==>
      "witness-type" in g.graphAttrs && g.graphAttrs["witness-type"] != "violation_witness"
    ensures r.Success? ==>
      && ResolveEntry(g).Success?
      && var ch := Chain(g, ResolveEntry(g).value, {});
         && ch.1 == Terminal
         && |r.value| == |ch.0|
         && (!Parallel(g) ==> forall i :: 0 <= i < |ch.0| ==>
              GetCoords(f, ch.0[i].hints).Success?
              && r.value[i] == Transition(GetCoords(f, ch.0[i].hints).value, Metadata(ch.0[i].data)))
         && (Parallel(g) ==> forall i :: 0 <= i < |ch.0| ==> r.value[i] == Transition(None, map[]))
  {
    if "witness-type" !in g.graphAttrs then Failure(Crashed(MissingWitnessType))
    else if g.graphAttrs["witness-type"] != "violation_witness" then Failure(CorrectnessWitness)
    else
      match ResolveEntry(g)
      case Failure(err) => Failure(err)
      case Success(entry) =>
        assert entry in EntryCandidates(g);
        assert entry in Ids(g);
        WalkIsEmitOfChain(g, f, entry, {});
        var ch := Chain(g, entry, {});
        var r := Walk(g, f, entry, {});
        EmitNeverRefuses(f, Parallel(g), ch.0, ch.1);
        if r.Success? then
          EmitSuccess(f, Parallel(g), ch.0, ch.1);
          r
        else
          r
  }

  /** The walk never produces the failures of the header checks or of the entry resolution. */
  lemma {:induction false} EmitNeverRefuses(f: string, multi: bool, es: seq<WEdge>, end: End)
    ensures Emit(f, multi, es, end) != Failure(Crashed(MissingWitnessType))
    ensures Emit(f, multi, es, end) != Failure(CorrectnessWitness)
    ensures Emit(f, multi, es, end) != Failure(NoEntryNode)
    ensures Emit(f, multi, es, end) != Failure(MultipleEntryNodes)
  {
    if es != [] {
      EmitNeverRefuses(f, multi, es[1..], end);
    }
  }

  /**
   The outcomes of `extract_metadata` on a violation witness. "No entry
   node" and "Multiple entry nodes" are reported exactly for no and for
   several entry candidates. Past the entry, when every edge of the chain
   has resolvable coordinates, the chain's end decides: a path exactly when
   it ends at a node without out-edges, "Has branching" at a branching node,
   and divergence on a cycle.
   */
  lemma ExtractMetadataOutcomes(g: Witness, f: string)
    requires WellFormed(g)
    requires "witness-type" in g.graphAttrs && g.graphAttrs["witness-type"] == "violation_witness"
    ensures ExtractMetadata(g, f) == Failure(NoEntryNode) <==> EntryCandidates(g) == {}
    ensures ExtractMetadata(g, f) == Failure(MultipleEntryNodes) <==> |EntryCandidates(g)| > 1
    ensures ResolveEntry(g).Success? ==>
      var ch := Chain(g, ResolveEntry(g).value, {});
      (forall i :: 0 <= i < |ch.0| ==> GetCoords(f, EdgeHints(Parallel(g), ch.0[i])).Success?) ==>
        && (ExtractMetadata(g, f).Success? <==> ch.1 == Terminal)
        && (ch.1 == Branch ==> ExtractMetadata(g, f) == Failure(HasBranching))
        && (ch.1 == Cycle ==> ExtractMetadata(g, f) == Failure(Diverges))
  {
    if ResolveEntry(g).Success? {
      var entry := ResolveEntry(g).value;
      assert entry in EntryCandidates(g);
      assert entry in Ids(g);
      WalkIsEmitOfChain(g, f, entry, {});
      var ch := Chain(g, entry, {});
      EmitNeverRefuses(f, Parallel(g), ch.0, ch.1);
      if forall i :: 0 <= i < |ch.0| ==> GetCoords(f, EdgeHints(Parallel(g), ch.0[i])).Success? {
        EmitResolved(f, Parallel(g), ch.0, ch.1);
      }
    }
  }
}

=== FILE: wrappers.dfy ===
/** Failure-compatible wrappers shared by every module of the model. */
module Wrappers {

  /** An optional value; `None` plays the role of Python's `None`. */
  datatype Option<+T> = None | Some(value: T) {

    predicate IsFailure() {
      None?
    }

    function PropagateFailure<U>(): Option<U>
      requires None?
    {
      None
    }

    function Extract(): T
      requires Some?
    {
      value
    }
  }

  /** Either a value or the reason the computation stopped. */
  datatype Result<+R, +E> = Success(value: R) | Failure(error: E) {

    predicate IsFailure() {
      Failure?
    }

    function PropagateFailure<U>(): Result<U, E>
      requires Failure?
    {
      Failure(error)
    }

    function Extract(): R
      requires Success?
    {
      value
    }
  }
}

/**
 The ways the validator can stop before reaching a verdict.

 `KnownErrorVerdict` exceptions of the Python code become the first four
 constructors; every other Python exception raised while the witness is
 applied becomes `Crashed`, which the driver reports as "Incompatible
 witness"; `Diverges` stands for a loop of the source that never ends.
 */
module Failures {

  /** The Python exception behind a `Crashed` failure. */
  datatype Crash =
    | MissingWitnessType   // KeyError: the graph has no "witness-type" attribute
    | MissingHint          // TypeError: int(None) on an absent offset or end line
    | NegativeSeek         // ValueError: seek to a negative offset
    | NoTransitions        // IndexError: metadata[0] on an empty path
    | NoTarget             // AttributeError: no statement found for a thread switch
    | EmptyBlockTarget     // AttributeError: the found "statement" is an empty block
    | CompoundTarget       // AttributeError: a block has no `stmt` field

  datatype Failure =
    | CorrectnessWitness
    | NoEntryNode
    | MultipleEntryNodes
    | HasBranching
    | Crashed(kind: Crash)
    | Diverges

  /** The text printed after "Verdict: " for a failure that terminates. */
  function Reason(f: Failure): string
    requires !f.Diverges?
  {
    match f
    case CorrectnessWitness => "Correctness witness"
    case NoEntryNode => "No entry node"
    case MultipleEntryNodes => "Multiple entry nodes"
    case HasBranching => "Has branching"
    case Crashed(_) => "Incompatible witness"
  }
}

/** Attribute and constant values, compared as Python compares them. */
module Values {

  /** A Python int or str; `VInt(0) != VStr("0")`, as `0 != "0"` in Python. */
  datatype Value = VInt(i: int) | VStr(s: string)
}
